=== FILE: README.md ===
# graphql-compose-modules in Dafny

A model of graphql-compose-modules, which builds a GraphQL schema from a directory tree.
Directories named `query`, `mutation` and `subscription` (or `query.x`, …) hold one file per
field; sub-directories become namespaces with object types of their own; an `index` file
configures the namespace it sits in. The model covers:

- the two loaders that turn a directory listing into an AST: the current `directoryToAst`
  (module `DirectoryToAst`) and the earlier `requireSchemaDirectory`
  (module `RequireSchemaDirectory`);
- the three schema builders: `astToSchema` (`AstToSchema`), the earlier
  `requireAstToSchema` (`RequireAstToSchema`) and the first `requireToSchema`
  (`RequireToSchema`);
- `astMerge` (`AstMerge`), `astVisitor` (`AstVisitor`), the path helpers of `VisitInfo`
  (`VisitInfos`), and `_getArgsForQuery` of the test helpers (`TestHelpers`).

Shared pieces:

- `JsValues` holds the JavaScript values the library inspects. Only the distinctions its
  branches make are kept: truthiness, `typeof`, arrays, `instanceof` and own properties.
  `KeyLookup` says how a lookup `obj[key]` on a plain object is read (see Findings).
  `TypeOracle` holds the graphql-compose tests the library calls, left uninterpreted.
- `Ast` holds the AST nodes. `Strings` holds the string functions: `split`, `join`,
  `lastIndexOf`, `upperFirst`, `basename` and case folding.
- `Registry` is an abstract `SchemaComposer`: the set of object types created and the set
  of fields added, each field on a named owner.

Siblings are visited in `Object.keys` order, which the model does not fix. So a builder
that throws reports the set of errors that some order of the siblings would throw first.

The file system is an input: a listing in `readdirSync` order, each file entry carrying the
module `require` would return. A schema builder returns the schema or its errors instead
of throwing.

Where the tests and the code disagree, the model follows the code:

- The merge and dot-notation tests call `directoryToAst` with a `relativePath` option.
  `directoryToAst` refuses that option with an error (src/directoryToAst.ts:83-87), and so
  does `DirectoryToAst.DirectoryToAst`.
- The VisitInfo test expects a dotted field name to be split into parts. The code does not
  split it. See Findings.

## Model

| member | source | states |
|---|---|---|
| DirectoryToAst.WithDefaults | src/directoryToAst.ts:57-59 | missing `extensions` become `['js', 'ts']`; options that have `extensions` stay as they are; the other options are never touched |
| DirectoryToAst.DefaultsKeepInclusion | src/directoryToAst.ts:95-100 | filling in the defaults does not change which entries `checkInclusion` accepts |
| DirectoryToAst.CheckInclusion | src/directoryToAst.ts:226-279 | an entry is included iff its name does not start with `__` or `.`; for files, it also matches the extension pattern and is not a `.d.ts`, `.spec.ts` or `.spec.js` file; `include` accepts it; and `exclude` does not reject it |
| DirectoryToAst.Alternatives | src/directoryToAst.ts:245 | the extension pattern always has at least one alternative |
| DirectoryToAst.AlternativesOfPlain | src/directoryToAst.ts:245 | for a non-empty list of extensions without `\|`, the pattern's alternatives are exactly those extensions |
| DirectoryToAst.EmptyExtensionList | src/directoryToAst.ts:242-256 | an empty extension list gives the pattern `\.()$`, which accepts any file name ending in a dot |
| DirectoryToAst.DefaultExtensionTest | src/directoryToAst.ts:242-256 | with the default extensions, a name passes the extension test iff, lower-cased, it ends in `.js` or `.ts` |
| DirectoryToAst.CopyConfig | src/directoryToAst.ts:294-301 | a valid default export that is not a `Resolver` is copied property for property |
| DirectoryToAst.PrepareFieldConfig | src/directoryToAst.ts:281-322 | success iff the default export is a truthy object, its `type` (checked unless it is an `index` file) is an output type definition, and `resolve`, when truthy, is a function; success returns the copied config; the checks fail in that order: a missing default export is `MissingDefaultExport`, then a failed type check is `InvalidFieldType`, then a `resolve` that is not a function is `ResolveNotFunction` |
| DirectoryToAst.GetAstForFile | src/directoryToAst.ts:203-224 | nothing for the caller's own file or an excluded one; for any other file, the file node named after the file without its last extension, holding the module and the config `prepareFieldConfig` makes of it (type checked unless the name is `index`), or exactly that function's error |
| DirectoryToAst.GetAstForDir | src/directoryToAst.ts:151-201 | nothing iff the directory is excluded; otherwise a `dir` node named after the path whose child keys are exactly the keys of its included entries: sub-directory names, and the module names of loaded files other than the caller's and `index`; for slash-free entry names every child sits under its own name |
| DirectoryToAst.GetAstForDirOutcome | src/directoryToAst.ts:151-201 | for an included directory: success iff no entry fails against the names taken before it; otherwise the first failing entry's error; on success each included sub-directory is stored as its own listing loads, each included file other than `index` as `getAstForFile` loads it, and the namespace config is the last `index` file's node (none when there is none) |
| DirectoryToAst.AddEntries | src/directoryToAst.ts:168-198 | the node keeps its name and path; an empty remainder changes nothing; its children's keys become the existing ones plus exactly the keys of the remaining included entries; the tree stays well formed for slash-free names; a collision names a directory at or below this one |
| DirectoryToAst.AddEntriesOutcome | src/directoryToAst.ts:168-198 | the `forEach` succeeds iff no entry fails against the names taken before it (a later entry sees the keys the earlier ones stored); otherwise it fails with the first failing entry's error; on success it keeps the existing children, stores every loaded sub-directory and file under its key, and sets the namespace config from the last `index` file, keeping the existing one when there is none |
| DirectoryToAst.AddEntryOutcome | src/directoryToAst.ts:168-198 | one entry succeeds iff `EntryError` finds nothing (a taken directory name, a load error, or a taken file name other than `index`), fails with that error, and on success keeps the existing children and stores what it loaded: a sub-directory or file under its key, or an `index` file as the namespace config |
| DirectoryToAst.LastSet | src/directoryToAst.ts:187-188 | the position found is flagged and no later one is; none means no position from the start is flagged (the last `index` file is the one that stays the namespace config) |
| DirectoryToAst.AddEntry | src/directoryToAst.ts:168-198 | a sub-directory fails with a collision iff its name is already taken; otherwise it fails with its own listing's error or is stored as `AttachDir` says; a file that fails to load fails with its loading error; a loaded file other than `index` whose name is taken is a collision; any other entry changes nothing; a success keeps the node's name and path, adds exactly the entry's key, and keeps the node well formed |
| DirectoryToAst.AddFileEntry | src/directoryToAst.ts:185-196 | a file entry fails with its loading error, or with a collision when it loads under a taken name other than `index`; a success adds exactly the entry's key |
| DirectoryToAst.LoadedFileKey | src/directoryToAst.ts:185-196 | a file that loads has a key iff it was included and is not `index`, and that key is its module name |
| DirectoryToAst.AttachDir | src/directoryToAst.ts:179-182 | an included sub-directory is stored under its entry name; nothing else changes |
| DirectoryToAst.AttachFile | src/directoryToAst.ts:185-196 | `index` becomes the namespace config; any other file is stored under its name, so the keys gain exactly that name; it fails iff that name is already taken, with a collision error naming the directory |
| DirectoryToAst.AddLoadedFile | src/directoryToAst.ts:185-196 | a file entry that loads is stored as `AttachFile` says |
| DirectoryToAst.SameModuleNameCollides | src/directoryToAst.ts:189-192 | two included files with the same name before the extension (`a.ts`, `a.js`) are a collision, whichever lookup is used |
| DirectoryToAst.OperationSuffix | src/directoryToAst.ts:114-117 | after the operation word comes nothing, or a dot followed by the sub-field |
| DirectoryToAst.MatchOperationDir | src/directoryToAst.ts:114-117 | a match starts, ignoring case, with the operation's word, followed by nothing or by `.` and the sub-field |
| DirectoryToAst.OperationDirRoundTrip | src/directoryToAst.ts:114-117 | round trip: the bare operation word gives that operation with no sub-field; `word.X` gives that operation and the sub-field `X` |
| DirectoryToAst.OperationWordMatches | src/directoryToAst.ts:114-117 | the operation word followed by any text matches as that operation, with the text judged as a suffix |
| DirectoryToAst.OperationDirExamples | src/directoryToAst.ts:114-117 | `Query.me` is query with `me`; `MUTATION` is mutation; `query.` is query with an empty sub-field, which counts as none |
| DirectoryToAst.AddRootEntry | src/directoryToAst.ts:109-146 | entries that are not operation directories, and excluded ones, change nothing; otherwise the root types gain exactly the operation of an included operation directory, stay keyed by operation, and none is lost |
| DirectoryToAst.AddOperationDir | src/directoryToAst.ts:118-143 | an excluded operation directory changes nothing; an included one adds its operation, leaves every other root type as it was, and stores under its operation what `TakeOver` builds from the root type already there (or a new one at the path) and the loaded directory |
| DirectoryToAst.TakeOver | src/directoryToAst.ts:128-141 | `query.X` stores the loaded directory as child `X` named `X` at the path, keeping the root type's other children and namespace config; a bare `query` takes over the directory's children and, when it has one, its namespace config; the root type keeps its name and path |
| DirectoryToAst.AddRootEntries | src/directoryToAst.ts:109-146 | an empty remainder changes nothing; the root types are exactly those already there plus the operations of the included operation directories of the listing; they stay keyed by operation; no nested error is a `relativePath` error |
| DirectoryToAst.AddRootEntryOutcome | src/directoryToAst.ts:109-146 | a top-level entry fails iff it is an operation directory whose own listing fails, with that error; on success every root type moves by `OperationStep`: only an included directory of its own operation changes it, through `TakeOver` |
| DirectoryToAst.AddRootEntriesOutcome | src/directoryToAst.ts:109-146 | the top-level `forEach` succeeds iff no operation directory fails to load; otherwise it fails with the first failing one's error; on success each operation's root type is what that operation's own directories make of it, in listing order (`OperationRootType`) |
| DirectoryToAst.DirectoryToAstOutcome | src/directoryToAst.ts:78-149 | `directoryToAst` succeeds iff `relativePath` is not truthy and every operation directory loads under the default options; it fails with the first failing directory's error; on success each root type is what its own operation directories make of it, in listing order |
| DirectoryToAst.DirectoryToAst | src/directoryToAst.ts:78-149 | fails with the `relativePath` error iff that option is truthy; a success is a root named after the schema directory, at that path, whose root types are exactly the operations of the listing's included operation directories, each keyed by its operation |
| DirectoryToAst.ConstructorTsIncluded | src/directoryToAst.ts:226-279 | `constructor.ts` passes every built-in inclusion test |
| DirectoryToAst.ConstructorFileLoads | src/directoryToAst.ts:203-224 | `constructor.ts` exporting `{ type: 'String' }` loads as the file node `constructor` |
| DirectoryToAst.PrototypeNameCollides | src/directoryToAst.ts:189-192 | as written, a file named after an Object.prototype member is reported as a collision in a directory without that name |
| DirectoryToAst.OwnKeysStoresPrototypeNamedFile | src/directoryToAst.ts:185-196 | corrected: with own-key lookups, such a file is stored under its name |
| DirectoryToAst.OwnKeysCollisionIsReal | src/directoryToAst.ts:174-178 | corrected: a sub-directory collision is reported only for a name the directory already holds |
| DirectoryToAst.ConstructorFileExample | src/directoryToAst.ts:189-192 | `constructor.ts` in an empty directory collides as written and is stored with own-key lookups |
| RequireSchemaDirectory.WithDefaults | src/requireSchemaDirectory.ts:106-111 | only `extensions` has a default, which is filled in when the option is undefined |
| RequireSchemaDirectory.DefaultsKeepFileInclusion | src/requireSchemaDirectory.ts:106-111 | filling in the defaults does not change which files are included |
| RequireSchemaDirectory.CheckFileInclusion | src/requireSchemaDirectory.ts:149-170 | a file is included iff it matches the extension pattern, `include` accepts it and `exclude` does not reject it |
| RequireSchemaDirectory.HiddenFilesIncluded | src/requireSchemaDirectory.ts:149-170 | a `__`-prefixed `.ts` file is included here, but skipped by the later loader's `checkInclusion` |
| RequireSchemaDirectory.RequireSubDirectory | src/requireSchemaDirectory.ts:94-147 | a `dir` node named after the path whose child keys are exactly the entries' keys: sub-directory names and the names without extension of included files other than the caller's own |
| RequireSchemaDirectory.RequireSubDirectoryOutcome | src/requireSchemaDirectory.ts:94-147 | `requireSubDirectory` succeeds iff no entry fails against the names taken before it (under the default options); otherwise it fails with the first failing entry's error; on success every sub-directory is stored as its own listing loads, and every included file other than the caller's is stored as its module |
| RequireSchemaDirectory.AddEntries | src/requireSchemaDirectory.ts:114-144 | the entries are added in order; an empty remainder changes nothing; the child keys are the existing ones plus each remaining entry's key, and nothing else |
| RequireSchemaDirectory.AddEntriesOutcome | src/requireSchemaDirectory.ts:114-144 | the `forEach` succeeds iff no entry fails against the names taken before it; otherwise it fails with the first failing entry's error; on success it keeps the existing children and stores every sub-directory and included file under its key |
| RequireSchemaDirectory.AddEntryOutcome | src/requireSchemaDirectory.ts:114-144 | one entry succeeds iff `EntryError` finds nothing (a taken name, or a failing sub-directory), and fails with that error |
| RequireSchemaDirectory.AddEntry | src/requireSchemaDirectory.ts:114-144 | a sub-directory whose name is taken is an error; otherwise it fails with its own listing's error, or is stored under its name at the joined path; an included file is stored under its name without the last extension (`index` included), failing iff that name is taken; the caller's own file, excluded files and other entries change nothing |
| RequireSchemaDirectory.IndexFileKept | src/requireSchemaDirectory.ts:128-141 | `index.ext` is stored as an ordinary child named `index` |
| RequireSchemaDirectory.SameModuleNameClashes | src/requireSchemaDirectory.ts:131-135 | two included files with the same name before the extension are an error |
| RequireSchemaDirectory.RootFor | src/requireSchemaDirectory.ts:69-75 | the root type already there, or a new, empty one at the directory's path |
| RequireSchemaDirectory.AddRootEntry | src/requireSchemaDirectory.ts:60-89 | only operation directories contribute, adding exactly their operation; the step succeeds iff the entry is no operation directory or its directory loads |
| RequireSchemaDirectory.AddOperationDir | src/requireSchemaDirectory.ts:67-86 | succeeds iff the directory loads; `query.X` adds the directory as child `X`, a bare `query` replaces the root type's children; no other root type changes |
| RequireSchemaDirectory.AddRootEntries | src/requireSchemaDirectory.ts:60-89 | the root types are those already there plus exactly the operations of the listing's operation directories, each keyed by its operation |
| RequireSchemaDirectory.AddRootEntriesLoads | src/requireSchemaDirectory.ts:60-89 | the remaining listing is added without error iff every operation directory in it loads |
| RequireSchemaDirectory.RequireSchemaDirectoryOf | src/requireSchemaDirectory.ts:49-92 | the root types are exactly the operations of the listing's operation directories, each keyed by its operation; it succeeds iff every operation directory loads |
| AstToSchema.GetTypename | src/astToSchema.ts:112-130 | accepted iff the name is dot-free or has no empty dot-separated piece; the type name is the pieces, each upper-cased at the front, run together; a rejection names the file |
| AstToSchema.GetTypenameAccepts | src/astToSchema.ts:112-130 | accepted iff dot-free or a dot-join of non-empty dot-free pieces |
| AstToSchema.GetTypenameOfSegments | src/astToSchema.ts:115-126 | round trip: joining pieces with dots and deriving the type name capitalises each piece |
| AstToSchema.GetTypenameRejects | src/astToSchema.ts:118-122 | a leading, trailing or doubled dot is rejected |
| AstToSchema.PlainTypename | src/astToSchema.ts:127-129 | a dot-free name's type name is the name upper-cased at its front |
| AstToSchema.PrepareFieldConfig | src/astToSchema.ts:185-213 | success iff the default export is truthy and its `type` is a truthy output type definition; the export is returned unchanged; a missing export is reported first |
| AstToSchema.NamespaceTypeName | src/astToSchema.ts:150-176 | no `type` gives a new type named `typename`; a string must be an output type definition or a type name; anything else must be an `ObjectTypeComposer` or a `GraphQLObjectType` |
| AstToSchema.PrepareNamespaceFieldConfig | src/astToSchema.ts:132-183 | the export with `type` replaced by the type it names, and a missing `resolve` filled with the default resolver; every other property is kept |
| AstToSchema.DirFieldConfig | src/astToSchema.ts:99-104 | the namespace's own properties over a default `resolve` |
| AstToSchema.DirNamespace | src/astToSchema.ts:93-97 | the `index` file's namespace config when that child is a file, else a new type called `typename` |
| AstToSchema.NamespaceKey | src/astToSchema.ts:77 | the key with `.index` appended gives the name back |
| AstToSchema.CreateFields | src/astToSchema.ts:57-110 | an invalid name is an error before anything else; files and directories are dispatched; a root type adds nothing; every field sits on the given owner or on a type the call creates |
| AstToSchema.CreateFileFields | src/astToSchema.ts:74-88 | `index` adds nothing; `x.index` adds field `x` of the type named prefix + the type name of `x.index`; any other file adds its config under its own name |
| AstToSchema.CreateDirFields | src/astToSchema.ts:90-109 | succeeds iff the type name, the namespace config and every child succeed; the type is prefix + the directory's type name |
| AstToSchema.DirBody | src/astToSchema.ts:99-108 | succeeds iff every child succeeds with the directory's type name as prefix and the namespace's type as owner; every field's owner is known |
| AstToSchema.ChildSteps | src/astToSchema.ts:106-108 | every child is built with the directory's type name as prefix and the directory's type as owner |
| AstToSchema.DirBodyContents | src/astToSchema.ts:99-108 | the result holds the directory's type and field and all of its children's types and fields, and no other type or field |
| AstToSchema.TypesCarryPrefix | src/astToSchema.ts:77-106 | when no namespace config names its own type, every type created below a node starts with the prefix it was given |
| AstToSchema.EmptyDirFields | src/astToSchema.ts:90-109 | an empty directory adds exactly one type, prefix + capitalised name, and one field of that type |
| AstToSchema.PlainDirIsBody | src/astToSchema.ts:91-97 | a directory without an `index` file is its body under prefix + capitalised name |
| AstToSchema.OneChildSteps | src/astToSchema.ts:106-108 | a directory with one child has one step |
| AstToSchema.OneChildBody | src/astToSchema.ts:99-108 | a directory whose one child succeeds adds its own type and field plus the child's |
| AstToSchema.NestedTypeNames | src/__tests__/astToSchema-test.ts:101-108 | `query.auth/nested` gives `QueryAuth` and `QueryAuthNested`, with `nested` on `QueryAuth` |
| AstToSchema.PopulateRoot | src/astToSchema.ts:46-55 | the root type exists; succeeds iff every child succeeds with the root name as prefix and owner; the result holds every child's types and fields, and no type or field that is not the root type or some child's |
| AstToSchema.PopulateIfPresent | src/astToSchema.ts:39-41 | a missing root changes nothing; a present one succeeds iff the root does, and then adds exactly what it builds |
| AstToSchema.AstToSchemaOf | src/astToSchema.ts:20-44 | the given composer (or an empty one) keeps everything it had; succeeds iff every present root succeeds; then every present root's types and fields are in, and nothing else is |
| AstToSchema.RootsCollected | src/astToSchema.ts:39-43 | populating query, mutation and subscription in turn keeps each present root's contribution and adds nothing beyond the start and those contributions |
| RequireAstToSchema.CreateFields | src/requireAstToSchema.ts:45-96 | an invalid name is an error first, then a type-name error for files too; files and directories are dispatched; every field's owner is known |
| RequireAstToSchema.CreateFileFields | src/requireAstToSchema.ts:61-74 | `index` adds nothing; `x.index` adds field `x` of type prefix + type name; others add their config |
| RequireAstToSchema.DirNamespace | src/requireAstToSchema.ts:79-83 | the `index` file's namespace config, or a new type called prefix + type name |
| RequireAstToSchema.CreateDirFields | src/requireAstToSchema.ts:77-95 | succeeds iff the namespace and the body succeed |
| RequireAstToSchema.DirBody | src/requireAstToSchema.ts:85-94 | succeeds iff every child succeeds with the directory's raw name as prefix |
| RequireAstToSchema.DirBodyContents | src/requireAstToSchema.ts:85-94 | the result holds the directory's namespace type, its own field on the owner, and all of its children's types and fields, and no other type or field |
| RequireAstToSchema.PopulateRoot | src/requireAstToSchema.ts:34-43 | the root type exists; succeeds iff every child succeeds; the result holds every child's types and fields and nothing else besides the root type |
| RequireAstToSchema.RequireAstToSchemaOf | src/requireAstToSchema.ts:21-32 | the given composer keeps everything; succeeds iff every root succeeds; then every present root's types and fields are in, and nothing else is |
| RequireAstToSchema.EmptyDirFields | src/requireAstToSchema.ts:77-95 | an empty directory adds one type, prefix + capitalised name, and its field |
| RequireAstToSchema.PlainDirIsBody | src/requireAstToSchema.ts:79-83 | a directory without `index` is its body under prefix + capitalised name |
| RequireAstToSchema.RawNamePrefix | src/requireAstToSchema.ts:92-94 | below directory `a`, child directory `b` gets the type `a` + `B`, not prefix + `A` + `B` as in the later builder |
| RequireAstToSchema.OneChildSteps | src/requireAstToSchema.ts:92-94 | a directory with one child has one step |
| RequireAstToSchema.OneChildBody | src/requireAstToSchema.ts:85-94 | a directory whose one child succeeds adds its own type and field plus the child's |
| RequireAstToSchema.FileDotsChecked | src/requireAstToSchema.ts:59 | a file named `a..b` is an error here, while the later builder adds it as a field |
| RequireToSchema.DerivedName | src/requireToSchema.ts:51-64 | a dot-free name stays as it is; a dotted one becomes its parts, capitalised and run together |
| RequireToSchema.SeparatedSplits | src/requireToSchema.ts:57-58 | a name with a dot splits into two parts or more, so the one-part branch is dead |
| RequireToSchema.DerivedNameAgrees | src/requireToSchema.ts:51-64 | where the later builders accept a dotted name, all derive the same name |
| RequireToSchema.EmptyPartsAccepted | src/requireToSchema.ts:54-63 | `a..b` derives `AB`, where the later builders reject the name |
| RequireToSchema.DoubleDotSplit | src/requireToSchema.ts:54 | `a..b` splits into `a`, an empty part, and `b` |
| RequireToSchema.OwnerOf | src/requireToSchema.ts:78 | children's fields go to the `type` value only when it is an `ObjectTypeComposer` |
| RequireToSchema.IndexDefault | src/requireToSchema.ts:66-68 | the truthy default export of the `index` file, else `{}` |
| RequireToSchema.DirTypeDefs | src/requireToSchema.ts:66-76 | an `index` default export that is not an object is an error; otherwise a string `type` becomes the type it defines, another truthy value is kept, and no value gives a new type named passed-down + capitalised derived name; the other properties are kept |
| RequireToSchema.CreateFields | src/requireToSchema.ts:37-89 | files and directories are dispatched; below a parent that is not a composer, success adds nothing |
| RequireToSchema.CreateFileFields | src/requireToSchema.ts:42-49 | `index` adds nothing; a falsy default export is an error, and so is any export when the parent is not a composer; otherwise the export is added as is under the file's name |
| RequireToSchema.CreateDirFields | src/requireToSchema.ts:50-88 | a type error of the `index` default comes first; otherwise the body |
| RequireToSchema.DirBody | src/requireToSchema.ts:78-87 | succeeds iff the parent is a composer and every child succeeds under the derived name; holds the own field, the created types and all children's additions, and no other type or field |
| RequireToSchema.PopulateRoot | src/requireToSchema.ts:26-35 | the root type exists; succeeds iff every child succeeds; the result holds every child's types and fields and nothing else besides the root type |
| RequireToSchema.RequireToSchemaOf | src/requireToSchema.ts:16-24 | succeeds iff every present root succeeds; then every present root's types and fields are in, and nothing else is |
| RequireToSchema.PlainTypeDefs | src/requireToSchema.ts:70-76 | without `index`, a new type named passed-down + capitalised derived name |
| RequireToSchema.EmptyDirFields | src/requireToSchema.ts:50-88 | an empty directory adds one type and its field |
| RequireToSchema.PlainDirIsBody | src/requireToSchema.ts:66-76 | a directory without `index` is its body under its new type |
| RequireToSchema.OneChildBody | src/requireToSchema.ts:78-87 | a directory whose one child succeeds adds its own field and type plus the child's |
| RequireToSchema.OneChildSteps | src/requireToSchema.ts:78-80 | a directory with one child has one step |
| RequireToSchema.NestedTypeNames | src/requireToSchema.ts:70-78 | directory `a` holding `b` gives `a` the type passed-down + `A'` and `b` the type `a'` + `B'` (derived names) |
| RequireToSchema.ExistingTypeKept | src/requireToSchema.ts:70-74 | an `index` naming an existing composer puts the children on that type and creates no type |
| Registry.CombineAll | src/astToSchema.ts:106-108 | siblings succeed iff each does, adding exactly the union of what they add; the errors are exactly those that some failing sibling could throw first |
| Registry.CombineOwners | src/astToSchema.ts:106-108 | combining steps that keep their owners known keeps owners known |
| Registry.CombineContents | src/astToSchema.ts:99-108 | a step's own additions plus its combined children hold all that each adds, and no type or field that none of them adds |
| Registry.CombineNone | src/astToSchema.ts:106-108 | with no children, nothing is added |
| Registry.CombineOne | src/astToSchema.ts:106-108 | a single successful child adds exactly what it adds |
| Strings.CapitalisedChars | src/VisitInfo.ts:113-117 | `map(upperFirst).join('')` upper-cases exactly the characters where a non-empty piece starts and keeps every other character of the pieces run together |
| Strings.SplitOfJoin | src/VisitInfo.ts:104-106 | splitting a join on its separator gives each piece's own split, one after another |
| AstMerge.MergeChildren | src/astMerge.ts:45-76 | with own-key lookups, the keys are those of both sides; target-only keys keep the target; source-only keys take the source; shared keys merge the nodes |
| AstMerge.MergeNode | src/astMerge.ts:53-72 | a target file gives way to the source; a target directory gives way to a source file and merges with a source directory: target name, both paths, the source's namespace config if it has one, the children merged by `mergeChildren`, and with own-key lookups the keys of both sides; a target root type is kept |
| AstMerge.MergeRootType | src/astMerge.ts:20-38 | the first input that has a root type names it; paths accumulate; the namespace config is the latest one present; the children are the earlier ones merged with this input's, and with own-key lookups their keys are the union |
| AstMerge.MergeInto | src/astMerge.ts:11-40 | one more input: the root types are the union; names and paths accumulate; root types it lacks stay as they are; each one it has is merged into the earlier one by `MergeRootType` |
| AstMerge.MergeFold | src/astMerge.ts:11-40 | every root type stays a root type; with own-key lookups each root type's child keys are those of the start and of every remaining input |
| AstMerge.Merge | src/astMerge.ts:3-43 | every root type stays a root type; with own-key lookups each root type holds exactly the child keys that root type has in some input |
| AstMerge.MergeShape | src/astMerge.ts:3-43 | the merged root is named `merged; n1; n2 …`, its path is built the same way, and it holds exactly the root types present in some input |
| AstMerge.MergeFoldName | src/astMerge.ts:12 | the name gains `; <name>` per input, in order |
| AstMerge.MergeFoldPath | src/astMerge.ts:13 | the path gains `; <path>` per input, in order |
| AstMerge.MergeFoldOperations | src/astMerge.ts:16-29 | the root types are those of the start plus those of any input |
| AstMerge.MergeNamespace | src/astMerge.ts:34-36 | a root type's namespace config is the one of the last input that has one |
| AstMerge.MergeChildrenIdentity | src/astMerge.ts:45-76 | merging nothing keeps the target; merging into nothing copies the source |
| AstMerge.PrototypeKeyDropped | src/astMerge.ts:48-53 | as written, a source-only key such as `toString` is dropped from the result; with own-key lookups it is kept |
| AstMerge.ToStringExample | src/astMerge.ts:48-53 | merging `{ toString: f }` into `{}` loses `toString` as written |
| AstMerge.PrototypeFreeAgrees | src/astMerge.ts:45-76 | on trees without such names, the two readings of `mergeChildren` agree |
| AstMerge.PrototypeFreeNodeAgrees | src/astMerge.ts:53-72 | the same for one pair of nodes |
| AstMerge.MergeFixtureTasks | src/__tests__/astMerge-test.ts:40-49 | merged `tasks` holds `byId` from B, `list` from A and `byIds` from B |
| AstMerge.MergeFixtureQuery | src/__tests__/astMerge-test.ts:19-23 | the merged query holds `me` from B and the merged `tasks` |
| AstMerge.MergeFixtureRoots | src/__tests__/astMerge-test.ts:19-33 | the merged root has query, mutation and subscription |
| AstMerge.MergeFixtureOthers | src/__tests__/astMerge-test.ts:25-33 | mutation and subscription come through unchanged |
| AstMerge.MergeTwoOnlyOne | src/astMerge.ts:20-38 | a root type only one of two inputs has keeps its children |
| AstMerge.MergeTwoChildren | src/astMerge.ts:38 | a root type both inputs have merges their children |
| AstMerge.FirstMergeKeeps | src/astMerge.ts:20-38 | merging the first input into the empty start keeps its root types and each one's children |
| AstVisitor.VisitNode | src/astVisitor.ts:56-95 | the node is removed iff the callback returns `null`; `false` keeps it with only its own call; a returned node replaces it and is descended into; `undefined` descends into the node itself; in both descending cases the result is the descent's and the calls are the node's own plus the descent's |
| AstVisitor.Descend | src/astVisitor.ts:85-94 | every child is visited with this node as parent; removed children disappear, each other child is replaced by its visit's result; the calls are exactly those of the children's visits |
| AstVisitor.ChildInfo | src/astVisitor.ts:87-92 | a child's info keeps the operation, names the child and appends the parent's name to the path |
| AstVisitor.VisitChildren | src/astVisitor.ts:86-93 | one visit per child, each of a lower node |
| AstVisitor.Survivors | src/astVisitor.ts:70-73 | the nodes left in place are exactly those whose visit did not remove them |
| AstVisitor.AllCalls | src/astVisitor.ts:86-93 | the calls of all the child visits, and nothing else |
| AstVisitor.RootInfo | src/astVisitor.ts:47-52 | a root type is visited with the root as parent, its operation as name and an empty path |
| AstVisitor.Visit | src/astVisitor.ts:42-54 | the root keeps its name and path; exactly the root types not removed remain, each replaced by its visit's result; the calls are exactly those of the root types' visits |
| AstVisitor.CallsWellPlaced | src/astVisitor.ts:56-95 | every call goes to the callback of the node's own kind, keeps the operation, and has info at or below the start |
| AstVisitor.DescendWellPlaced | src/astVisitor.ts:85-94 | calls made by the descent lie strictly below the visited node |
| AstVisitor.VisitPaths | src/astVisitor.ts:47-90 | root types are visited with an empty path; every other path starts with the operation key |
| AstVisitor.Reachable | src/astVisitor.ts:85-94 | a node is reachable from itself |
| AstVisitor.OnlyChildrenVisited | src/astVisitor.ts:85-94 | without replacements, every node handed to a callback is reachable from the start through `children` maps |
| AstVisitor.IdleKeepsTree | src/astVisitor.ts:80-83 | a visitor without callbacks leaves the tree as it is and makes no calls |
| AstVisitor.RemoveAllNode | src/__tests__/astVisitor-test.ts:74-84 | `DIR` and `FILE` returning `null` empty a root type of directories and files |
| AstVisitor.RemoveAllEmpties | src/__tests__/astVisitor-test.ts:74-84 | the same visitor empties every root type of the tree |
| AstVisitor.VisitKeepsAll | src/astVisitor.ts:42-54 | when every root type's visit leaves a node, the root holds exactly those nodes |
| AstVisitor.DescendKeeping | src/astVisitor.ts:85-94 | when every child's visit leaves the child in place, descending keeps the node and makes exactly the children's calls |
| AstVisitor.ContinuingVisitsAll | src/astVisitor.ts:56-95 | a visitor whose callbacks all return `undefined` keeps the node, and calls back exactly at the positions below it whose node kind has a callback, each with the info of that position |
| AstVisitor.ContinuingVisitReachesAll | src/astVisitor.ts:42-95 | such a visitor gives the root back unchanged, and every node reachable below a root type whose kind has a callback gets a call |
| AstVisitor.ReplaceRootNode | src/astVisitor.ts:77-79 | a `ROOT_TYPE` callback returning `MOCK` puts `MOCK` in place of a root type |
| AstVisitor.ReplaceRootsExample | src/__tests__/astVisitor-test.ts:104-115 | every root type is replaced by `MOCK` |
| VisitInfos.DotParts | src/VisitInfo.ts:88 | the pieces are non-empty and dot-free |
| VisitInfos.DotPartsContents | src/VisitInfo.ts:88 | a string is a piece iff it is a non-empty piece of the split on dots; the pieces run together are the string without its dots; without empty pieces, joining them with dots gives the string back |
| VisitInfos.PathSegments | src/VisitInfo.ts:86-92 | an element is split unless it starts with a dot; then it is kept whole |
| VisitInfos.FlatPath | src/VisitInfo.ts:86-92 | as written: every name is non-empty and either dot-free or a whole path element that starts with a dot; re-splitting the names gives the documented flattened path |
| VisitInfos.LeadingDotElementsKept | src/VisitInfo.ts:86-92 | as written, every path element that starts with a dot is one of the names, whole, dot included |
| VisitInfos.DropFirst | src/VisitInfo.ts:98 | drops the first name, if any |
| VisitInfos.FieldPathArray | src/VisitInfo.ts:84-99 | as written: the length is the flattened path, plus one for the field name unless omitted, minus one unless the operation is included; the last name is the field name; the flattened path (less its first name without the operation) comes first; with the operation, re-splitting the names on dots gives the documented array |
| VisitInfos.OptionsRelate | src/VisitInfo.ts:94-98 | `includeOperation` keeps the leading entry; `omitFieldName` leaves off the trailing field name (both readings) |
| VisitInfos.FlatPathIntended | src/VisitInfo.ts:71-83 | as documented: every piece is non-empty and dot-free |
| VisitInfos.FlatPathPieces | src/VisitInfo.ts:71-83 | the documented flattened path is the non-empty pieces of the path joined with dots |
| VisitInfos.FieldPathArrayIntended | src/VisitInfo.ts:71-99 | corrected: the non-empty dot-separated pieces of the path and field name joined with dots, the first one dropped unless the operation is included |
| VisitInfos.FlatPathAgrees | src/VisitInfo.ts:86-92 | without leading-dot elements, the path as written is the documented one |
| VisitInfos.FieldPathArrayAgrees | src/VisitInfo.ts:84-99 | with, in addition, a non-empty dot-free field name, the whole array agrees |
| VisitInfos.LeadingDotKept | src/VisitInfo.ts:87 | as written, `.storage` stays whole; the documented reading gives `storage` |
| VisitInfos.DottedFieldNameKept | src/VisitInfo.ts:94-96 | as written, field `namespace.ping` under `query.storage` stays whole: `storage, namespace.ping`, CamelCase `Storage` + `Namespace.ping`; the documented array is `storage, namespace, ping`, CamelCase `Storage` + `Namespace` + `Ping` |
| VisitInfos.OmitDottedFieldName | src/VisitInfo.ts:94-98 | with `omitFieldName`, field `namespace.ping` under `query.storage` gives `storage` in both readings, not the `storage, namespace` of the test |
| VisitInfos.ExamplePathArray | src/__tests__/VisitInfo-test.ts:33-57 | the documented example in all three option combinations |
| VisitInfos.FieldPathDotted | src/VisitInfo.ts:104-106 | the as-written array joined with dots: an empty array gives `""`; otherwise splitting it on dots gives the split of each name of the array, one after another, so for dot-free names the array itself; with the operation, its non-empty dot-separated pieces are the documented array |
| VisitInfos.FieldPathDottedIntended | src/VisitInfo.ts:104-106 | corrected: splitting on dots gives the documented array back, and its non-empty pieces are that array |
| VisitInfos.FieldPathCamelCase | src/VisitInfo.ts:113-117 | as written: the array's names run together, with exactly the first letter of each non-empty name upper-cased and every other character kept |
| VisitInfos.FieldPathCamelCaseIntended | src/VisitInfo.ts:113-117 | corrected: the documented array's names run together, with exactly the first letter of each name upper-cased and every other character kept; up to letter case, the documented dotted form without its dots |
| VisitInfos.CamelCaseOfDotted | src/VisitInfo.ts:104-117 | when no name of the array holds a dot, the CamelCase form is the dotted form without its dots, up to letter case |
| VisitInfos.PathFormsAgree | src/VisitInfo.ts:84-117 | without leading-dot elements and with a dot-free field name, the dotted and CamelCase forms and `toString` as written equal the documented ones |
| VisitInfos.ExampleDotted | src/__tests__/VisitInfo-test.ts:71-86 | `storage.viewer.utils.debug.ping` |
| VisitInfos.ExampleCamelCase | src/__tests__/VisitInfo-test.ts:88-103 | `QueryStorageViewerUtilsDebugPing` with the operation |
| VisitInfos.FieldConfig | src/VisitInfo.ts:123-132 | a file's module default export; for a directory, its namespace file's default export, or `undefined` |
| VisitInfos.LoadedFileConfig | src/VisitInfo.ts:123-125 | for a loaded file, the getter returns the raw export, of which the node's config is the checked copy |
| VisitInfos.ToString | src/VisitInfo.ts:199-201 | `VisitInfo(`, then the as-written dotted path with the operation, then `)`; the non-empty pieces of the middle part are the documented array with the operation |
| VisitInfos.ToStringIntended | src/VisitInfo.ts:199-201 | corrected: `VisitInfo(`, the documented dotted path with the operation, `)`; the middle splits on dots into the documented array |
| VisitInfos.LeadingDotDotted | src/VisitInfo.ts:87 | as written, field `ping` under `[query, .storage]` gives `query..storage.ping` and `VisitInfo(query..storage.ping)` |
| VisitInfos.LeadingDotDottedIntended | src/VisitInfo.ts:199-201 | documented: the same field gives `query.storage.ping` and `VisitInfo(query.storage.ping)` |
| TestHelpers.Lookup | src/testHelpers.ts:63 | a variable's value, else an inherited function (as written) or `undefined` |
| TestHelpers.LookupFinds | src/testHelpers.ts:63 | with distinct names, looking up a variable's name gives its value |
| TestHelpers.ArgType | src/testHelpers.ts:75 | the printed type of the argument of that name |
| TestHelpers.QueryPieces | src/testHelpers.ts:74-76 | `$n: T` per variable, in order |
| TestHelpers.FieldPieces | src/testHelpers.ts:77 | `n: $n` per variable, in order |
| TestHelpers.Parenthesised | src/testHelpers.ts:80-81 | empty stays empty; otherwise the text in parentheses |
| TestHelpers.RenderArgs | src/testHelpers.ts:74-82 | both strings are empty iff there are no variables |
| TestHelpers.GetArgsForQuery | src/testHelpers.ts:29-83 | variables for a field without arguments are the first error; then the first unknown variable, in variable order; then the first required argument, in argument order, whose value is `null` or `undefined`; success iff none applies, and then the rendered strings |
| TestHelpers.FirstUnknown | src/testHelpers.ts:51-59 | the first variable that names no argument; all before it are known |
| TestHelpers.FirstMissing | src/testHelpers.ts:61-72 | the first non-null argument without a value; all before it are provided |
| TestHelpers.JoinVars | src/testHelpers.ts:74-77 | the two space-joined lists |
| TestHelpers.TwoVariables | src/testHelpers.ts:74-82 | two variables render as `($a: Int $b: String!)` and `(a: $a b: $b)` |
| TestHelpers.NoVariables | src/testHelpers.ts:31 | with the default `{}`, both strings are empty, and the check passes iff no argument is non-null |
| TestHelpers.ProvidedByValue | src/testHelpers.ts:61-72 | a non-null value under the argument's name satisfies it |
| TestHelpers.PrototypeArgPasses | src/testHelpers.ts:63 | as written, a required argument named like `toString` passes with no variables; with own-key lookups it does not |
| TestHelpers.OwnKeysNeedsVariable | src/testHelpers.ts:61-72 | corrected: the check passes iff every non-null argument has a variable of its name that is neither `null` nor `undefined` |
| JsValues.Get | src/astToSchema.ts:136-149 | an own property's value, else `undefined` |
| JsValues.SetProp | src/astToSchema.ts:150-178 | the property is set; no other property changes |
| JsValues.OwnProps | src/directoryToAst.ts:294-301 | the own properties a spread copies |

## Left out

- File system and module loading. Listings and module values are inputs. Neither
  `resolve(dirname(m.filename), path)` (src/directoryToAst.ts:91-93,
  src/requireSchemaDirectory.ts:56,101) nor `join` of absolute paths is modelled: paths are
  joined with `/`, and the schema path is taken as given.
- graphql-compose internals are left uninterpreted (`TypeOracle`): the SDL and type-name
  tests, `isComposeOutputType`, `Resolver.getFieldConfig()` and the name `createObjectTC`
  gives to an SDL string. So are the order of fields in the schema, what `addNestedFields`
  does with a dotted key, and how a later field replaces an earlier one of the same name.
- `Object.keys` order is not fixed. A failing build reports the set of errors any sibling
  order could throw first, not one error.
- AstVisitor.Visit: requires a visitor whose replacement nodes are never taller than the
  node they replace (`NonDeepening`), so that the walk is finite by construction. The same
  requirement sits on `AstVisitor.VisitNode`, `AstVisitor.Descend`,
  `AstVisitor.VisitChildren` and `AstVisitor.RootVisits`, and on the lemmas
  `AstVisitor.CallsWellPlaced`, `AstVisitor.DescendWellPlaced`, `AstVisitor.VisitPaths`,
  `AstVisitor.DescendKeeping` and `AstVisitor.VisitKeepsAll`. This
  excludes more than non-terminating visitors: the original also finishes for many taller
  replacements, for example a `FILE` callback that swaps the file `a` for a directory
  holding a file `b` and leaves other files alone (src/astVisitor.ts:77-79, 85-93). For such
  visitors the model says nothing. A callback's `parent` is
  the node as it was before its children's visits, not the live object the original mutates.
- VisitInfo lines 138-197: the output-type helpers `getOutputAnyTC`, `isOutputTypeIsObject`,
  `getOutputUnwrappedOTC` and friends need graphql-compose's type composers. `toJSON`
  (lines 203-205) is `toString`.
- `testOperation`, `testBuildSchema` and the other async test helpers run queries, which is
  out of scope. Of the test helpers, only `_getArgsForQuery`'s checks and rendering are
  modelled. The argument list comes in as data.
- The branch at src/astToSchema.ts:27-33 cannot be taken, since it tests the negation of
  the condition that guards it, so the model has no error for it.
- `include` and `exclude` filters are predicates over the path (or path, kind and name).
  What a RegExp matches is left to the predicate.
- `upperFirst` and case folding are ASCII only.
- RequireToSchema.DirTypeDefs: the types created at src/requireToSchema.ts:71,74 go to the
  global `schemaComposer`, not to the one returned. The model adds them to the result. An
  `index` default export that is not an object or class instance is an error here
  (`NamespaceNotObject`). For a primitive value that matches JavaScript, where setting
  `type` throws. For an array or function default, JavaScript would set the property instead.
- AstToSchema.PrepareNamespaceFieldConfig: the same `NamespaceNotObject` reading applies to
  a truthy default export that is not an object (src/astToSchema.ts:150-151). The source
  also writes `fc.type` (src/astToSchema.ts:151,175) and `fc.resolve` (line 179) into the
  `index` file's default-export object itself. So the file node's module changes in place,
  and `VisitInfo.fieldConfig` (src/VisitInfo.ts:123-132) returns the changed object after a
  build. The model returns a fresh config and leaves the file node's module as loaded.
- DirectoryToAst.Alternatives: states only that there is at least one alternative; the
  exact list is `DirectoryToAst.AlternativesOfPlain`.
- VisitInfos.DotParts: its own contract states only that the pieces are non-empty and dot-free; which
  pieces they are is stated by `VisitInfos.DotPartsContents`.
- VisitInfos.FlatPath: its own contract does not say that an element starting with a dot is
  kept whole, so the documented reading also meets it; that is stated for every path by
  `VisitInfos.LeadingDotElementsKept`.
- VisitInfos.FlatPathIntended: its own contract states only the shape of the pieces; which pieces they
  are is stated by `VisitInfos.FlatPathPieces`.
- AstToSchema.AstToSchemaOf: the source reads `ast.query`, `ast.mutation` and
  `ast.subscription` of an `AstResult` (src/astToSchema.ts:39-41). The model represents that
  shape as the map from operation to root type, the same map `DirectoryToAst.DirectoryToAst`
  builds as `children`. In the source the two do not compose: given `directoryToAst`'s root
  node, which keeps its root types under `children`, `astToSchema` finds no `query` and adds
  nothing.
- DirectoryToAst.HasExtension: each extension is compared as literal text. The source splices
  the list into a RegExp (src/directoryToAst.ts:245), so `.`, `*`, `(` and other
  metacharacters in a user's extension are interpreted there; the model does not.
- VisitInfos.FieldPathArrayIntended: the corrected reading splits the field name, which
  src/__tests__/VisitInfo-test.ts:67 expects. The test's next line expects `omitFieldName` to
  leave off only the last piece of the dotted name (`storage, namespace`). Neither reading
  does that: both leave off the whole name (`VisitInfos.OmitDottedFieldName`).
- The copies of `ChildSteps` and `PopulateIfPresent` in `RequireAstToSchema` and
  `RequireToSchema` have no rows of their own: each only routes its module's `CreateFields`
  or `PopulateRoot` the way the `AstToSchema` one does.

## Findings

| source | as written | input that shows it | evidently intended | confidence | as-written member | corrected member |
|---|---|---|---|---|---|---|
| src/directoryToAst.ts:174-178,189-192 | `result.children[name]` on a plain object also sees Object.prototype members, so the name counts as taken | a file `constructor.ts` (or `toString.ts`) exporting a valid config in a directory without that name | report a collision only for a name the directory already holds | not executed | DirectoryToAst.PrototypeNameCollides, DirectoryToAst.ConstructorFileExample | DirectoryToAst.OwnKeysStoresPrototypeNamedFile, DirectoryToAst.OwnKeysCollisionIsReal |
| src/astMerge.ts:48-53 | `target[key]` is the inherited function for a name like `toString`; it is neither a `dir` nor a `file`, so the source child is silently dropped | merging a source with a child `toString` into a target without one | a key the target lacks is copied from the source | not executed | AstMerge.PrototypeKeyDropped, AstMerge.ToStringExample | AstMerge.PrototypeFreeAgrees |
| src/VisitInfo.ts:87 | `if (e.indexOf('.'))` is false only when the dot is at position 0, so an element starting with a dot is kept whole, dot included | path `['.storage']` gives `.storage` | split every element on dots | not executed | VisitInfos.LeadingDotKept, VisitInfos.LeadingDotDotted | VisitInfos.FieldPathArrayIntended, VisitInfos.LeadingDotDottedIntended |
| src/VisitInfo.ts:94-96 | the field name is pushed unsplit | field name `namespace.ping` under `query.storage` gives `storage, namespace.ping`; src/__tests__/VisitInfo-test.ts:67 expects `storage, namespace, ping` (its line 68, about `omitFieldName`, is met by neither reading; see Left out) | split the field name too | not executed | VisitInfos.DottedFieldNameKept | VisitInfos.FieldPathArrayIntended, VisitInfos.FieldPathCamelCaseIntended |
| src/testHelpers.ts:63 | `variables[argName]` reads the inherited function for a name like `toString`, so the required-argument check passes | a field with a required argument `toString` and no variables | require a variable of that name | not executed | TestHelpers.PrototypeArgPasses | TestHelpers.OwnKeysNeedsVariable |

In the rest of the model the loaders and `mergeChildren` take the lookup as a parameter.
`OwnKeys` gives the corrected reading, and the examples use it. The `VisitInfo` helpers come
in both readings: `FieldPathArray`, `FieldPathDotted`, `FieldPathCamelCase` and `ToString`
as written, and `FieldPathArrayIntended`, `FieldPathDottedIntended`,
`FieldPathCamelCaseIntended` and `ToStringIntended` as documented. `PathFormsAgree` shows
that they coincide on paths without the two inputs above.

=== FILE: ast.dfy ===
/** The schema AST: a root owning up to one root-type node per operation, directory
    nodes owning a map of children, and file nodes carrying a loaded module. */
module Ast {
  import opened Results
  import opened JsValues

  /** The three GraphQL operations a schema directory may provide. */
  datatype Operation = Query | Mutation | Subscription

  /** The lower-case key under which an operation appears (`query`, …). */
  function OperationKey(op: Operation): (r: string)
    ensures r in {"query", "mutation", "subscription"}
  {
    match op
    case Query => "query"
    case Mutation => "mutation"
    case Subscription => "subscription"
  }

  /** The name of the operation's root object type (`Query`, …). */
  function RootTypeName(op: Operation): (r: string)
    ensures r in {"Query", "Mutation", "Subscription"}
  {
    match op
    case Query => "Query"
    case Mutation => "Mutation"
    case Subscription => "Subscription"
  }

  /** The kind of a directory entry as `include`/`exclude` callbacks see it. */
  datatype EntryKind = DirKind | FileKind

  /** `rootType`, `dir` and `file` nodes. `namespaceConfig` holds the directory's `index`
      file; a file keeps the module it was loaded from (`code`) and its checked config. */
  datatype AstNode =
    | RootTypeNode(name: string, absPath: string, children: map<string, AstNode>, namespaceConfig: Option<AstNode>)
    | DirNode(name: string, absPath: string, children: map<string, AstNode>, namespaceConfig: Option<AstNode>)
    | FileNode(name: string, absPath: string, code: JsValue, fieldConfig: JsValue)
  {
    /** Nodes that own children: `dir` and `rootType`. */
    predicate HasChildren() {
      !FileNode?
    }

    /** The same `dir` or `rootType` node with another children map. */
    function WithChildren(ch: map<string, AstNode>): (r: AstNode)
      requires HasChildren()
      ensures r.HasChildren() && r.children == ch
      ensures r.RootTypeNode? == RootTypeNode? && r.name == name && r.absPath == absPath && r.namespaceConfig == namespaceConfig
    {
      match this
      case RootTypeNode(n, p, _, ns) => RootTypeNode(n, p, ch, ns)
      case DirNode(n, p, _, ns) => DirNode(n, p, ch, ns)
    }

    /** The same `dir` or `rootType` node with another namespace config. */
    function WithNamespace(ns: Option<AstNode>): (r: AstNode)
      requires HasChildren()
      ensures r.HasChildren() && r.namespaceConfig == ns
      ensures r.RootTypeNode? == RootTypeNode? && r.name == name && r.absPath == absPath && r.children == children
    {
      match this
      case RootTypeNode(n, p, ch, _) => RootTypeNode(n, p, ch, ns)
      case DirNode(n, p, ch, _) => DirNode(n, p, ch, ns)
    }
  }

  /** The `root` node: a name, a path and the present root types. */
  datatype AstRoot = AstRoot(name: string, absPath: string, children: map<Operation, AstNode>)

  /** The largest element of a finite set of naturals (0 for the empty set). */
  ghost function MaxOf(s: set<nat>): (m: nat)
    ensures forall y | y in s :: y <= m
    ensures s != {} ==> m in s
  {
    if s == {} then 0
    else
      var x :| x in s;
      var rest := MaxOf(s - {x});
      assert s == (s - {x}) + {x};
      if x >= rest then x else rest
  }

  /** The number of directory levels below a node: 0 for a file, one more than the
      tallest child for a directory or root type. */
  ghost function Height(n: AstNode): nat {
    match n
    case FileNode(_, _, _, _) => 0
    case _ => 1 + MaxOf(set k | k in n.children :: Height(n.children[k]))
  }

  lemma ChildrenLower(n: AstNode)
    ensures n.HasChildren() ==> forall k | k in n.children :: Height(n.children[k]) < Height(n)
  {
    if n.HasChildren() {
      var hs := set k' | k' in n.children :: Height(n.children[k']);
      forall k | k in n.children ensures Height(n.children[k]) < Height(n) {
        assert Height(n.children[k]) in hs;
      }
    }
  }
}

=== FILE: ast_merge.dfy ===
/** `astMerge`: combining several ASTs left to right. Later trees win on a kind mismatch
    and directories present on both sides are merged recursively. */
module AstMerge {
  import opened Results
  import opened JsValues
  import opened Ast

  /** Whether `mergeChildren` writes anything for a source key the target lacks: as
      written, a key that names an Object.prototype member is read from the prototype,
      so it counts as present (and is then ignored). */
  predicate TargetMisses(target: map<string, AstNode>, k: string, lookup: KeyLookup) {
    !HasKey(target, k, lookup)
  }

  /** `mergeChildren`: a copy of the target, with every source key merged in. `from` is
      the node the source children belong to. */
  function MergeChildren(target: map<string, AstNode>, source: map<string, AstNode>, lookup: KeyLookup, ghost from: AstNode): (r: map<string, AstNode>)
    requires from.HasChildren() && source == from.children
    decreases from, 0
    ensures lookup == OwnKeys ==> r.Keys == target.Keys + source.Keys
    ensures r.Keys == target.Keys + (set k | k in source && TargetMisses(target, k, lookup))
    ensures forall k | k in target && k !in source :: r[k] == target[k]
    ensures forall k | k in source && TargetMisses(target, k, lookup) :: r[k] == source[k]
    ensures forall k | k in target && k in source :: r[k] == MergeNode(target[k], source[k], lookup)
  {
    map k | k in target.Keys + (set k | k in source && TargetMisses(target, k, lookup)) ::
      if k !in source then target[k]
      else if k !in target then source[k]
      else MergeNode(target[k], source[k], lookup)
  }

  /** The merge of two nodes found under the same key: a target file gives way to any
      source node; a target directory gives way to a source file and deep-merges with a
      source directory; anything else keeps the target. */
  function MergeNode(t: AstNode, s: AstNode, lookup: KeyLookup): (r: AstNode)
    decreases s, 1
    ensures t.FileNode? ==> r == s
    ensures t.DirNode? && s.FileNode? ==> r == s
    ensures t.RootTypeNode? || (t.DirNode? && s.RootTypeNode?) ==> r == t
    ensures t.DirNode? && s.DirNode? ==>
      && r.DirNode?
      && r.name == t.name
      && r.absPath == "merged; " + t.absPath + "; " + s.absPath
      && r.namespaceConfig == (if s.namespaceConfig.Some? then s.namespaceConfig else t.namespaceConfig)
      && r.children == MergeChildren(t.children, s.children, lookup, s)
      && (lookup == OwnKeys ==> r.children.Keys == t.children.Keys + s.children.Keys)
  {
    match t
    case DirNode(name, absPath, children, ns) =>
      if s.DirNode? then
        DirNode(name, "merged; " + absPath + "; " + s.absPath,
                MergeChildren(children, s.children, lookup, s),
                if s.namespaceConfig.Some? then s.namespaceConfig else ns)
      else if s.FileNode? then s
      else t
    case FileNode(_, _, _, _) => s
    case RootTypeNode(_, _, _, _) => t
  }

  /** The inputs `astMerge` can read: every root type owns a children map. */
  predicate Mergeable(asts: seq<AstRoot>) {
    forall i, op | 0 <= i < |asts| && op in asts[i].children :: asts[i].children[op].HasChildren()
  }

  /** The merged root type of one operation after one more input: the first input that
      has it names it; paths accumulate; its namespace config, when present, replaces
      the earlier one; children merge. */
  function MergeRootType(merged: Option<AstNode>, node: AstNode, lookup: KeyLookup): (r: AstNode)
    requires node.HasChildren()
    requires merged.Some? ==> merged.value.RootTypeNode?
    ensures r.RootTypeNode?
    ensures r.name == (if merged.Some? then merged.value.name else node.name)
    ensures r.absPath == (if merged.Some? then merged.value.absPath else "merged") + "; " + node.absPath
    ensures node.namespaceConfig.Some? ==> r.namespaceConfig == node.namespaceConfig
    ensures node.namespaceConfig.None? ==> r.namespaceConfig == (if merged.Some? then merged.value.namespaceConfig else None)
    ensures r.children == MergeChildren(if merged.Some? then merged.value.children else map[], node.children, lookup, node)
    ensures lookup == OwnKeys ==> r.children.Keys == (if merged.Some? then merged.value.children.Keys else {}) + node.children.Keys
  {
    var base := if merged.Some? then merged.value else RootTypeNode(node.name, "merged", map[], None);
    RootTypeNode(
      base.name,
      base.absPath + "; " + node.absPath,
      MergeChildren(base.children, node.children, lookup, node),
      if node.namespaceConfig.Some? then node.namespaceConfig else base.namespaceConfig)
  }

  predicate RootTypesOnly(children: map<Operation, AstNode>) {
    forall op | op in children :: children[op].RootTypeNode?
  }

  /** One more input folded into the merged root. */
  function MergeInto(acc: AstRoot, ast: AstRoot, lookup: KeyLookup): (r: AstRoot)
    requires RootTypesOnly(acc.children)
    requires forall op | op in ast.children :: ast.children[op].HasChildren()
    ensures RootTypesOnly(r.children)
    ensures r.children.Keys == acc.children.Keys + ast.children.Keys
    ensures r.name == acc.name + "; " + ast.name && r.absPath == acc.absPath + "; " + ast.absPath
    ensures forall op | op in acc.children && op !in ast.children :: r.children[op] == acc.children[op]
    ensures forall op | op in ast.children ::
      r.children[op] == MergeRootType(if op in acc.children then Some(acc.children[op]) else None, ast.children[op], lookup)
  {
    var children := map op | op in acc.children.Keys + ast.children.Keys ::
      if op in ast.children then
        MergeRootType(if op in acc.children then Some(acc.children[op]) else None, ast.children[op], lookup)
      else acc.children[op];
    AstRoot(acc.name + "; " + ast.name, acc.absPath + "; " + ast.absPath, children)
  }

  /** The child keys of root type `op` in `acc`, if it has that root type. */
  function AccKeys(acc: AstRoot, op: Operation): set<string>
    requires RootTypesOnly(acc.children)
  {
    if op in acc.children then acc.children[op].children.Keys else {}
  }

  /** The child keys of root type `op` over all inputs. */
  function ChildKeys(asts: seq<AstRoot>, op: Operation): set<string>
    requires Mergeable(asts)
  {
    set i, k | 0 <= i < |asts| && op in asts[i].children && k in asts[i].children[op].children :: k
  }

  function MergeFold(acc: AstRoot, asts: seq<AstRoot>, lookup: KeyLookup): (r: AstRoot)
    requires RootTypesOnly(acc.children) && Mergeable(asts)
    ensures RootTypesOnly(r.children)
    ensures lookup == OwnKeys ==>
      forall op | op in r.children :: r.children[op].children.Keys == AccKeys(acc, op) + ChildKeys(asts, op)
    decreases |asts|
  {
    if |asts| == 0 then acc
    else
      MergeableTail(asts);
      ChildKeysSplit(asts);
      MergeFold(MergeInto(acc, asts[0], lookup), asts[1..], lookup)
  }

  /** `astMerge(...asts)`: the root named `merged` followed by `; <name>` of each input,
      holding the union of their root types; with own-key lookups every merged root type
      holds the union of that type's children over all inputs. */
  function Merge(asts: seq<AstRoot>, lookup: KeyLookup): (r: AstRoot)
    requires Mergeable(asts)
    ensures RootTypesOnly(r.children)
    ensures lookup == OwnKeys ==> forall op | op in r.children :: r.children[op].children.Keys == ChildKeys(asts, op)
  {
    MergeFold(AstRoot("merged", "merged", map[]), asts, lookup)
  }

  /** The child keys over a list are those of its head and of its tail. */
  lemma ChildKeysSplit(asts: seq<AstRoot>)
    requires |asts| > 0 && Mergeable(asts)
    ensures Mergeable(asts[1..])
    ensures forall op ::
              ChildKeys(asts, op) == (if op in asts[0].children then asts[0].children[op].children.Keys else {}) + ChildKeys(asts[1..], op)
  {
    MergeableTail(asts);
    forall op ensures ChildKeys(asts, op) ==
      (if op in asts[0].children then asts[0].children[op].children.Keys else {}) + ChildKeys(asts[1..], op)
    {
      forall k | k in ChildKeys(asts, op)
        ensures k in (if op in asts[0].children then asts[0].children[op].children.Keys else {}) + ChildKeys(asts[1..], op)
      {
        var i :| 0 <= i < |asts| && op in asts[i].children && k in asts[i].children[op].children;
        if i > 0 {
          assert asts[1..][i - 1] == asts[i];
        }
      }
      forall k | k in ChildKeys(asts[1..], op) ensures k in ChildKeys(asts, op) {
        var i :| 0 <= i < |asts[1..]| && op in asts[1..][i].children && k in asts[1..][i].children[op].children;
        assert asts[i + 1] == asts[1..][i];
      }
    }
  }

  // ---------------------------------------------------------------------------------
  // Properties

  /** `"; " + x` for every name, in order. */
  function Trail(xs: seq<string>): string {
    if |xs| == 0 then "" else "; " + xs[0] + Trail(xs[1..])
  }

  function Names(asts: seq<AstRoot>): (r: seq<string>)
    ensures |r| == |asts| && forall i | 0 <= i < |asts| :: r[i] == asts[i].name
  {
    seq(|asts|, i requires 0 <= i < |asts| => asts[i].name)
  }

  function Paths(asts: seq<AstRoot>): (r: seq<string>)
    ensures |r| == |asts| && forall i | 0 <= i < |asts| :: r[i] == asts[i].absPath
  {
    seq(|asts|, i requires 0 <= i < |asts| => asts[i].absPath)
  }

  /** The operations present in any input. */
  function AllOperations(asts: seq<AstRoot>): set<Operation> {
    set i, op | 0 <= i < |asts| && op in asts[i].children :: op
  }

  /** The namespace config of the last input that gives `op` one. */
  function LastNamespace(asts: seq<AstRoot>, op: Operation): Option<AstNode> {
    if |asts| == 0 then None
    else
      var last := asts[|asts| - 1];
      if op in last.children && last.children[op].HasChildren() && last.children[op].namespaceConfig.Some? then
        last.children[op].namespaceConfig
      else LastNamespace(asts[..|asts| - 1], op)
  }

  /** The tail of a mergeable list is mergeable. */
  lemma MergeableTail(asts: seq<AstRoot>)
    requires |asts| > 0 && Mergeable(asts)
    ensures Mergeable(asts[1..])
    ensures forall op | op in asts[0].children :: asts[0].children[op].HasChildren()
  {
    forall i, op | 0 <= i < |asts[1..]| && op in asts[1..][i].children
      ensures asts[1..][i].children[op].HasChildren()
    {
      assert asts[1..][i] == asts[i + 1];
    }
  }

  /** The merged root is named `merged` (or whatever `acc` was) followed by `; <name>` for
      each input in order. */
  lemma {:induction false} MergeFoldName(acc: AstRoot, asts: seq<AstRoot>, lookup: KeyLookup)
    requires RootTypesOnly(acc.children) && Mergeable(asts)
    ensures MergeFold(acc, asts, lookup).name == acc.name + Trail(Names(asts))
    decreases |asts|
  {
    if |asts| > 0 {
      MergeableTail(asts);
      var next := MergeInto(acc, asts[0], lookup);
      MergeFoldName(next, asts[1..], lookup);
      assert Names(asts[1..]) == Names(asts)[1..];
      assert Trail(Names(asts)) == "; " + asts[0].name + Trail(Names(asts[1..]));
    }
  }

  lemma {:induction false} MergeFoldPath(acc: AstRoot, asts: seq<AstRoot>, lookup: KeyLookup)
    requires RootTypesOnly(acc.children) && Mergeable(asts)
    ensures MergeFold(acc, asts, lookup).absPath == acc.absPath + Trail(Paths(asts))
    decreases |asts|
  {
    if |asts| > 0 {
      MergeableTail(asts);
      var next := MergeInto(acc, asts[0], lookup);
      MergeFoldPath(next, asts[1..], lookup);
      assert Paths(asts[1..]) == Paths(asts)[1..];
      assert Trail(Paths(asts)) == "; " + asts[0].absPath + Trail(Paths(asts[1..]));
    }
  }

  lemma AllOperationsSplit(asts: seq<AstRoot>)
    requires |asts| > 0
    ensures AllOperations(asts) == asts[0].children.Keys + AllOperations(asts[1..])
  {
    forall op | op in AllOperations(asts) ensures op in asts[0].children.Keys + AllOperations(asts[1..]) {
      var i :| 0 <= i < |asts| && op in asts[i].children;
      if i > 0 {
        assert asts[1..][i - 1] == asts[i];
      }
    }
    forall op | op in AllOperations(asts[1..]) ensures op in AllOperations(asts) {
      var i :| 0 <= i < |asts[1..]| && op in asts[1..][i].children;
      assert asts[i + 1] == asts[1..][i];
    }
  }

  /** The merged root holds exactly the root types present in some input. */
  lemma {:induction false} MergeFoldOperations(acc: AstRoot, asts: seq<AstRoot>, lookup: KeyLookup)
    requires RootTypesOnly(acc.children) && Mergeable(asts)
    ensures MergeFold(acc, asts, lookup).children.Keys == acc.children.Keys + AllOperations(asts)
    decreases |asts|
  {
    if |asts| > 0 {
      MergeableTail(asts);
      var next := MergeInto(acc, asts[0], lookup);
      MergeFoldOperations(next, asts[1..], lookup);
      AllOperationsSplit(asts);
    }
  }

  lemma MergeShape(asts: seq<AstRoot>, lookup: KeyLookup)
    requires Mergeable(asts)
    ensures Merge(asts, lookup).name == "merged" + Trail(Names(asts))
    ensures Merge(asts, lookup).absPath == "merged" + Trail(Paths(asts))
    ensures Merge(asts, lookup).children.Keys == AllOperations(asts)
  {
    var start := AstRoot("merged", "merged", map[]);
    MergeFoldName(start, asts, lookup);
    MergeFoldPath(start, asts, lookup);
    MergeFoldOperations(start, asts, lookup);
  }

  /** The merged root type's namespace config is the one of the last input that has
      one (earlier merged state when none has). */
  lemma {:induction false} MergeFoldNamespace(acc: AstRoot, asts: seq<AstRoot>, lookup: KeyLookup, op: Operation)
    requires RootTypesOnly(acc.children) && Mergeable(asts)
    requires op in MergeFold(acc, asts, lookup).children
    ensures
      var r := MergeFold(acc, asts, lookup).children[op];
      r.namespaceConfig ==
        if LastNamespace(asts, op).Some? then LastNamespace(asts, op)
        else if op in acc.children then acc.children[op].namespaceConfig
        else None
    decreases |asts|
  {
    if |asts| > 0 {
      MergeableTail(asts);
      var next := MergeInto(acc, asts[0], lookup);
      MergeFoldNamespace(next, asts[1..], lookup, op);
      LastNamespaceSplit(asts, op);
    }
  }

  /** The last namespace of a list is that of its tail, else that of its head. */
  lemma {:induction false} LastNamespaceSplit(asts: seq<AstRoot>, op: Operation)
    requires |asts| > 0
    ensures LastNamespace(asts, op) ==
      if LastNamespace(asts[1..], op).Some? then LastNamespace(asts[1..], op)
      else if op in asts[0].children && asts[0].children[op].HasChildren() && asts[0].children[op].namespaceConfig.Some? then
        asts[0].children[op].namespaceConfig
      else None
    decreases |asts|
  {
    if |asts| > 1 {
      var init := asts[..|asts| - 1];
      LastNamespaceSplit(init, op);
      assert init[1..] == asts[1..][..|asts[1..]| - 1];
      assert init[0] == asts[0];
      assert asts[1..][|asts[1..]| - 1] == asts[|asts| - 1];
    } else {
      assert asts[..0] == [];
      assert asts[1..] == [];
    }
  }

  lemma MergeNamespace(asts: seq<AstRoot>, lookup: KeyLookup, op: Operation)
    requires Mergeable(asts) && op in Merge(asts, lookup).children
    ensures Merge(asts, lookup).children[op].namespaceConfig == LastNamespace(asts, op)
  {
    MergeFoldNamespace(AstRoot("merged", "merged", map[]), asts, lookup, op);
  }

  /** Merging nothing into a map keeps it; merging into an empty map copies the source. */
  lemma MergeChildrenIdentity(t: map<string, AstNode>, from: AstNode, lookup: KeyLookup)
    requires from.HasChildren()
    ensures from.children == map[] ==> MergeChildren(t, from.children, lookup, from) == t
    ensures lookup == OwnKeys ==> MergeChildren(map[], from.children, lookup, from) == from.children
  {
  }

  // Finding: `target[key]` on a plain object also sees Object.prototype names.

  /** No child key anywhere below names an Object.prototype member. */
  predicate PrototypeFree(n: AstNode) {
    n.HasChildren() ==> forall k | k in n.children :: k !in ObjectPrototypeKeys && PrototypeFree(n.children[k])
  }

  /** As written: a source-only key such as `toString` is read as present in the target
      and then matches neither kind, so the merged map silently drops it. */
  lemma PrototypeKeyDropped(target: map<string, AstNode>, from: AstNode, k: string)
    requires from.HasChildren() && k in from.children && k !in target && k in ObjectPrototypeKeys
    ensures k !in MergeChildren(target, from.children, WithPrototype, from)
    ensures k in MergeChildren(target, from.children, OwnKeys, from)
  {
  }

  lemma ToStringExample(f: AstNode)
    ensures "toString" !in MergeChildren(map[], map["toString" := f], WithPrototype, DirNode("d", "p", map["toString" := f], None))
  {
    PrototypeKeyDropped(map[], DirNode("d", "p", map["toString" := f], None), "toString");
  }

  /** Corrected: reading own keys keeps every key of both sides; on trees without such
      names the two readings agree everywhere. */
  lemma {:induction false} PrototypeFreeAgrees(target: map<string, AstNode>, from: AstNode)
    requires from.HasChildren() && PrototypeFree(from)
    ensures MergeChildren(target, from.children, WithPrototype, from) == MergeChildren(target, from.children, OwnKeys, from)
    decreases from, 0
  {
    var a := MergeChildren(target, from.children, WithPrototype, from);
    var b := MergeChildren(target, from.children, OwnKeys, from);
    assert a.Keys == b.Keys by {
      forall k | k in from.children ensures TargetMisses(target, k, WithPrototype) == TargetMisses(target, k, OwnKeys) {
        OwnLookupAgrees(target, k);
      }
    }
    forall k | k in a ensures a[k] == b[k] {
      if k in target && k in from.children {
        PrototypeFreeNodeAgrees(target[k], from.children[k]);
      }
    }
  }

  lemma {:induction false} PrototypeFreeNodeAgrees(t: AstNode, s: AstNode)
    requires PrototypeFree(s)
    ensures MergeNode(t, s, WithPrototype) == MergeNode(t, s, OwnKeys)
    decreases s, 1
  {
    if t.DirNode? && s.DirNode? {
      PrototypeFreeAgrees(t.children, s);
    }
  }

  // ---------------------------------------------------------------------------------
  // The two-schema fixture: A has query/tasks/{byId,list} and mutation/createTask;
  // B has query/me, query/tasks/{byId,byIds} and subscription/events.

  function Leaf(name: string, path: string): AstNode {
    FileNode(name, path, Obj(map[]), Obj(map["description" := Str(path)]))
  }

  const TasksA: AstNode := DirNode("tasks", "A/query/tasks", map[
    "byId" := Leaf("byId", "A.query.tasks.byId"),
    "list" := Leaf("list", "A.query.tasks.list")], None)

  const TasksB: AstNode := DirNode("tasks", "B/query/tasks", map[
    "byId" := Leaf("byId", "B.query.tasks.byId"),
    "byIds" := Leaf("byIds", "B.query.tasks.byIds")], None)

  const FixtureA: AstRoot := AstRoot("schema1", "A", map[
    Query := RootTypeNode("query", "A/query", map[
      "tasks" := TasksA], None),
    Mutation := RootTypeNode("mutation", "A/mutation", map[
      "createTask" := Leaf("createTask", "A.mutation.createTask")], None)])

  const FixtureB: AstRoot := AstRoot("schema2", "B", map[
    Query := RootTypeNode("query", "B/query", map[
      "me" := Leaf("me", "B.query.me"),
      "tasks" := TasksB], None),
    Subscription := RootTypeNode("subscription", "B/subscription", map[
      "events" := Leaf("events", "B.subscription.events")], None)])

  /** Merging the fixtures: `tasks` carries `byId` (from B), `list` (from A) and `byIds`
      (from B). */
  lemma MergeFixtureTasks()
    ensures
      var tasks := MergeNode(TasksA, TasksB, OwnKeys);
      && tasks.DirNode?
      && tasks.children.Keys == {"byId", "list", "byIds"}
      && tasks.children["byId"] == Leaf("byId", "B.query.tasks.byId")
      && tasks.children["list"] == Leaf("list", "A.query.tasks.list")
      && tasks.children["byIds"] == Leaf("byIds", "B.query.tasks.byIds")
  {
    var a := TasksA.children;
    var b := TasksB.children;
    var ch := MergeChildren(a, b, OwnKeys, TasksB);
    assert MergeNode(TasksA, TasksB, OwnKeys).children == ch;
    assert ch.Keys == a.Keys + b.Keys;
    assert "list" !in b by {
      assert "list"[0] != "byId"[0] && |"list"| != |"byIds"|;
    }
    assert "byIds" !in a by {
      assert |"byIds"| != |"byId"| && |"byIds"| != |"list"|;
    }
    assert ch["byId"] == MergeNode(a["byId"], b["byId"], OwnKeys);
  }

  /** The first step of merging the fixtures: A's root types as they are. */
  lemma FixtureFirstStep()
    ensures
      var m1 := MergeInto(AstRoot("merged", "merged", map[]), FixtureA, OwnKeys);
      && m1.children.Keys == {Query, Mutation}
      && m1.children[Query].children == FixtureA.children[Query].children
      && m1.children[Mutation].children == FixtureA.children[Mutation].children
  {
    FirstMergeKeeps(FixtureA);
  }

  /** The first merge step, into the empty accumulator, keeps each root type's children. */
  lemma FirstMergeKeeps(ast: AstRoot)
    requires forall op | op in ast.children :: ast.children[op].HasChildren()
    ensures
      var m1 := MergeInto(AstRoot("merged", "merged", map[]), ast, OwnKeys);
      && m1.children.Keys == ast.children.Keys
      && forall op | op in ast.children :: m1.children[op].children == ast.children[op].children
  {
    forall op | op in ast.children
      ensures MergeRootType(None, ast.children[op], OwnKeys).children == ast.children[op].children
    {
      MergeChildrenIdentity(map[], ast.children[op], OwnKeys);
    }
  }

  /** Merging two trees is two merge steps. */
  lemma MergeTwoSteps(a: AstRoot, b: AstRoot)
    requires forall o | o in a.children :: a.children[o].HasChildren()
    requires forall o | o in b.children :: b.children[o].HasChildren()
    ensures Mergeable([a, b])
    ensures Merge([a, b], OwnKeys) == MergeInto(MergeInto(AstRoot("merged", "merged", map[]), a, OwnKeys), b, OwnKeys)
  {
    var start := AstRoot("merged", "merged", map[]);
    assert Mergeable([a, b]) by {
      forall i, o | 0 <= i < 2 && o in [a, b][i].children ensures [a, b][i].children[o].HasChildren() {
        assert [a, b][i] == if i == 0 then a else b;
      }
    }
    var m1 := MergeInto(start, a, OwnKeys);
    assert MergeFold(start, [a, b], OwnKeys) == MergeFold(m1, [b], OwnKeys) by {
      assert [a, b][1..] == [b];
    }
    assert MergeFold(m1, [b], OwnKeys) == MergeFold(MergeInto(m1, b, OwnKeys), [], OwnKeys) by {
      assert [b][1..] == [];
    }
  }

  /** A root type both trees have merges their children. */
  lemma MergeTwoChildren(a: AstRoot, b: AstRoot, op: Operation)
    requires forall o | o in a.children :: a.children[o].HasChildren()
    requires forall o | o in b.children :: b.children[o].HasChildren()
    requires op in a.children && op in b.children
    requires a.children[op].HasChildren() && b.children[op].HasChildren()
    ensures Mergeable([a, b])
    ensures op in Merge([a, b], OwnKeys).children
    ensures Merge([a, b], OwnKeys).children[op].children ==
      MergeChildren(a.children[op].children, b.children[op].children, OwnKeys, b.children[op])
  {
    MergeTwoSteps(a, b);
    var m1 := MergeInto(AstRoot("merged", "merged", map[]), a, OwnKeys);
    MergeChildrenIdentity(map[], a.children[op], OwnKeys);
    assert m1.children[op].children == a.children[op].children;
  }

  /** The fixtures' query root type: `me` from B and the merged `tasks`. */
  lemma MergeFixtureQuery()
    ensures Mergeable([FixtureA, FixtureB])
    ensures
      var m := Merge([FixtureA, FixtureB], OwnKeys);
      && Query in m.children
      && m.children[Query].children.Keys == {"me", "tasks"}
      && m.children[Query].children["me"] == Leaf("me", "B.query.me")
      && m.children[Query].children["tasks"] == MergeNode(TasksA, TasksB, OwnKeys)
  {
    FixturesReadable();
    QueryFixturesReadable();
    MergeQueryShape(FixtureA, FixtureB, TasksA, TasksB, Leaf("me", "B.query.me"));
  }

  /** Two trees whose query root types hold `tasks` and `me, tasks`. */
  lemma MergeQueryShape(a: AstRoot, b: AstRoot, ta: AstNode, tb: AstNode, me: AstNode)
    requires forall o | o in a.children :: a.children[o].HasChildren()
    requires forall o | o in b.children :: b.children[o].HasChildren()
    requires Query in a.children && Query in b.children
    requires a.children[Query].HasChildren() && b.children[Query].HasChildren()
    requires a.children[Query].children == map["tasks" := ta]
    requires b.children[Query].children == map["me" := me, "tasks" := tb]
    ensures Mergeable([a, b])
    ensures
      var m := Merge([a, b], OwnKeys);
      && Query in m.children
      && m.children[Query].children.Keys == {"me", "tasks"}
      && m.children[Query].children["me"] == me
      && m.children[Query].children["tasks"] == MergeNode(ta, tb, OwnKeys)
  {
    MergeTwoChildren(a, b, Query);
    var ch := Merge([a, b], OwnKeys).children[Query].children;
    QueryChildrenShape(ch, a.children[Query].children, b.children[Query], ta, tb, me);
  }

  lemma QueryChildrenShape(ch: map<string, AstNode>, t: map<string, AstNode>, from: AstNode, ta: AstNode, tb: AstNode, me: AstNode)
    requires from.HasChildren() && ch == MergeChildren(t, from.children, OwnKeys, from)
    requires t == map["tasks" := ta] && from.children == map["me" := me, "tasks" := tb]
    ensures ch.Keys == {"me", "tasks"} && ch["me"] == me && ch["tasks"] == MergeNode(ta, tb, OwnKeys)
  {
    assert t.Keys == {"tasks"} && from.children.Keys == {"me", "tasks"};
    MergeAddsOne(t, from, "me", "tasks");
  }

  /** The fixtures' query root types. */
  lemma QueryFixturesReadable()
    ensures Query in FixtureA.children && Query in FixtureB.children
    ensures FixtureA.children[Query].HasChildren() && FixtureB.children[Query].HasChildren()
    ensures FixtureA.children[Query].children == map["tasks" := TasksA]
    ensures FixtureB.children[Query].children == map["me" := Leaf("me", "B.query.me"), "tasks" := TasksB]
  {
  }

  /** Merging `{k}` with `{j, k}`, `j` and `k` distinct: `j` from the source, `k` merged. */
  lemma MergeAddsOne(t: map<string, AstNode>, from: AstNode, j: string, k: string)
    requires from.HasChildren() && j != k
    requires t.Keys == {k} && from.children.Keys == {j, k}
    ensures var ch := MergeChildren(t, from.children, OwnKeys, from);
      && ch.Keys == {j, k}
      && ch[j] == from.children[j]
      && ch[k] == MergeNode(t[k], from.children[k], OwnKeys)
  {
  }

  lemma FixturesReadable()
    ensures FixtureA.children.Keys == {Query, Mutation}
    ensures FixtureB.children.Keys == {Query, Subscription}
    ensures forall o | o in FixtureA.children :: FixtureA.children[o].HasChildren()
    ensures forall o | o in FixtureB.children :: FixtureB.children[o].HasChildren()
  {
  }

  /** The fixtures' merged root has all three root types. */
  lemma MergeFixtureRoots()
    ensures Mergeable([FixtureA, FixtureB])
    ensures Merge([FixtureA, FixtureB], OwnKeys).children.Keys == {Query, Mutation, Subscription}
  {
    FixturesReadable();
    MergeTwoSteps(FixtureA, FixtureB);
  }

  /** The fixtures' mutation and subscription root types come through unchanged. */
  lemma MergeFixtureOthers()
    ensures Mergeable([FixtureA, FixtureB])
    ensures
      var m := Merge([FixtureA, FixtureB], OwnKeys);
      && Mutation in m.children && Subscription in m.children
      && m.children[Mutation].children == FixtureA.children[Mutation].children
      && m.children[Subscription].children == FixtureB.children[Subscription].children
  {
    FixturesReadable();
    MergeTwoOnlyOne(FixtureA, FixtureB, Mutation);
    MergeTwoOnlyOne(FixtureA, FixtureB, Subscription);
  }

  /** A root type only one of two trees has comes through with its children unchanged. */
  lemma MergeTwoOnlyOne(a: AstRoot, b: AstRoot, op: Operation)
    requires forall o | o in a.children :: a.children[o].HasChildren()
    requires forall o | o in b.children :: b.children[o].HasChildren()
    ensures Mergeable([a, b])
    ensures op in a.children && op !in b.children ==>
      && op in Merge([a, b], OwnKeys).children
      && Merge([a, b], OwnKeys).children[op].RootTypeNode?
      && Merge([a, b], OwnKeys).children[op].children == a.children[op].children
    ensures op !in a.children && op in b.children && b.children[op].HasChildren() ==>
      && op in Merge([a, b], OwnKeys).children
      && Merge([a, b], OwnKeys).children[op].RootTypeNode?
      && Merge([a, b], OwnKeys).children[op].children == b.children[op].children
  {
    MergeTwoSteps(a, b);
    var m1 := MergeInto(AstRoot("merged", "merged", map[]), a, OwnKeys);
    if op in a.children {
      MergeChildrenIdentity(map[], a.children[op], OwnKeys);
      assert m1.children[op].children == a.children[op].children;
    }
    if op in b.children && op !in a.children {
      MergeChildrenIdentity(map[], b.children[op], OwnKeys);
      assert op !in m1.children;
    }
  }
}

=== FILE: ast_to_schema.dfy ===
/** `astToSchema`: turning a schema AST into object types and fields of a composer.
    Type names are synthesised from directory and file names (`query/me/address` gives
    `QueryMeAddress`), `index` files configure the directory they sit in, and every
    other file contributes one field. */
module AstToSchema {
  import opened Results
  import opened Strings
  import opened JsValues
  import opened Ast
  import opened Registry

  // ---------------------------------------------------------------------------------
  // Names

  predicate NameChar(c: char) {
    c == '.' || c == '_' || 'a' <= c <= 'z' || 'A' <= c <= 'Z' || '0' <= c <= '9'
  }

  /** `/^[._a-zA-Z0-9]+$/.test(name)`. */
  predicate IsValidName(name: string) {
    |name| >= 1 && forall i | 0 <= i < |name| :: NameChar(name[i])
  }

  /** A list of names that `getTypename` accepts once joined with dots. */
  predicate DottedSegments(segs: seq<string>) {
    |segs| >= 1 && forall i | 0 <= i < |segs| :: segs[i] != "" && '.' !in segs[i]
  }

  /** `getTypename`: a dot-free name upper-cased at its front; a dotted name split at its
      dots, each piece upper-cased at its front and the pieces run together; an empty
      piece (a leading, trailing or doubled dot) is an error. */
  function GetTypename(name: string, absPath: string): (r: Result<string, SchemaError>)
    ensures r.Ok? <==> '.' !in name || "" !in Split(name, '.')
    ensures r.Ok? ==> r.value == JoinMapped(UpperFirst, Split(name, '.'))
    ensures r.Err? ==> r.error == MisplacedDots(name, absPath)
  {
    if '.' in name then
      var namesArray := Split(name, '.');
      if "" in namesArray then Err(MisplacedDots(name, absPath))
      else Ok(JoinMapped(UpperFirst, namesArray))
    else
      SplitFree(name, '.');
      assert JoinMapped(UpperFirst, [name]) == UpperFirst(name) + JoinMapped(UpperFirst, []);
      Ok(UpperFirst(name))
  }

  /** A name is accepted exactly when it is dot-free or a dot-joined list of non-empty,
      dot-free pieces. */
  lemma GetTypenameAccepts(name: string, absPath: string)
    ensures GetTypename(name, absPath).Ok? <==>
      ('.' !in name || exists segs :: DottedSegments(segs) && Join(segs, ".") == name)
  {
    if '.' in name {
      if GetTypename(name, absPath).Ok? {
        var segs := Split(name, '.');
        JoinSplit(name, '.');
        assert DottedSegments(segs) && Join(segs, ".") == name;
      }
      if segs :| DottedSegments(segs) && Join(segs, ".") == name {
        SplitJoin(segs, '.');
      }
    }
  }

  /** Joining pieces with dots and synthesising the type name upper-cases each piece at
      its front and runs them together. */
  lemma GetTypenameOfSegments(segs: seq<string>, absPath: string)
    requires DottedSegments(segs)
    ensures GetTypename(Join(segs, "."), absPath) == Ok(JoinMapped(UpperFirst, segs))
  {
    SplitJoin(segs, '.');
  }

  /** Names with a dot in the wrong place are rejected. */
  lemma GetTypenameRejects(a: string, b: string, absPath: string)
    requires a != "" && '.' !in a && '.' !in b
    ensures GetTypename("." + a, absPath) == Err(MisplacedDots("." + a, absPath))
    ensures GetTypename(a + ".", absPath) == Err(MisplacedDots(a + ".", absPath))
    ensures GetTypename(a + ".." + b, absPath) == Err(MisplacedDots(a + ".." + b, absPath))
  {
    SplitPrefix("", a, '.');
    assert "" + ("." + a) == "." + a;
    assert "." + a == ['.'] + a;
    SplitPrefix(a, "", '.');
    assert a + (['.'] + "") == a + ".";
    assert Split("", '.') == [""];
    assert Split(a + ".", '.')[1] == "";
    SplitPrefix(a, "." + b, '.');
    assert a + (['.'] + ("." + b)) == a + ".." + b;
    SplitPrefix("", b, '.');
    assert "" + ("." + b) == "." + b;
    assert Split(a + ".." + b, '.')[1] == "";
  }

  // ---------------------------------------------------------------------------------
  // Field configs

  /** `isSomeOutputTypeDefinition` of this file: type strings, arrays judged by their first
      element, else `isComposeOutputType`. Unlike the loader's version, a function is
      not accepted by its own branch. */
  function IsSomeOutputTypeDefinition(o: TypeOracle, t: JsValue): bool {
    match t
    case Str(s) => o.isSomeOutputTypeDefinitionString(s) || o.isTypeNameString(s)
    case Arr(items) =>
      if |items| == 0 then o.isComposeOutputType(Undefined) else IsSomeOutputTypeDefinition(o, items[0])
    case _ => o.isComposeOutputType(t)
  }

  /** `prepareFieldConfig`: the module's default export, as is, when it names a valid
      output type. */
  function PrepareFieldConfig(o: TypeOracle, code: JsValue, absPath: string): (r: Result<JsValue, SchemaError>)
    ensures r.Ok? <==>
      Truthy(Get(code, "default"))
      && Truthy(Get(Get(code, "default"), "type"))
      && IsSomeOutputTypeDefinition(o, Get(Get(code, "default"), "type"))
    ensures r.Ok? ==> r.value == Get(code, "default")
    ensures !Truthy(Get(code, "default")) ==> r == Err(MissingDefault(absPath))
    ensures r.Err? ==> r.error in {MissingDefault(absPath), InvalidFieldType(absPath)}
  {
    var fc := Get(code, "default");
    if !Truthy(fc) then Err(MissingDefault(absPath))
    else if !Truthy(Get(fc, "type")) || !IsSomeOutputTypeDefinition(o, Get(fc, "type")) then Err(InvalidFieldType(absPath))
    else Ok(fc)
  }

  /** A namespace config after preparation, with the name of the object type it holds. */
  datatype Namespace = Namespace(config: JsValue, typeName: string)

  /** The type a namespace config asks for: absent means a new type called `typename`;
      a string must be an output type definition or a type name; anything else must be
      an `ObjectTypeComposer` or a `GraphQLObjectType`. The result is the name of the
      type `createObjectTC` registers. */
  function NamespaceTypeName(o: TypeOracle, t: JsValue, absPath: string, typename: string): (r: Result<string, SchemaError>)
    ensures !Truthy(t) ==> r == Ok(typename)
    ensures Truthy(t) && t.Str? ==> (r.Ok? <==> o.isOutputTypeDefinitionString(t.s) || o.isTypeNameString(t.s))
    ensures Truthy(t) && !t.Str? ==> (r.Ok? <==> t.Instance? && t.cls in {ObjectTypeComposerClass, GraphQLObjectTypeClass})
    ensures r.Err? ==> r.error in {InvalidTypeDefinition(absPath), StrangeType(absPath)}
  {
    if !Truthy(t) then Ok(typename)
    else if t.Str? then
      if !o.isOutputTypeDefinitionString(t.s) && !o.isTypeNameString(t.s) then Err(InvalidTypeDefinition(absPath))
      else Ok(o.definedTypeName(t.s))
    else if !(t.Instance? && t.cls in {ObjectTypeComposerClass, GraphQLObjectTypeClass}) then Err(StrangeType(absPath))
    else Ok(t.typeName)
  }

  /** `prepareNamespaceFieldConfig`: the module's default export with `type` replaced by the
      object type it names (a new one called `typename` when absent) and a missing
      `resolve` filled with `() => ({})`. */
  function PrepareNamespaceFieldConfig(o: TypeOracle, code: JsValue, absPath: string, typename: string): (r: Result<Namespace, SchemaError>)
    ensures !Truthy(Get(code, "default")) ==> r == Err(MissingNamespaceDefault(absPath))
    ensures r.Ok? ==>
      var d := Get(code, "default");
      && (d.Obj? || d.Instance?)
      && NamespaceTypeName(o, Get(d, "type"), absPath, typename) == Ok(r.value.typeName)
      && Get(r.value.config, "type") == ObjectTC(r.value.typeName)
      && Get(r.value.config, "resolve") == (if Truthy(Get(d, "resolve")) then Get(d, "resolve") else DefaultResolve)
      && (forall k | k != "type" && k != "resolve" :: Get(r.value.config, k) == Get(d, k))
    ensures r.Ok? ==> r.value.config.Obj? || r.value.config.Instance?
    ensures r.Ok? && !Truthy(Get(Get(code, "default"), "type")) ==> r.value.typeName == typename
  {
    var d := Get(code, "default");
    if !Truthy(d) then Err(MissingNamespaceDefault(absPath))
    else if !(d.Obj? || d.Instance?) then Err(NamespaceNotObject(absPath))
    else
      match NamespaceTypeName(o, Get(d, "type"), absPath, typename)
      case Err(e) => Err(e)
      case Ok(name) =>
        var withType := SetProp(d, "type", ObjectTC(name));
        var fc := if !Truthy(Get(withType, "resolve")) then SetProp(withType, "resolve", DefaultResolve) else withType;
        Ok(Namespace(fc, name))
  }

  /** `{ resolve: () => ({}), ...fc }`: the namespace's own properties over a default
      `resolve`. */
  function DirFieldConfig(fc: JsValue): (r: JsValue)
    ensures r.Obj?
    ensures (fc.Obj? || fc.Instance?) && "resolve" in fc.props ==> Get(r, "resolve") == fc.props["resolve"]
    ensures !((fc.Obj? || fc.Instance?) && "resolve" in fc.props) && !fc.Arr? ==> Get(r, "resolve") == DefaultResolve
    ensures forall k | k != "resolve" && (fc.Obj? || fc.Instance?) :: Get(r, k) == Get(fc, k)
  {
    Obj(map["resolve" := DefaultResolve] + OwnProps(fc))
  }

  /** The config of a directory field: its `index` file's namespace config when that
      child is a file, else a new object type called `typename`. */
  function DirNamespace(o: TypeOracle, children: map<string, AstNode>, typename: string): (r: Result<Namespace, SchemaError>)
    ensures !("index" in children && children["index"].FileNode?) ==>
      r == Ok(Namespace(Obj(map["type" := ObjectTC(typename)]), typename))
    ensures "index" in children && children["index"].FileNode? ==>
      r == PrepareNamespaceFieldConfig(o, children["index"].code, children["index"].absPath, typename)
  {
    if "index" in children && children["index"].FileNode? then
      PrepareNamespaceFieldConfig(o, children["index"].code, children["index"].absPath, typename)
    else
      Ok(Namespace(Obj(map["type" := ObjectTC(typename)]), typename))
  }

  // ---------------------------------------------------------------------------------
  // createFields, populateRoot, astToSchema

  /** Whether a file is an `index` file, a `*.index` namespace file or an ordinary one. */
  predicate IsNamespaceFile(name: string) {
    name != "index" && EndsWith(name, ".index")
  }

  /** The field key of a `*.index` file: its name without the final `.index`. */
  function NamespaceKey(name: string): (r: string)
    requires EndsWith(name, ".index")
    ensures r + ".index" == name
  {
    name[..|name| - 6]
  }

  /** `createFields`: the field (and, below a directory, the types and fields) one node
      contributes to the type `owner`, for a node whose type names start with `prefix`.
      Every name is checked first; a root-type node below another adds nothing. */
  function CreateFields(o: TypeOracle, n: AstNode, prefix: string, owner: string): (r: Outcome)
    ensures !IsValidName(n.name) ==> r == Err({InvalidName(n.name, n.absPath)})
    ensures r.Ok? ==> OwnersKnown(r.value, owner)
    ensures IsValidName(n.name) && n.FileNode? ==> r == CreateFileFields(o, n, prefix, owner)
    ensures IsValidName(n.name) && n.DirNode? ==> r == CreateDirFields(o, n, prefix, owner)
    ensures IsValidName(n.name) && n.RootTypeNode? ==> r == Ok(Empty)
    decreases n, 3
  {
    if !IsValidName(n.name) then Err({InvalidName(n.name, n.absPath)})
    else if n.FileNode? then CreateFileFields(o, n, prefix, owner)
    else if n.DirNode? then CreateDirFields(o, n, prefix, owner)
    else Ok(Empty)
  }

  /** A file: an `index` file adds nothing; a `*.index` file adds a namespace field under
      its name without `.index`, of a type named from the prefix and the whole file name;
      any other file adds its module's config under its own name. */
  function CreateFileFields(o: TypeOracle, n: AstNode, prefix: string, owner: string): (r: Outcome)
    requires n.FileNode?
    ensures r.Ok? ==> OwnersKnown(r.value, owner)
    ensures n.name == "index" ==> r == Ok(Empty)
    ensures n.name != "index" && !EndsWith(n.name, ".index") ==>
      match PrepareFieldConfig(o, n.code, n.absPath)
      case Ok(fc) => r == Ok(Schema({}, {Field(owner, n.name, fc)}))
      case Err(e) => r == Err({e})
    ensures IsNamespaceFile(n.name) ==>
      (r.Ok? <==> GetTypename(n.name, n.absPath).Ok?
                  && PrepareNamespaceFieldConfig(o, n.code, n.absPath, prefix + GetTypename(n.name, n.absPath).value).Ok?)
    ensures r.Ok? && IsNamespaceFile(n.name) ==>
      var ns := PrepareNamespaceFieldConfig(o, n.code, n.absPath, prefix + GetTypename(n.name, n.absPath).value).value;
      r.value == Schema({ns.typeName}, {Field(owner, NamespaceKey(n.name), ns.config)})
  {
    var name := n.name;
    if name == "index" then Ok(Empty)
    else if EndsWith(name, ".index") then
      match GetTypename(name, n.absPath)
      case Err(e) => Err({e})
      case Ok(tn) =>
        (match PrepareNamespaceFieldConfig(o, n.code, n.absPath, prefix + tn)
         case Err(e) => Err({e})
         case Ok(ns) => Ok(Schema({ns.typeName}, {Field(owner, NamespaceKey(name), ns.config)})))
    else
      match PrepareFieldConfig(o, n.code, n.absPath)
      case Err(e) => Err({e})
      case Ok(fc) => Ok(Schema({}, {Field(owner, name, fc)}))
  }

  /** A directory: a field named after it whose type is called prefix + its synthesised
      name (or is configured by its `index` file), then its children on that type. */
  function CreateDirFields(o: TypeOracle, n: AstNode, prefix: string, owner: string): (r: Outcome)
    requires n.DirNode?
    ensures r.Ok? <==>
      && GetTypename(n.name, n.absPath).Ok?
      && DirNamespace(o, n.children, prefix + GetTypename(n.name, n.absPath).value).Ok?
      && DirBody(o, n, prefix + GetTypename(n.name, n.absPath).value,
                 DirNamespace(o, n.children, prefix + GetTypename(n.name, n.absPath).value).value, owner).Ok?
    ensures r.Ok? ==>
      var typename := prefix + GetTypename(n.name, n.absPath).value;
      r == DirBody(o, n, typename, DirNamespace(o, n.children, typename).value, owner)
    ensures r.Ok? ==> OwnersKnown(r.value, owner)
    decreases n, 2
  {
    match GetTypename(n.name, n.absPath)
    case Err(e) => Err({e})
    case Ok(tn) =>
      var typename := prefix + tn;
      match DirNamespace(o, n.children, typename)
      case Err(e) => Err({e})
      case Ok(ns) => DirBody(o, n, typename, ns, owner)
  }

  /** The directory's own field, of the namespace's type, and every child's fields on
      that type, each child getting the directory's full type name as its prefix. */
  function DirBody(o: TypeOracle, n: AstNode, typename: string, ns: Namespace, owner: string): (r: Outcome)
    requires n.DirNode?
    ensures r.Ok? <==> forall k | k in n.children :: CreateFields(o, n.children[k], typename, ns.typeName).Ok?
    ensures r.Ok? ==> OwnersKnown(r.value, owner)
    decreases n, 1
  {
    var own := Schema({ns.typeName}, {Field(owner, n.name, DirFieldConfig(ns.config))});
    var steps := ChildSteps(o, n, typename, ns.typeName);
    var rest := CombineAll(steps);
    if rest.Err? then rest
    else
      CombineOwners(steps, ns.typeName);
      NestedOwners(own, rest.value, owner, ns.typeName);
      Ok(Union(own, rest.value))
  }

  /** Every child's `createFields`, under its key. */
  function ChildSteps(o: TypeOracle, n: AstNode, typename: string, owner: string): (r: map<string, Outcome>)
    requires n.HasChildren()
    ensures r.Keys == n.children.Keys
    ensures forall k | k in n.children :: r[k] == CreateFields(o, n.children[k], typename, owner)
    decreases n, 0
  {
    map k | k in n.children :: CreateFields(o, n.children[k], typename, owner)
  }

  /** What a successful directory body holds: the directory's type and field, all its
      children's types and fields, and nothing else. */
  lemma DirBodyContents(o: TypeOracle, n: AstNode, typename: string, ns: Namespace, owner: string)
    requires n.DirNode? && DirBody(o, n, typename, ns, owner).Ok?
    ensures var r := DirBody(o, n, typename, ns, owner).value;
      var steps := ChildSteps(o, n, typename, ns.typeName);
      && ns.typeName in r.types
      && Field(owner, n.name, DirFieldConfig(ns.config)) in r.fields
      && (forall k | k in steps :: steps[k].value.types <= r.types && steps[k].value.fields <= r.fields)
      && (forall t | t in r.types :: t == ns.typeName || exists k | k in steps :: t in steps[k].value.types)
      && (forall f | f in r.fields :: f == Field(owner, n.name, DirFieldConfig(ns.config)) || exists k | k in steps :: f in steps[k].value.fields)
  {
    DirBodyIs(o, n, typename, ns, owner);
    CombineOneContents(DirBody(o, n, typename, ns, owner).value, ns.typeName, Field(owner, n.name, DirFieldConfig(ns.config)),
      ChildSteps(o, n, typename, ns.typeName));
  }

  /** A directory body that succeeds is its own type and field plus its children's. */
  lemma DirBodyIs(o: TypeOracle, n: AstNode, typename: string, ns: Namespace, owner: string)
    requires n.DirNode? && DirBody(o, n, typename, ns, owner).Ok?
    ensures CombineAll(ChildSteps(o, n, typename, ns.typeName)).Ok?
    ensures DirBody(o, n, typename, ns, owner).value ==
      Union(Schema({ns.typeName}, {Field(owner, n.name, DirFieldConfig(ns.config))}), CombineAll(ChildSteps(o, n, typename, ns.typeName)).value)
  {
  }

  /** `populateRoot`: the root type `Query`, `Mutation` or `Subscription` and the fields
      of every child of its root-type node, with the root name as prefix. */
  function PopulateRoot(o: TypeOracle, op: Operation, root: AstNode): (r: Outcome)
    ensures r.Ok? ==> RootTypeName(op) in r.value.types && OwnersKnown(r.value, RootTypeName(op))
    ensures r.Ok? <==> !root.HasChildren() || forall k | k in root.children :: CreateFields(o, root.children[k], RootTypeName(op), RootTypeName(op)).Ok?
    ensures r.Ok? && root.HasChildren() ==> forall k | k in root.children ::
      && CreateFields(o, root.children[k], RootTypeName(op), RootTypeName(op)).value.types <= r.value.types
      && CreateFields(o, root.children[k], RootTypeName(op), RootTypeName(op)).value.fields <= r.value.fields
    ensures r.Ok? ==> forall t | t in r.value.types ::
      t == RootTypeName(op) ||
      (root.HasChildren() && exists k | k in root.children :: t in CreateFields(o, root.children[k], RootTypeName(op), RootTypeName(op)).value.types)
    ensures r.Ok? ==> forall f | f in r.value.fields ::
      root.HasChildren() && exists k | k in root.children :: f in CreateFields(o, root.children[k], RootTypeName(op), RootTypeName(op)).value.fields
  {
    var rootName := RootTypeName(op);
    if !root.HasChildren() then Ok(Schema({rootName}, {}))
    else
      var steps := map k | k in root.children :: CreateFields(o, root.children[k], rootName, rootName);
      var rest := CombineAll(steps);
      assert forall k | k in root.children :: steps[k] == CreateFields(o, root.children[k], rootName, rootName);
      if rest.Err? then rest
      else
        CombineOwners(steps, rootName);
        Ok(Union(Schema({rootName}, {}), rest.value))
  }

  /** One root of `astToSchema`, when present. */
  function PopulateIfPresent(o: TypeOracle, ast: AstRoot, op: Operation, s: Schema): (r: Outcome)
    ensures op !in ast.children ==> r == Ok(s)
    ensures op in ast.children ==> (r.Ok? <==> PopulateRoot(o, op, ast.children[op]).Ok?)
    ensures r.Ok? ==> s.types <= r.value.types && s.fields <= r.value.fields
    ensures r.Ok? && op in ast.children ==> PopulateRoot(o, op, ast.children[op]).value.fields <= r.value.fields
    ensures r.Ok? && op in ast.children ==> RootTypeName(op) in r.value.types
    ensures r.Ok? && op in ast.children ==> r.value == Union(s, PopulateRoot(o, op, ast.children[op]).value)
  {
    if op in ast.children then
      var p :- PopulateRoot(o, op, ast.children[op]);
      Ok(Union(s, p))
    else Ok(s)
  }

  /** `astToSchema`: the given composer (or a new, empty one) populated with the query,
      mutation and subscription roots, in that order. */
  function AstToSchemaOf(o: TypeOracle, ast: AstRoot, given: Option<Schema>): (r: Outcome)
    ensures r.Ok? ==> given.GetOr(Empty).types <= r.value.types && given.GetOr(Empty).fields <= r.value.fields
    ensures r.Ok? <==> forall op | op in ast.children :: PopulateRoot(o, op, ast.children[op]).Ok?
    ensures r.Ok? ==> forall op | op in ast.children :: RootTypeName(op) in r.value.types
    ensures r.Ok? ==> forall op | op in ast.children ::
      PopulateRoot(o, op, ast.children[op]).value.types <= r.value.types &&
      PopulateRoot(o, op, ast.children[op]).value.fields <= r.value.fields
    ensures r.Ok? ==> forall t | t in r.value.types ::
      t in given.GetOr(Empty).types || exists op | op in ast.children :: t in PopulateRoot(o, op, ast.children[op]).value.types
    ensures r.Ok? ==> forall f | f in r.value.fields ::
      f in given.GetOr(Empty).fields || exists op | op in ast.children :: f in PopulateRoot(o, op, ast.children[op]).value.fields
  {
    var s0 := given.GetOr(Empty);
    var s1 :- PopulateIfPresent(o, ast, Query, s0);
    var s2 :- PopulateIfPresent(o, ast, Mutation, s1);
    var r := PopulateIfPresent(o, ast, Subscription, s2);
    RootsPopulate(o, ast);
    if r.Ok? then
      RootsCollected(s0, ast.children.Keys, map op | op in ast.children :: PopulateRoot(o, op, ast.children[op]).value,
        s1, s2, r.value);
      r
    else r
  }

  /** The three-step union of the roots: what it holds is what the start held or what a
      present root contributed. */
  lemma RootsCollected(s0: Schema, present: set<Operation>, p: map<Operation, Schema>, s1: Schema, s2: Schema, s3: Schema)
    requires p.Keys == present
    requires s1 == (if Query in present then Union(s0, p[Query]) else s0)
    requires s2 == (if Mutation in present then Union(s1, p[Mutation]) else s1)
    requires s3 == (if Subscription in present then Union(s2, p[Subscription]) else s2)
    ensures forall op | op in present :: p[op].types <= s3.types && p[op].fields <= s3.fields
    ensures forall t | t in s3.types :: t in s0.types || exists op | op in present :: t in p[op].types
    ensures forall f | f in s3.fields :: f in s0.fields || exists op | op in present :: f in p[op].fields
  {
    assert s1.types <= s2.types <= s3.types && s1.fields <= s2.fields <= s3.fields;
    forall op | op in present ensures p[op].types <= s3.types && p[op].fields <= s3.fields {
      match op
      case Query =>
      case Mutation =>
      case Subscription =>
    }
  }

  /** Every present root populates iff each of the three, when present, does. */
  lemma RootsPopulate(o: TypeOracle, ast: AstRoot)
    ensures (forall op | op in ast.children :: PopulateRoot(o, op, ast.children[op]).Ok?) <==>
      && (Query in ast.children ==> PopulateRoot(o, Query, ast.children[Query]).Ok?)
      && (Mutation in ast.children ==> PopulateRoot(o, Mutation, ast.children[Mutation]).Ok?)
      && (Subscription in ast.children ==> PopulateRoot(o, Subscription, ast.children[Subscription]).Ok?)
  {
    assert forall op | op in ast.children :: op == Query || op == Mutation || op == Subscription;
  }

  // ---------------------------------------------------------------------------------
  // Properties

  /** No namespace config in the tree names its own type: neither a `*.index` file nor a
      directory's `index` file sets `type`. */
  predicate NoNamedTypes(n: AstNode)
    decreases n
  {
    match n
    case FileNode(name, _, code, _) => IsNamespaceFile(name) ==> !Truthy(Get(Get(code, "default"), "type"))
    case _ =>
      && ("index" in n.children && n.children["index"].FileNode? ==>
            !Truthy(Get(Get(n.children["index"].code, "default"), "type")))
      && forall k | k in n.children :: NoNamedTypes(n.children[k])
  }

  lemma StartsWithLonger(t: string, prefix: string, more: string)
    requires StartsWith(t, prefix + more)
    ensures StartsWith(t, prefix)
  {
    assert t[..|prefix|] == (prefix + more)[..|prefix|];
  }

  /** Prefix threading: when no namespace config names its own type, every type a node
      creates is named with the prefix it was given in front. */
  lemma {:induction false} TypesCarryPrefix(o: TypeOracle, n: AstNode, prefix: string, owner: string)
    requires NoNamedTypes(n)
    requires CreateFields(o, n, prefix, owner).Ok?
    ensures forall t | t in CreateFields(o, n, prefix, owner).value.types :: StartsWith(t, prefix)
    decreases n
  {
    var r := CreateFields(o, n, prefix, owner).value;
    if n.FileNode? {
      if IsNamespaceFile(n.name) {
        var tn := GetTypename(n.name, n.absPath).value;
        forall t | t in r.types ensures StartsWith(t, prefix) {
          assert t == prefix + tn;
          assert t[..|prefix|] == prefix;
        }
      }
    } else if n.DirNode? {
      var typename := prefix + GetTypename(n.name, n.absPath).value;
      var ns := DirNamespace(o, n.children, typename).value;
      assert ns.typeName == typename;
      assert r == DirBody(o, n, typename, ns, owner).value;
      DirBodyContents(o, n, typename, ns, owner);
      forall t | t in r.types ensures StartsWith(t, prefix) {
        if t == ns.typeName {
          assert t[..|prefix|] == prefix;
        } else {
          var k :| k in ChildSteps(o, n, typename, ns.typeName) && t in ChildSteps(o, n, typename, ns.typeName)[k].value.types;
          TypesCarryPrefix(o, n.children[k], typename, ns.typeName);
          StartsWithLonger(t, prefix, GetTypename(n.name, n.absPath).value);
        }
      }
    }
  }

  /** A dot-free valid name's type name is the name upper-cased at its front. */
  lemma PlainTypename(name: string, absPath: string)
    requires '.' !in name
    ensures GetTypename(name, absPath) == Ok(UpperFirst(name))
  {
  }

  /** The config of a directory field without an `index` file. */
  function PlainDirConfig(typename: string): JsValue {
    DirFieldConfig(Obj(map["type" := ObjectTC(typename)]))
  }

  /** An empty directory adds one type, named from the prefix and its own name, and one
      field of that type on its owner. */
  lemma EmptyDirFields(o: TypeOracle, d: AstNode, prefix: string, owner: string)
    requires d.DirNode? && d.children == map[] && IsValidName(d.name) && '.' !in d.name
    ensures CreateFields(o, d, prefix, owner) ==
      Ok(Schema({prefix + UpperFirst(d.name)}, {Field(owner, d.name, PlainDirConfig(prefix + UpperFirst(d.name)))}))
  {
    var typename := prefix + UpperFirst(d.name);
    PlainTypename(d.name, d.absPath);
    var steps := ChildSteps(o, d, typename, typename);
    assert steps == map[];
    CombineNone(steps);
    var ns := Namespace(Obj(map["type" := ObjectTC(typename)]), typename);
    assert DirNamespace(o, d.children, typename) == Ok(ns);
    var own := Schema({typename}, {Field(owner, d.name, PlainDirConfig(typename))});
    assert DirBody(o, d, typename, ns, owner) == Ok(Union(own, Empty));
    assert Union(own, Empty) == own;
    assert CreateDirFields(o, d, prefix, owner) == DirBody(o, d, typename, ns, owner);
  }

  /** A valid, dot-free directory without an `index` file is its body under the type
      named from the prefix and its own name. */
  lemma PlainDirIsBody(o: TypeOracle, a: AstNode, prefix: string, owner: string)
    requires a.DirNode? && IsValidName(a.name) && '.' !in a.name
    requires !("index" in a.children && a.children["index"].FileNode?)
    ensures var ta := prefix + UpperFirst(a.name);
      CreateFields(o, a, prefix, owner) == DirBody(o, a, ta, Namespace(Obj(map["type" := ObjectTC(ta)]), ta), owner)
  {
    PlainTypename(a.name, a.absPath);
  }

  /** The steps of a directory with a single child. */
  lemma OneChildSteps(o: TypeOracle, a: AstNode, typename: string, owner: string, k: string, c: AstNode, v: Outcome)
    requires a.DirNode? && a.children == map[k := c]
    requires CreateFields(o, c, typename, owner) == v
    ensures ChildSteps(o, a, typename, owner) == map[k := v]
  {
    var steps := ChildSteps(o, a, typename, owner);
    assert a.children.Keys == {k} && a.children[k] == c;
    OneStep(steps, k, v);
  }

  /** The body of a directory whose single child succeeds with `inner`. */
  lemma OneChildBody(o: TypeOracle, a: AstNode, typename: string, ns: Namespace, owner: string, k: string, inner: Schema)
    requires a.DirNode?
    requires ChildSteps(o, a, typename, ns.typeName) == map[k := Ok(inner)]
    ensures DirBody(o, a, typename, ns, owner) ==
      Ok(Union(Schema({ns.typeName}, {Field(owner, a.name, DirFieldConfig(ns.config))}), inner))
  {
    CombineOne(ChildSteps(o, a, typename, ns.typeName), k, inner);
  }

  /** A directory `a` holding only an empty directory `b` (as `query.auth/nested` gives
      `QueryAuthNested`): the types are prefix + `A` and prefix + `A` + `B`, and `b`'s
      field sits on the type of `a`. */
  lemma NestedTypeNames(o: TypeOracle, a: AstNode, b: AstNode, prefix: string, owner: string)
    requires a.DirNode? && b.DirNode? && a.children == map[b.name := b] && b.children == map[]
    requires IsValidName(a.name) && '.' !in a.name && IsValidName(b.name) && '.' !in b.name
    ensures var ta := prefix + UpperFirst(a.name);
      var tb := ta + UpperFirst(b.name);
      CreateFields(o, a, prefix, owner) ==
        Ok(Schema({ta, tb}, {Field(owner, a.name, PlainDirConfig(ta)), Field(ta, b.name, PlainDirConfig(tb))}))
  {
    var ta := prefix + UpperFirst(a.name);
    var tb := ta + UpperFirst(b.name);
    var ns := Namespace(Obj(map["type" := ObjectTC(ta)]), ta);
    var inner := Schema({tb}, {Field(ta, b.name, PlainDirConfig(tb))});
    PlainDirIsBody(o, a, prefix, owner);
    EmptyDirFields(o, b, ta, ta);
    OneChildSteps(o, a, ta, ta, b.name, b, Ok(inner));
    OneChildBody(o, a, ta, ns, owner, b.name, inner);
    TwoOfEach(ta, tb, Field(owner, a.name, PlainDirConfig(ta)), Field(ta, b.name, PlainDirConfig(tb)));
  }
}

=== FILE: ast_visitor.dfy ===
/** `astVisitor`: a pre-order walk over the schema AST in which a callback per node kind
    decides, for each node, whether to go on, remove the node, skip its children or
    replace it. The walk is modelled as a function producing the new tree together with
    the set of callback invocations it makes. */
module AstVisitor {
  import opened Results
  import opened Ast

  /** What a callback returns: `undefined` (go on), `null` (`VISITOR_REMOVE_NODE`),
      `false` (`VISITOR_SKIP_CHILDREN`) or a node to put in place of the visited one. */
  datatype Action = Continue | RemoveNode | SkipChildren | Replace(node: AstNode)

  /** The owner of the visited node's key: the AST root or a `dir`/`rootType` node. */
  datatype Parent = RootParent(root: AstRoot) | NodeParent(node: AstNode)

  /** What a callback is told about the visited node: its operation, the parent it sits
      in, its key there, and the keys leading to that parent. */
  datatype Info = Info(operation: Operation, parent: Parent, name: string, path: seq<string>)

  /** The three optional callbacks `DIR`, `FILE` and `ROOT_TYPE`. */
  datatype Visitor = Visitor(
    dir: Option<(AstNode, Info) -> Action>,
    file: Option<(AstNode, Info) -> Action>,
    rootType: Option<(AstNode, Info) -> Action>)

  datatype CallbackKind = DirCallback | FileCallback | RootTypeCallback

  /** One invocation of a callback. */
  datatype Call = Call(callback: CallbackKind, node: AstNode, info: Info)

  /** The new node (none when removed) and the callback invocations made on the way. */
  datatype Visited = Visited(result: Option<AstNode>, calls: set<Call>)

  /** The callback responsible for a node of this kind. */
  function KindOf(node: AstNode): CallbackKind {
    match node
    case DirNode(_, _, _, _) => DirCallback
    case FileNode(_, _, _, _) => FileCallback
    case RootTypeNode(_, _, _, _) => RootTypeCallback
  }

  function CallbackFor(v: Visitor, kind: CallbackKind): Option<(AstNode, Info) -> Action> {
    match kind
    case DirCallback => v.dir
    case FileCallback => v.file
    case RootTypeCallback => v.rootType
  }

  /** The callback's answer for this node; a missing callback answers `undefined`. */
  function Dispatch(v: Visitor, node: AstNode, info: Info): Action {
    var cb := CallbackFor(v, KindOf(node));
    if cb.Some? then cb.value(node, info) else Continue
  }

  /** The invocation `visitNode` makes for this node, if the visitor has its callback. */
  function OwnCall(v: Visitor, node: AstNode, info: Info): set<Call> {
    if CallbackFor(v, KindOf(node)).Some? then {Call(KindOf(node), node, info)} else {}
  }

  /** Visitors whose replacements are never taller than the node they replace, so that
      the walk is finite. */
  ghost predicate NonDeepening(v: Visitor) {
    forall n: AstNode, info: Info :: Dispatch(v, n, info).Replace? ==> Height(Dispatch(v, n, info).node) <= Height(n)
  }

  /** The info handed to the child under key `k` of `parent`, itself visited with `info`. */
  function ChildInfo(info: Info, parent: AstNode, k: string): (r: Info)
    ensures r.operation == info.operation && r.name == k
    ensures r.parent == NodeParent(parent) && r.path == info.path + [info.name]
  {
    Info(info.operation, NodeParent(parent), k, info.path + [info.name])
  }

  /** `visitNode`: ask the callback, then remove, keep, replace and descend, or descend. */
  function VisitNode(node: AstNode, v: Visitor, info: Info): (r: Visited)
    requires NonDeepening(v)
    decreases Height(node), 2
    ensures r.result.None? <==> Dispatch(v, node, info) == RemoveNode
    ensures OwnCall(v, node, info) <= r.calls
    ensures Dispatch(v, node, info) in {RemoveNode, SkipChildren} ==> r.calls == OwnCall(v, node, info)
    ensures Dispatch(v, node, info) == SkipChildren ==> r.result == Some(node)
    ensures Dispatch(v, node, info).Replace? && Dispatch(v, node, info).node.FileNode? ==>
      r.result == Some(Dispatch(v, node, info).node)
    ensures Dispatch(v, node, info) == Continue ==> r.result.Some? && SameShell(r.result.value, node)
    ensures Dispatch(v, node, info).Replace? ==> r.result.Some? && SameShell(r.result.value, Dispatch(v, node, info).node)
    ensures Dispatch(v, node, info).Replace? && Dispatch(v, node, info).node.HasChildren() ==>
      var m := Dispatch(v, node, info).node;
      forall k | k in m.children :: OwnCall(v, m.children[k], ChildInfo(info, m, k)) <= r.calls
    ensures Dispatch(v, node, info) == Continue && node.HasChildren() ==>
      forall k | k in node.children :: OwnCall(v, node.children[k], ChildInfo(info, node, k)) <= r.calls
    ensures Dispatch(v, node, info) == Continue ==>
      r.result == Descend(node, v, info).result && r.calls == OwnCall(v, node, info) + Descend(node, v, info).calls
    ensures Dispatch(v, node, info).Replace? ==>
      var m := Dispatch(v, node, info).node;
      r.result == Descend(m, v, info).result && r.calls == OwnCall(v, node, info) + Descend(m, v, info).calls
  {
    var own := OwnCall(v, node, info);
    match Dispatch(v, node, info)
    case RemoveNode => Visited(None, own)
    case SkipChildren => Visited(Some(node), own)
    case Replace(m) =>
      var d := Descend(m, v, info);
      Visited(d.result, own + d.calls)
    case Continue =>
      var d := Descend(node, v, info);
      Visited(d.result, own + d.calls)
  }

  /** Two nodes of the same kind that agree on everything but (possibly fewer) children. */
  predicate SameShell(a: AstNode, b: AstNode) {
    match b
    case FileNode(_, _, _, _) => a == b
    case _ => a.HasChildren() && a == b.WithChildren(a.children) && a.children.Keys <= b.children.Keys
  }

  /** The descent of `visitNode` into a `dir` or `rootType` result: every child is
      visited under its key with this node as parent; removed children disappear and the
      others are replaced by what their visit produced. A file has nothing to descend
      into. */
  function Descend(n: AstNode, v: Visitor, info: Info): (r: Visited)
    requires NonDeepening(v)
    decreases Height(n), 1
    ensures r.result.Some? && SameShell(r.result.value, n)
    ensures n.HasChildren() ==>
      r.result.value.children.Keys == (set k | k in n.children && Dispatch(v, n.children[k], ChildInfo(info, n, k)) != RemoveNode)
    ensures n.HasChildren() ==>
      forall k | k in n.children :: OwnCall(v, n.children[k], ChildInfo(info, n, k)) <= r.calls
    ensures n.FileNode? ==> r.calls == {}
    ensures n.HasChildren() ==>
      forall k | k in r.result.value.children ::
        Some(r.result.value.children[k]) == VisitChildren(n, v, info)[k].result
    ensures n.HasChildren() ==>
      forall c :: c in r.calls <==> exists k | k in n.children :: c in VisitChildren(n, v, info)[k].calls
  {
    if n.FileNode? then Visited(Some(n), {})
    else
      var visits := VisitChildren(n, v, info);
      Visited(Some(n.WithChildren(Survivors(visits))), AllCalls(visits))
  }

  /** The visit of every child of `n`, by key. */
  function VisitChildren(n: AstNode, v: Visitor, info: Info): (r: map<string, Visited>)
    requires NonDeepening(v) && n.HasChildren()
    decreases Height(n), 0
    ensures r.Keys == n.children.Keys
    ensures forall k | k in r :: Height(n.children[k]) < Height(n) && r[k] == VisitNode(n.children[k], v, ChildInfo(info, n, k))
  {
    ChildrenLower(n);
    map k | k in n.children :: VisitNode(n.children[k], v, ChildInfo(info, n, k))
  }

  /** The nodes the visits left in place (removed ones dropped). */
  function Survivors<K>(visits: map<K, Visited>): (r: map<K, AstNode>)
    ensures r.Keys == set k | k in visits && visits[k].result.Some?
    ensures forall k | k in r :: Some(r[k]) == visits[k].result
  {
    map k | k in visits && visits[k].result.Some? :: visits[k].result.value
  }

  /** Every invocation made by any of the visits. */
  function AllCalls<K>(visits: map<K, Visited>): (r: set<Call>)
    ensures forall k | k in visits :: visits[k].calls <= r
    ensures forall c | c in r :: exists k | k in visits :: c in visits[k].calls
  {
    set k, c | k in visits && c in visits[k].calls :: c
  }

  /** The info a root type is visited with: the root as parent, its operation key as
      name, an empty path. */
  function RootInfo(ast: AstRoot, op: Operation): (r: Info)
    ensures r.parent == RootParent(ast) && r.name == OperationKey(op) && r.path == [] && r.operation == op
  {
    Info(op, RootParent(ast), OperationKey(op), [])
  }

  datatype RootVisited = RootVisited(root: AstRoot, calls: set<Call>)

  /** `astVisitor`: visit every present root type; a removed root type disappears from
      the root, a replaced one is stored in its place. */
  function Visit(ast: AstRoot, v: Visitor): (r: RootVisited)
    requires NonDeepening(v)
    ensures r.root.name == ast.name && r.root.absPath == ast.absPath
    ensures r.root.children.Keys == set op | op in ast.children && Dispatch(v, ast.children[op], RootInfo(ast, op)) != RemoveNode
    ensures forall op | op in ast.children :: OwnCall(v, ast.children[op], RootInfo(ast, op)) <= r.calls
    ensures forall op | op in r.root.children :: Some(r.root.children[op]) == VisitNode(ast.children[op], v, RootInfo(ast, op)).result
    ensures forall c :: c in r.calls <==> exists op | op in ast.children :: c in VisitNode(ast.children[op], v, RootInfo(ast, op)).calls
  {
    var visits := RootVisits(ast, v);
    RootVisitsCollected(ast, v);
    RootVisited(AstRoot(ast.name, ast.absPath, Survivors(visits)), AllCalls(visits))
  }

  /** The visit of every present root type, by operation. */
  function RootVisits(ast: AstRoot, v: Visitor): (r: map<Operation, Visited>)
    requires NonDeepening(v)
    ensures r.Keys == ast.children.Keys
    ensures forall op | op in r :: r[op] == VisitNode(ast.children[op], v, RootInfo(ast, op))
  {
    map op | op in ast.children :: VisitNode(ast.children[op], v, RootInfo(ast, op))
  }

  /** What the root visits leave and call, in terms of each root type's visit. */
  lemma RootVisitsCollected(ast: AstRoot, v: Visitor)
    requires NonDeepening(v)
    ensures Survivors(RootVisits(ast, v)).Keys == set op | op in ast.children && Dispatch(v, ast.children[op], RootInfo(ast, op)) != RemoveNode
    ensures forall c :: c in AllCalls(RootVisits(ast, v)) <==> exists op | op in ast.children :: c in VisitNode(ast.children[op], v, RootInfo(ast, op)).calls
  {
    var visits := RootVisits(ast, v);
    assert forall op | op in visits ::
      visits[op].result.Some? <==> Dispatch(v, ast.children[op], RootInfo(ast, op)) != RemoveNode;
    forall c ensures c in AllCalls(visits) <==> exists op | op in ast.children :: c in VisitNode(ast.children[op], v, RootInfo(ast, op)).calls {
      if c in AllCalls(visits) {
        var op :| op in visits && c in visits[op].calls;
      }
    }
  }

  // ---------------------------------------------------------------------------------
  // Properties

  /** A callback's info lies at or below the info of the visit that led to it. */
  predicate Within(inner: Info, outer: Info) {
    inner == outer || outer.path + [outer.name] <= inner.path
  }

  /** Every invocation goes to the callback of the node's own kind, which the visitor
      has; it keeps the operation; its info is at or below the starting one. */
  predicate WellPlaced(c: Call, v: Visitor, info: Info) {
    && c.callback == KindOf(c.node)
    && CallbackFor(v, c.callback).Some?
    && c.info.operation == info.operation
    && Within(c.info, info)
  }

  lemma {:induction false} CallsWellPlaced(node: AstNode, v: Visitor, info: Info)
    requires NonDeepening(v)
    ensures forall c | c in VisitNode(node, v, info).calls :: WellPlaced(c, v, info)
    decreases Height(node), 2
  {
    match Dispatch(v, node, info)
    case Replace(m) => DescendWellPlaced(m, v, info);
    case Continue => DescendWellPlaced(node, v, info);
    case _ =>
  }

  lemma {:induction false} DescendWellPlaced(n: AstNode, v: Visitor, info: Info)
    requires NonDeepening(v)
    ensures forall c | c in Descend(n, v, info).calls :: WellPlaced(c, v, info) && c.info != info
    decreases Height(n), 1
  {
    if n.HasChildren() {
      var visits := VisitChildren(n, v, info);
      forall k, c | k in visits && c in visits[k].calls ensures WellPlaced(c, v, info) && c.info != info {
        var ci := ChildInfo(info, n, k);
        CallsWellPlaced(n.children[k], v, ci);
        assert WellPlaced(c, v, ci);
        assert info.path + [info.name] <= c.info.path by {
          if c.info != ci {
            assert ci.path + [ci.name] <= c.info.path;
            assert ci.path <= ci.path + [ci.name];
          }
        }
      }
    }
  }

  /** Root types are visited with an empty path and their operation key as name; every
      other invocation's path starts with the operation key. */
  lemma VisitPaths(ast: AstRoot, v: Visitor)
    requires NonDeepening(v)
    ensures forall c | c in Visit(ast, v).calls ::
      && c.callback == KindOf(c.node)
      && (c.info.path == [] ==> c.info == RootInfo(ast, c.info.operation))
      && (c.info.path != [] ==> c.info.path[0] == OperationKey(c.info.operation))
  {
    var visits := map op | op in ast.children :: VisitNode(ast.children[op], v, RootInfo(ast, op));
    forall op, c | op in visits && c in visits[op].calls
      ensures c.callback == KindOf(c.node)
      ensures c.info.path == [] ==> c.info == RootInfo(ast, c.info.operation)
      ensures c.info.path != [] ==> c.info.path[0] == OperationKey(c.info.operation)
    {
      CallsWellPlaced(ast.children[op], v, RootInfo(ast, op));
      assert WellPlaced(c, v, RootInfo(ast, op));
      if c.info != RootInfo(ast, op) {
        assert [OperationKey(op)] <= c.info.path;
      }
    }
  }

  /** The nodes reachable through `children` maps, the node itself included. */
  function Reachable(n: AstNode): (r: set<AstNode>)
    ensures n in r
  {
    {n} + if n.FileNode? then {} else set k, m | k in n.children && m in Reachable(n.children[k]) :: m
  }

  ghost predicate NeverReplaces(v: Visitor) {
    forall n: AstNode, info: Info :: !Dispatch(v, n, info).Replace?
  }

  /** Without replacements only nodes reachable through `children` are handed to a
      callback, so a `namespaceConfig` node is never visited as such. */
  lemma {:induction false} OnlyChildrenVisited(node: AstNode, v: Visitor, info: Info)
    requires NeverReplaces(v)
    ensures NonDeepening(v)
    ensures forall c | c in VisitNode(node, v, info).calls :: c.node in Reachable(node)
    decreases Height(node)
  {
    if node.HasChildren() && Dispatch(v, node, info) == Continue {
      var visits := VisitChildren(node, v, info);
      forall k, c | k in visits && c in visits[k].calls ensures c.node in Reachable(node) {
        OnlyChildrenVisited(node.children[k], v, ChildInfo(info, node, k));
      }
    }
  }

  /** Every node of the tree paired with the info a walk from `(node, info)` hands it. */
  function Positions(node: AstNode, info: Info): (r: set<(AstNode, Info)>)
    ensures (node, info) in r
  {
    {(node, info)} +
      if node.FileNode? then {}
      else set k, p | k in node.children && p in Positions(node.children[k], ChildInfo(info, node, k)) :: p
  }

  /** The invocations due at these positions: one per node whose kind has a callback. */
  function CallsAt(v: Visitor, ps: set<(AstNode, Info)>): set<Call> {
    set p | p in ps && CallbackFor(v, KindOf(p.0)).Some? :: Call(KindOf(p.0), p.0, p.1)
  }

  /** Visitors whose callbacks all return `undefined`. */
  ghost predicate AlwaysContinues(v: Visitor) {
    forall n: AstNode, info: Info :: Dispatch(v, n, info) == Continue
  }

  /** A visitor that never removes, skips or replaces keeps the tree and calls its
      callback on every node below, each with the info of its position. */
  lemma {:induction false} ContinuingVisitsAll(node: AstNode, v: Visitor, info: Info)
    requires AlwaysContinues(v)
    ensures NonDeepening(v)
    ensures VisitNode(node, v, info) == Visited(Some(node), CallsAt(v, Positions(node, info)))
    decreases Height(node)
  {
    assert Dispatch(v, node, info) == Continue;
    if node.HasChildren() {
      var below := map k | k in node.children :: CallsAt(v, Positions(node.children[k], ChildInfo(info, node, k)));
      forall k | k in node.children ensures VisitNode(node.children[k], v, ChildInfo(info, node, k)) == Visited(Some(node.children[k]), below[k]) {
        ChildrenLower(node);
        ContinuingVisitsAll(node.children[k], v, ChildInfo(info, node, k));
      }
      DescendKeeping(node, v, info, below);
      CallsAtSplit(node, v, info, below);
    } else {
      assert Positions(node, info) == {(node, info)};
      assert CallsAt(v, {(node, info)}) == OwnCall(v, node, info);
    }
  }

  /** When every child's visit keeps it, the descent keeps the node and makes the
      children's calls. */
  lemma DescendKeeping(node: AstNode, v: Visitor, info: Info, below: map<string, set<Call>>)
    requires NonDeepening(v) && node.HasChildren() && below.Keys == node.children.Keys
    requires forall k | k in node.children ::
      VisitNode(node.children[k], v, ChildInfo(info, node, k)) == Visited(Some(node.children[k]), below[k])
    ensures Descend(node, v, info) == Visited(Some(node), set k, c | k in below && c in below[k] :: c)
  {
    var visits := VisitChildren(node, v, info);
    ChildrenKept(node, v, info, below);
    calc {
      Descend(node, v, info);
      == { DescendIs(node, v, info); }
      Visited(Some(node.WithChildren(Survivors(visits))), AllCalls(visits));
      Visited(Some(node.WithChildren(node.children)), set k, c | k in below && c in below[k] :: c);
      == { assert node.WithChildren(node.children) == node; }
      Visited(Some(node), set k, c | k in below && c in below[k] :: c);
    }
  }

  /** The children's visits of `DescendKeeping`, on their own. */
  lemma ChildrenKept(node: AstNode, v: Visitor, info: Info, below: map<string, set<Call>>)
    requires NonDeepening(v) && node.HasChildren() && below.Keys == node.children.Keys
    requires forall k | k in node.children ::
      VisitNode(node.children[k], v, ChildInfo(info, node, k)) == Visited(Some(node.children[k]), below[k])
    ensures Survivors(VisitChildren(node, v, info)) == node.children
    ensures AllCalls(VisitChildren(node, v, info)) == set k, c | k in below && c in below[k] :: c
  {
    var visits := VisitChildren(node, v, info);
    forall k | k in visits ensures visits[k] == Visited(Some(node.children[k]), below[k]) {
      assert visits[k] == VisitNode(node.children[k], v, ChildInfo(info, node, k));
    }
    VisitsKeeping(visits, node.children, below);
  }

  /** Descending into a node with children visits each child and keeps what survives. */
  lemma DescendIs(node: AstNode, v: Visitor, info: Info)
    requires NonDeepening(v) && node.HasChildren()
    ensures Descend(node, v, info) == Visited(Some(node.WithChildren(Survivors(VisitChildren(node, v, info)))), AllCalls(VisitChildren(node, v, info)))
  {
  }

  /** Visits that each left a node in place keep exactly those nodes. */
  lemma SurvivorsAll<K>(visits: map<K, Visited>, nodes: map<K, AstNode>)
    requires visits.Keys == nodes.Keys
    requires forall k | k in visits :: visits[k].result == Some(nodes[k])
    ensures Survivors(visits) == nodes
  {
    var kept := Survivors(visits);
    assert forall k | k in kept :: kept[k] == nodes[k];
  }

  /** Visits that each left their node in place keep all the nodes and make exactly the
      calls recorded for them. */
  lemma VisitsKeeping<K>(visits: map<K, Visited>, nodes: map<K, AstNode>, below: map<K, set<Call>>)
    requires visits.Keys == nodes.Keys == below.Keys
    requires forall k | k in visits :: visits[k] == Visited(Some(nodes[k]), below[k])
    ensures Survivors(visits) == nodes
    ensures AllCalls(visits) == set k, c | k in below && c in below[k] :: c
  {
    SurvivorsAll(visits, nodes);
    var all := set k, c | k in below && c in below[k] :: c;
    forall c | c in AllCalls(visits) ensures c in all {
      var k :| k in visits && c in visits[k].calls;
      assert c in below[k];
    }
    forall c | c in all ensures c in AllCalls(visits) {
      var k :| k in below && c in below[k];
      assert visits[k].calls <= AllCalls(visits);
    }
  }

  /** The calls due in a tree are the node's own and those due in each child's tree. */
  lemma CallsAtSplit(node: AstNode, v: Visitor, info: Info, below: map<string, set<Call>>)
    requires node.HasChildren() && below.Keys == node.children.Keys
    requires forall k | k in below :: below[k] == CallsAt(v, Positions(node.children[k], ChildInfo(info, node, k)))
    ensures CallsAt(v, Positions(node, info)) == OwnCall(v, node, info) + (set k, c | k in below && c in below[k] :: c)
  {
    var rest := set k, p | k in node.children && p in Positions(node.children[k], ChildInfo(info, node, k)) :: p;
    var all := set k, c | k in below && c in below[k] :: c;
    assert Positions(node, info) == {(node, info)} + rest;
    assert CallsAt(v, {(node, info)}) == OwnCall(v, node, info);
    forall c | c in CallsAt(v, rest) ensures c in all {
      var p :| p in rest && CallbackFor(v, KindOf(p.0)).Some? && c == Call(KindOf(p.0), p.0, p.1);
      var k :| k in node.children && p in Positions(node.children[k], ChildInfo(info, node, k));
      assert c in below[k];
    }
    forall c | c in all ensures c in CallsAt(v, rest) {
      var k :| k in below && c in below[k];
      var p :| p in Positions(node.children[k], ChildInfo(info, node, k)) && CallbackFor(v, KindOf(p.0)).Some? && c == Call(KindOf(p.0), p.0, p.1);
      assert p in rest;
    }
    assert CallsAt(v, Positions(node, info)) == CallsAt(v, {(node, info)}) + CallsAt(v, rest);
  }

  /** Every node reachable through `children` has a position below the start. */
  lemma {:induction false} ReachableHasPosition(node: AstNode, info: Info, m: AstNode)
    requires m in Reachable(node)
    ensures exists i :: (m, i) in Positions(node, info)
  {
    if m == node {
      assert (m, info) in Positions(node, info);
    } else {
      var k :| k in node.children && m in Reachable(node.children[k]);
      ReachableHasPosition(node.children[k], ChildInfo(info, node, k), m);
      var i :| (m, i) in Positions(node.children[k], ChildInfo(info, node, k));
      assert (m, i) in Positions(node, info);
    }
  }

  /** `astVisitor` with a visitor that only observes: the tree is unchanged and every
      node reachable from a root type is handed to its callback, when there is one. */
  lemma ContinuingVisitReachesAll(ast: AstRoot, v: Visitor)
    requires AlwaysContinues(v)
    ensures NonDeepening(v)
    ensures Visit(ast, v).root == ast
    ensures forall op, m | op in ast.children && m in Reachable(ast.children[op]) && CallbackFor(v, KindOf(m)).Some? ::
      exists i :: Call(KindOf(m), m, i) in Visit(ast, v).calls
  {
    forall op | op in ast.children
      ensures VisitNode(ast.children[op], v, RootInfo(ast, op)).result == Some(ast.children[op])
    {
      ContinuingVisitsAll(ast.children[op], v, RootInfo(ast, op));
    }
    VisitKeepsAll(ast, v, ast.children);
    assert ast == AstRoot(ast.name, ast.absPath, ast.children);
    forall op, m | op in ast.children && m in Reachable(ast.children[op]) && CallbackFor(v, KindOf(m)).Some?
      ensures exists i :: Call(KindOf(m), m, i) in Visit(ast, v).calls
    {
      ContinuingVisitsAll(ast.children[op], v, RootInfo(ast, op));
      ReachableHasPosition(ast.children[op], RootInfo(ast, op), m);
      var i :| (m, i) in Positions(ast.children[op], RootInfo(ast, op));
      assert Call(KindOf(m), m, i) in VisitNode(ast.children[op], v, RootInfo(ast, op)).calls;
    }
  }

  /** A visitor without callbacks leaves every tree as it is and makes no calls. */
  const Idle: Visitor := Visitor(None, None, None)

  lemma IdleNonDeepening()
    ensures NonDeepening(Idle)
  {
  }

  lemma {:induction false} IdleKeepsTree(node: AstNode, info: Info)
    ensures NonDeepening(Idle)
    ensures VisitNode(node, Idle, info) == Visited(Some(node), {})
    decreases Height(node)
  {
    if node.HasChildren() {
      var visits := VisitChildren(node, Idle, info);
      forall k | k in visits ensures visits[k] == Visited(Some(node.children[k]), {}) {
        IdleKeepsTree(node.children[k], ChildInfo(info, node, k));
      }
      assert Survivors(visits) == node.children;
      assert AllCalls(visits) == {};
    }
  }

  /** A visitor whose `DIR` and `FILE` callbacks return `null` empties every root type. */
  const RemoveAll: Visitor := Visitor(Some((n, i) => RemoveNode), Some((n, i) => RemoveNode), None)

  /** Root types hold only directories and files. */
  predicate RootTypesHoldEntries(ast: AstRoot) {
    forall op | op in ast.children ::
      ast.children[op].RootTypeNode? &&
      forall k | k in ast.children[op].children :: !ast.children[op].children[k].RootTypeNode?
  }

  lemma RemoveAllNonDeepening()
    ensures NonDeepening(RemoveAll)
  {
  }

  /** A root type holding only directories and files is emptied. */
  lemma RemoveAllNode(node: AstNode, info: Info)
    requires node.RootTypeNode? && forall k | k in node.children :: !node.children[k].RootTypeNode?
    ensures NonDeepening(RemoveAll)
    ensures VisitNode(node, RemoveAll, info).result == Some(node.WithChildren(map[]))
  {
    RemoveAllNonDeepening();
    assert Dispatch(RemoveAll, node, info) == Continue;
    var d := Descend(node, RemoveAll, info);
    forall k | k in node.children ensures Dispatch(RemoveAll, node.children[k], ChildInfo(info, node, k)) == RemoveNode {
    }
    assert d.result.value.children.Keys == {};
  }

  lemma RemoveAllEmpties(ast: AstRoot)
    requires RootTypesHoldEntries(ast)
    ensures NonDeepening(RemoveAll)
    ensures
      var r := Visit(ast, RemoveAll).root;
      && r.children.Keys == ast.children.Keys
      && forall op | op in r.children :: r.children[op] == ast.children[op].WithChildren(map[])
  {
    RemoveAllNonDeepening();
    var emptied := map op | op in ast.children :: ast.children[op].WithChildren(map[]);
    forall op | op in ast.children
      ensures VisitNode(ast.children[op], RemoveAll, RootInfo(ast, op)).result == Some(emptied[op])
    {
      RemoveAllNode(ast.children[op], RootInfo(ast, op));
    }
    VisitKeepsAll(ast, RemoveAll, emptied);
  }

  /** When the visit of every root type leaves a node in place, the new root holds
      exactly those nodes. */
  lemma VisitKeepsAll(ast: AstRoot, v: Visitor, kept: map<Operation, AstNode>)
    requires NonDeepening(v) && kept.Keys == ast.children.Keys
    requires forall op | op in ast.children :: VisitNode(ast.children[op], v, RootInfo(ast, op)).result == Some(kept[op])
    ensures Visit(ast, v).root.children == kept
  {
    calc {
      Visit(ast, v).root.children;
      == { VisitIs(ast, v); }
      Survivors(RootVisits(ast, v));
      == { SurvivorsAll(RootVisits(ast, v), kept); }
      kept;
    }
  }

  /** The new root holds what survived the root visits. */
  lemma VisitIs(ast: AstRoot, v: Visitor)
    requires NonDeepening(v)
    ensures Visit(ast, v).root.children == Survivors(RootVisits(ast, v))
  {
  }

  /** A `ROOT_TYPE` callback that returns a fresh empty root type named `MOCK`. */
  const MockRoot: AstNode := RootTypeNode("MOCK", "", map[], None)

  const ReplaceRoots: Visitor := Visitor(None, None, Some((n, i) => Replace(MockRoot)))

  lemma ReplaceRootsNonDeepening()
    ensures NonDeepening(ReplaceRoots)
  {
    assert Height(MockRoot) == 1;
    forall n: AstNode, info: Info | Dispatch(ReplaceRoots, n, info).Replace? ensures Height(MockRoot) <= Height(n) {
      assert n.RootTypeNode?;
    }
  }

  lemma ReplaceRootNode(node: AstNode, info: Info)
    requires node.RootTypeNode?
    ensures NonDeepening(ReplaceRoots)
    ensures VisitNode(node, ReplaceRoots, info).result == Some(MockRoot)
  {
    ReplaceRootsNonDeepening();
    assert Dispatch(ReplaceRoots, node, info) == Replace(MockRoot);
    var d := Descend(MockRoot, ReplaceRoots, info);
    assert d.result.value.children.Keys == {};
  }

  /** Every root type is replaced by the mock, whose (absent) children are all that is
      then visited. */
  lemma ReplaceRootsExample(ast: AstRoot)
    requires forall op | op in ast.children :: ast.children[op].RootTypeNode?
    ensures NonDeepening(ReplaceRoots)
    ensures Visit(ast, ReplaceRoots).root.children == map op | op in ast.children :: MockRoot
  {
    ReplaceRootsNonDeepening();
    var mocks := map op | op in ast.children :: MockRoot;
    forall op | op in ast.children ensures VisitNode(ast.children[op], ReplaceRoots, RootInfo(ast, op)).result == Some(mocks[op]) {
      ReplaceRootNode(ast.children[op], RootInfo(ast, op));
    }
    VisitKeepsAll(ast, ReplaceRoots, mocks);
  }
}

=== FILE: directory_to_ast.dfy ===
/** `directoryToAst`: reading a schema directory into an AST. The file system is an input
    listing, module loading is the module value stored in each file entry, and
    graphql-compose's type tests are the uninterpreted `TypeOracle`. */
module DirectoryToAst {
  import opened Results
  import opened Strings
  import opened JsValues
  import opened Ast

  /** A directory listing in `readdirSync` order, each entry classified by `statSync`.
      A file entry carries what `m.require` returns for it. */
  datatype Entry =
    | DirEntry(name: string, entries: seq<Entry>)
    | FileEntry(name: string, exports: JsValue)
    | OtherEntry(name: string)

  /** The `include` / `exclude` option: absent (or neither a RegExp nor a function), a
      RegExp tested against the absolute path, or a callback `(path, kind, filename)`. */
  datatype Filter =
    | NoFilter
    | Pattern(test: string -> bool)
    | Predicate(accept: (string, EntryKind, string) -> bool)

  /** Loader options. `extensions` is `None` when the caller left it undefined. */
  datatype Options = Options(relativePath: JsValue, extensions: Option<seq<string>>, includeFilter: Filter, excludeFilter: Filter)

  const DefaultExtensions: seq<string> := ["js", "ts"]

  /** The node module the loader runs for: its own file name, the options, the
      graphql-compose oracle, and how child-map lookups are read. */
  datatype Loader = Loader(callerFile: string, options: Options, oracle: TypeOracle, lookup: KeyLookup)

  datatype LoadError =
    | RelativePathDeprecated
    | NameCollision(name: string, dirPath: string)
    | MissingDefaultExport(path: string)
    | InvalidFieldType(path: string)
    | ResolveNotFunction(path: string)

  /** Filling in the documented defaults for options the caller left undefined. */
  function WithDefaults(o: Options): (r: Options)
    ensures r.extensions.Some?
    ensures o.extensions.Some? ==> r == o
    ensures r.relativePath == o.relativePath && r.includeFilter == o.includeFilter && r.excludeFilter == o.excludeFilter
  {
    if o.extensions.None? then o.(extensions := Some(DefaultExtensions)) else o
  }

  // ---------------------------------------------------------------------------------
  // checkInclusion

  /** The alternatives of the pattern `\.(` + `exts.join('|')` + `)$`: an empty list
      leaves a single empty alternative. */
  function Alternatives(exts: seq<string>): (r: seq<string>)
    ensures |r| >= 1
  {
    Split(Join(exts, "|"), '|')
  }

  /** The extension pattern matches: the name ends, ignoring ASCII case, in `.` followed
      by one of the alternatives. */
  predicate HasExtension(filename: string, exts: seq<string>) {
    var alts := Alternatives(exts);
    exists i | 0 <= i < |alts| :: EndsWithIgnoreCase(filename, "." + alts[i])
  }

  /** The hard-coded exclusions: TypeScript declaration files and test files. */
  predicate IsDeclarationOrSpec(filename: string) {
    EndsWithIgnoreCase(filename, ".d.ts")
    || EndsWithIgnoreCase(filename, ".spec.ts")
    || EndsWithIgnoreCase(filename, ".spec.js")
  }

  predicate IsHidden(filename: string) {
    StartsWith(filename, "__") || StartsWith(filename, ".")
  }

  /** Whether a filter lets the entry through when used as `include`. */
  predicate IncludeAccepts(f: Filter, absPath: string, kind: EntryKind, filename: string) {
    match f
    case NoFilter => true
    case Pattern(test) => test(absPath)
    case Predicate(accept) => accept(absPath, kind, filename)
  }

  /** Whether a filter rejects the entry when used as `exclude`. */
  predicate ExcludeRejects(f: Filter, absPath: string, kind: EntryKind, filename: string) {
    match f
    case NoFilter => false
    case Pattern(test) => test(absPath)
    case Predicate(accept) => accept(absPath, kind, filename)
  }

  /** `checkInclusion`: hidden names first, then (files only) the extension tests, then
      `include`, then `exclude`. */
  function CheckInclusion(absPath: string, kind: EntryKind, filename: string, o: Options): (r: bool)
    ensures r <==>
      && !IsHidden(filename)
      && (kind == FileKind ==> HasExtension(filename, o.extensions.GetOr(DefaultExtensions)) && !IsDeclarationOrSpec(filename))
      && IncludeAccepts(o.includeFilter, absPath, kind, filename)
      && !ExcludeRejects(o.excludeFilter, absPath, kind, filename)
  {
    if StartsWith(filename, "__") then false
    else if StartsWith(filename, ".") then false
    else if kind == FileKind
      && (!HasExtension(filename, o.extensions.GetOr(DefaultExtensions)) || IsDeclarationOrSpec(filename))
    then false
    else if !IncludeAccepts(o.includeFilter, absPath, kind, filename) then false
    else if ExcludeRejects(o.excludeFilter, absPath, kind, filename) then false
    else true
  }

  // ---------------------------------------------------------------------------------
  // prepareFieldConfig

  /** `isSomeOutputTypeDefinition` of this file: type strings, arrays judged by their
      first element, any function (a thunk), else `isComposeOutputType`. */
  function IsSomeOutputTypeDefinition(o: TypeOracle, t: JsValue): bool {
    match t
    case Str(s) => o.isSomeOutputTypeDefinitionString(s) || o.isWrappedTypeNameString(s)
    case Arr(items) =>
      if |items| == 0 then o.isComposeOutputType(Undefined) else IsSomeOutputTypeDefinition(o, items[0])
    case Func(_) => true
    case _ => o.isComposeOutputType(t)
  }

  /** The config a valid default export yields: a `Resolver`'s own field config, or a
      shallow copy of the exported object. */
  function CopyConfig(o: TypeOracle, d: JsValue): (r: JsValue)
    ensures !(d.Instance? && d.cls == ResolverClass) ==> r.Obj? && r.props == OwnProps(d)
  {
    if d.Instance? && d.cls == ResolverClass then o.resolverFieldConfig(d) else Obj(OwnProps(d))
  }

  predicate DefaultExportOk(code: JsValue) {
    var d := Get(code, "default");
    Truthy(d) && IsObjectTyped(d)
  }

  predicate TypeOk(o: TypeOracle, fc: JsValue) {
    Truthy(Get(fc, "type")) && IsSomeOutputTypeDefinition(o, Get(fc, "type"))
  }

  predicate ResolveOk(fc: JsValue) {
    !Truthy(Get(fc, "resolve")) || IsFunction(Get(fc, "resolve"))
  }

  /** `prepareFieldConfig`: the checked config of a loaded module, or the first check
      it fails. `checkType` is off for `index` (namespace) files. */
  function PrepareFieldConfig(o: TypeOracle, code: JsValue, absPath: string, checkType: bool): (r: Result<JsValue, LoadError>)
    ensures !DefaultExportOk(code) ==> r == Err(MissingDefaultExport(absPath))
    ensures DefaultExportOk(code) && checkType && !TypeOk(o, CopyConfig(o, Get(code, "default"))) ==>
      r == Err(InvalidFieldType(absPath))
    ensures (DefaultExportOk(code) && (!checkType || TypeOk(o, CopyConfig(o, Get(code, "default")))) &&
             !ResolveOk(CopyConfig(o, Get(code, "default")))) ==> r == Err(ResolveNotFunction(absPath))
    ensures r.Ok? <==>
      && DefaultExportOk(code)
      && (checkType ==> TypeOk(o, CopyConfig(o, Get(code, "default"))))
      && ResolveOk(CopyConfig(o, Get(code, "default")))
    ensures r.Ok? ==> r.value == CopyConfig(o, Get(code, "default"))
    ensures r.Err? ==> r.error in {MissingDefaultExport(absPath), InvalidFieldType(absPath), ResolveNotFunction(absPath)}
  {
    var d := Get(code, "default");
    if !Truthy(d) || !IsObjectTyped(d) then Err(MissingDefaultExport(absPath))
    else
      var fc := CopyConfig(o, d);
      if checkType && (!Truthy(Get(fc, "type")) || !IsSomeOutputTypeDefinition(o, Get(fc, "type"))) then
        Err(InvalidFieldType(absPath))
      else if Truthy(Get(fc, "resolve")) && !IsFunction(Get(fc, "resolve")) then
        Err(ResolveNotFunction(absPath))
      else Ok(fc)
  }

  // ---------------------------------------------------------------------------------
  // getAstForFile, getAstForDir

  /** `getAstForFile`: nothing for the caller's own file or an excluded one; otherwise a
      file node named after the file without its last extension, holding the config
      `prepareFieldConfig` makes of the module, or that function's error. */
  function GetAstForFile(l: Loader, absPath: string, exports: JsValue): (r: Result<Option<AstNode>, LoadError>)
    ensures (absPath == l.callerFile || !CheckInclusion(absPath, FileKind, Basename(absPath), l.options)) ==> r == Ok(None)
    ensures r.Ok? && r.value.Some? ==>
      var f := r.value.value;
      && f.FileNode?
      && f.name == StripExtension(Basename(absPath))
      && f.absPath == absPath
      && f.code == exports
      && PrepareFieldConfig(l.oracle, exports, absPath, f.name != "index") == Ok(f.fieldConfig)
    ensures absPath != l.callerFile && CheckInclusion(absPath, FileKind, Basename(absPath), l.options) ==>
      var moduleName := StripExtension(Basename(absPath));
      var pc := PrepareFieldConfig(l.oracle, exports, absPath, moduleName != "index");
      && (pc.Ok? ==> r == Ok(Some(FileNode(moduleName, absPath, exports, pc.value))))
      && (pc.Err? ==> r == Err(pc.error))
  {
    var filename := Basename(absPath);
    if absPath != l.callerFile && CheckInclusion(absPath, FileKind, filename, l.options) then
      var moduleName := StripExtension(filename);
      var checkType := moduleName != "index";
      var fc :- PrepareFieldConfig(l.oracle, exports, absPath, checkType);
      Ok(Some(FileNode(moduleName, absPath, exports, fc)))
    else Ok(None)
  }

  /** No entry name in the listing contains `/`, as for any real directory. */
  predicate SlashFree(entries: seq<Entry>) {
    forall i | 0 <= i < |entries| :: '/' !in entries[i].name && (entries[i].DirEntry? ==> SlashFree(entries[i].entries))
  }

  /** What the loader guarantees of a directory node it builds: every child sits under
      its own name, no file child sits under `index`, the namespace config (if any) is
      the `index` file, and sub-directories are built the same way. */
  ghost predicate WellFormedDir(n: AstNode) {
    && n.DirNode?
    && (forall k | k in n.children :: n.children[k].name == k)
    && (forall k | k in n.children :: n.children[k].FileNode? ==> k != "index")
    && (n.namespaceConfig.Some? ==> n.namespaceConfig.value.FileNode? && n.namespaceConfig.value.name == "index")
    && (forall k | k in n.children :: n.children[k].FileNode? || WellFormedDir(n.children[k]))
  }

  /** The key an entry of the directory at `dirPath` ends up under among the children,
      if any: an included sub-directory under its entry name; an included file, other
      than the caller's own and other than `index`, under its module name. */
  function IncludedEntryKey(l: Loader, dirPath: string, e: Entry): Option<string> {
    var p := JoinPath(dirPath, e.name);
    match e
    case DirEntry(name, _) =>
      if CheckInclusion(p, DirKind, Basename(p), l.options) then Some(name) else None
    case FileEntry(_, _) =>
      if p != l.callerFile && CheckInclusion(p, FileKind, Basename(p), l.options) && StripExtension(Basename(p)) != "index" then
        Some(StripExtension(Basename(p)))
      else None
    case OtherEntry(_) => None
  }

  /** The keys the entries from position `i` on end up under. */
  function IncludedEntryKeys(l: Loader, dirPath: string, entries: seq<Entry>, i: nat): set<string>
    requires i <= |entries|
  {
    set j | i <= j < |entries| && IncludedEntryKey(l, dirPath, entries[j]).Some? :: IncludedEntryKey(l, dirPath, entries[j]).value
  }

  lemma IncludedEntryKeysStep(l: Loader, dirPath: string, entries: seq<Entry>, i: nat)
    requires i < |entries|
    ensures IncludedEntryKeys(l, dirPath, entries, i) ==
      (if IncludedEntryKey(l, dirPath, entries[i]).Some? then {IncludedEntryKey(l, dirPath, entries[i]).value} else {}) +
      IncludedEntryKeys(l, dirPath, entries, i + 1)
  {
  }

  /** `getAstForDir`: nothing for an excluded directory, else a `dir` node holding the
      entries in listing order. */
  function GetAstForDir(l: Loader, absPath: string, entries: seq<Entry>): (r: Result<Option<AstNode>, LoadError>)
    decreases entries, 2
    ensures !CheckInclusion(absPath, DirKind, Basename(absPath), l.options) <==> r == Ok(None)
    ensures r.Ok? && r.value.Some? ==>
      && r.value.value.DirNode?
      && r.value.value.name == Basename(absPath)
      && r.value.value.absPath == absPath
    ensures r.Ok? && r.value.Some? && SlashFree(entries) ==> WellFormedDir(r.value.value)
    ensures r.Ok? && r.value.Some? ==> r.value.value.children.Keys == IncludedEntryKeys(l, absPath, entries, 0)
    ensures r.Err? ==> r.error != RelativePathDeprecated
    ensures r.Err? && r.error.NameCollision? ==> |r.error.dirPath| >= |absPath|
  {
    var name := Basename(absPath);
    if !CheckInclusion(absPath, DirKind, name, l.options) then Ok(None)
    else
      var d :- AddEntries(l, DirNode(name, absPath, map[], None), entries, 0);
      Ok(Some(d))
  }

  /** The `forEach` over a directory's entries, from position `i` on. */
  function AddEntries(l: Loader, acc: AstNode, entries: seq<Entry>, i: nat): (r: Result<AstNode, LoadError>)
    requires acc.DirNode? && i <= |entries|
    decreases entries, 1, |entries| - i
    ensures r.Ok? ==> r.value.DirNode? && r.value.name == acc.name && r.value.absPath == acc.absPath
    ensures r.Ok? ==> r.value.children.Keys == acc.children.Keys + IncludedEntryKeys(l, acc.absPath, entries, i)
    ensures i == |entries| ==> r == Ok(acc)
    ensures r.Ok? && WellFormedDir(acc) && SlashFree(entries) ==> WellFormedDir(r.value)
    ensures r.Err? ==> r.error != RelativePathDeprecated
    ensures r.Err? && r.error.NameCollision? ==> |r.error.dirPath| >= |acc.absPath|
  {
    if i == |entries| then Ok(acc)
    else
      var next :- AddEntry(l, acc, entries[i]);
      IncludedEntryKeysStep(l, acc.absPath, entries, i);
      AddEntries(l, next, entries, i + 1)
  }

  /** One entry of a directory: a sub-directory (after the collision check), a file
      (loaded first, then captured or checked by `AttachFile`), or anything else, which
      is ignored. */
  function AddEntry(l: Loader, acc: AstNode, e: Entry): (r: Result<AstNode, LoadError>)
    requires acc.DirNode?
    decreases e, 0
    ensures r.Ok? ==> r.value.DirNode? && r.value.name == acc.name && r.value.absPath == acc.absPath
    ensures r.Ok? ==>
      r.value.children.Keys == acc.children.Keys + (if IncludedEntryKey(l, acc.absPath, e).Some? then {IncludedEntryKey(l, acc.absPath, e).value} else {})
    ensures r.Ok? && WellFormedDir(acc) && '/' !in e.name && (e.DirEntry? ==> SlashFree(e.entries)) ==> WellFormedDir(r.value)
    ensures e.FileEntry? ==>
      var g := GetAstForFile(l, JoinPath(acc.absPath, e.name), e.exports);
      && (g.Err? ==> r == Err(g.error))
      && (g.Ok? && g.value.Some? && g.value.value.name != "index" && HasKey(acc.children, g.value.value.name, l.lookup) ==>
            r == Err(NameCollision(g.value.value.name, acc.absPath)))
    ensures e.DirEntry? && HasKey(acc.children, e.name, l.lookup) ==> r == Err(NameCollision(e.name, acc.absPath))
    ensures e.DirEntry? && r == Err(NameCollision(e.name, acc.absPath)) ==> HasKey(acc.children, e.name, l.lookup)
    ensures e.DirEntry? && !HasKey(acc.children, e.name, l.lookup) ==>
      var g := GetAstForDir(l, JoinPath(acc.absPath, e.name), e.entries);
      && (g.Err? ==> r == Err(g.error))
      && (g.Ok? ==> r == Ok(AttachDir(acc, e.name, g.value)))
    ensures e.OtherEntry? ==> r == Ok(acc)
    ensures r.Err? ==> r.error != RelativePathDeprecated
    ensures r.Err? && r.error.NameCollision? ==> |r.error.dirPath| >= |acc.absPath|
  {
    match e
    case DirEntry(filename, entries) =>
      if HasKey(acc.children, filename, l.lookup) then Err(NameCollision(filename, acc.absPath))
      else
        var sub :- GetAstForDir(l, JoinPath(acc.absPath, filename), entries);
        Ok(AttachDir(acc, filename, sub))
    case FileEntry(filename, exports) => AddFileEntry(l, acc, filename, exports)
    case OtherEntry(_) => Ok(acc)
  }

  /** A file entry: loaded first, then captured or checked by `AttachFile`. */
  function AddFileEntry(l: Loader, acc: AstNode, filename: string, exports: JsValue): (r: Result<AstNode, LoadError>)
    requires acc.DirNode?
    ensures r.Ok? ==> r.value.DirNode? && r.value.name == acc.name && r.value.absPath == acc.absPath
    ensures var key := IncludedEntryKey(l, acc.absPath, FileEntry(filename, exports));
      r.Ok? ==> r.value.children.Keys == acc.children.Keys + (if key.Some? then {key.value} else {})
    ensures r.Ok? && WellFormedDir(acc) ==> WellFormedDir(r.value)
    ensures var g := GetAstForFile(l, JoinPath(acc.absPath, filename), exports);
      && (g.Err? ==> r == Err(g.error))
      && (g.Ok? && g.value.Some? && g.value.value.name != "index" && HasKey(acc.children, g.value.value.name, l.lookup) ==>
            r == Err(NameCollision(g.value.value.name, acc.absPath)))
    ensures r.Err? ==> r.error != RelativePathDeprecated
    ensures r.Err? && r.error.NameCollision? ==> |r.error.dirPath| >= |acc.absPath|
  {
    var f :- GetAstForFile(l, JoinPath(acc.absPath, filename), exports);
    LoadedFileKey(l, acc.absPath, filename, exports);
    AttachFile(l, acc, f)
  }

  /** A file that loads is stored under its key, unless it is `index`. */
  lemma LoadedFileKey(l: Loader, dirPath: string, filename: string, exports: JsValue)
    ensures var g, key := GetAstForFile(l, JoinPath(dirPath, filename), exports), IncludedEntryKey(l, dirPath, FileEntry(filename, exports));
      g.Ok? ==>
        && (key.Some? <==> g.value.Some? && g.value.value.name != "index")
        && (key.Some? ==> key.value == g.value.value.name)
  {
  }

  /** A file that loads is `index` exactly when it is an included `index` entry. */
  lemma LoadedIndexFile(l: Loader, dirPath: string, filename: string, exports: JsValue)
    ensures var g := GetAstForFile(l, JoinPath(dirPath, filename), exports);
      g.Ok? ==> (IsIndexEntry(l, dirPath, FileEntry(filename, exports)) <==> g.value.Some? && g.value.value.name == "index")
  {
  }

  /** Storing a loaded sub-directory, when it was included, under its entry name. */
  function AttachDir(acc: AstNode, filename: string, sub: Option<AstNode>): (r: AstNode)
    requires acc.DirNode?
    requires sub.Some? ==> sub.value.DirNode? && sub.value.name == Basename(JoinPath(acc.absPath, filename))
    ensures r.DirNode? && r.name == acc.name && r.absPath == acc.absPath && r.namespaceConfig == acc.namespaceConfig
    ensures r.children == if sub.Some? then acc.children[filename := sub.value] else acc.children
    ensures WellFormedDir(acc) && '/' !in filename && (sub.Some? ==> WellFormedDir(sub.value)) ==> WellFormedDir(r)
  {
    BasenameOfJoin(acc.absPath, filename);
    if sub.None? then acc else acc.WithChildren(acc.children[filename := sub.value])
  }

  /** Storing a loaded file: `index` becomes the namespace config (a later one replaces
      an earlier one); any other name must not be taken yet. */
  function AttachFile(l: Loader, acc: AstNode, f: Option<AstNode>): (r: Result<AstNode, LoadError>)
    requires acc.DirNode?
    requires f.Some? ==> f.value.FileNode?
    ensures r.Ok? ==> r.value.DirNode? && r.value.name == acc.name && r.value.absPath == acc.absPath
    ensures r.Ok? ==> acc.children.Keys <= r.value.children.Keys
    ensures r.Ok? ==> r.value.children.Keys == acc.children.Keys + (if f.Some? && f.value.name != "index" then {f.value.name} else {})
    ensures r.Ok? && WellFormedDir(acc) ==> WellFormedDir(r.value)
    ensures f.Some? && f.value.name == "index" ==> r == Ok(acc.WithNamespace(f))
    ensures f.Some? && f.value.name != "index" && !HasKey(acc.children, f.value.name, l.lookup) ==>
      r == Ok(acc.WithChildren(acc.children[f.value.name := f.value]))
    ensures r.Err? <==> f.Some? && f.value.name != "index" && HasKey(acc.children, f.value.name, l.lookup)
    ensures r.Err? ==> r.error == NameCollision(f.value.name, acc.absPath)
  {
    if f.None? then Ok(acc)
    else if f.value.name == "index" then Ok(acc.WithNamespace(f))
    else if HasKey(acc.children, f.value.name, l.lookup) then Err(NameCollision(f.value.name, acc.absPath))
    else Ok(acc.WithChildren(acc.children[f.value.name := f.value]))
  }

  /** What an entry fails with, if it fails, when the names in `keys` are already
      taken: a sub-directory whose name is taken collides before it is read, and
      otherwise fails as its own listing does; a file fails as `getAstForFile` does, and
      collides when it loads under a taken name; nothing else fails. */
  function EntryError(l: Loader, dirPath: string, keys: set<string>, e: Entry): Option<LoadError> {
    match e
    case DirEntry(name, entries) =>
      if KeyTaken(keys, name, l.lookup) then Some(NameCollision(name, dirPath))
      else
        var g := GetAstForDir(l, JoinPath(dirPath, name), entries);
        if g.Err? then Some(g.error) else None
    case FileEntry(name, exports) =>
      var g := GetAstForFile(l, JoinPath(dirPath, name), exports);
      var key := IncludedEntryKey(l, dirPath, e);
      if g.Err? then Some(g.error)
      else if key.Some? && KeyTaken(keys, key.value, l.lookup) then Some(NameCollision(key.value, dirPath))
      else None
    case OtherEntry(_) => None
  }

  /** An included `index` file (not the caller's own): it becomes the namespace config. */
  predicate IsIndexEntry(l: Loader, dirPath: string, e: Entry) {
    && e.FileEntry?
    && JoinPath(dirPath, e.name) != l.callerFile
    && CheckInclusion(JoinPath(dirPath, e.name), FileKind, Basename(JoinPath(dirPath, e.name)), l.options)
    && StripExtension(Basename(JoinPath(dirPath, e.name))) == "index"
  }

  /** Which entries of the listing are `index` files. */
  function IndexFlags(l: Loader, dirPath: string, entries: seq<Entry>): (r: seq<bool>)
    ensures |r| == |entries|
    ensures forall k | 0 <= k < |entries| :: r[k] == IsIndexEntry(l, dirPath, entries[k])
  {
    seq(|entries|, k requires 0 <= k < |entries| => IsIndexEntry(l, dirPath, entries[k]))
  }

  /** The last position from `i` on whose flag is set, if there is one. */
  function LastSet(flags: seq<bool>, i: nat): (r: Option<nat>)
    requires i <= |flags|
    decreases |flags| - i
    ensures r.Some? ==> i <= r.value < |flags| && flags[r.value]
    ensures r.Some? ==> forall k | r.value < k < |flags| :: !flags[k]
    ensures r.None? ==> forall k | i <= k < |flags| :: !flags[k]
  {
    if i == |flags| then None
    else
      var later := LastSet(flags, i + 1);
      if later.Some? then later
      else if flags[i] then Some(i)
      else None
  }

  /** The keys stored by the entries at positions `i` up to `j`. */
  function IncludedKeysBetween(l: Loader, dirPath: string, entries: seq<Entry>, i: nat, j: nat): set<string>
    requires i <= j <= |entries|
  {
    set k | i <= k < j && IncludedEntryKey(l, dirPath, entries[k]).Some? :: IncludedEntryKey(l, dirPath, entries[k]).value
  }

  lemma IncludedKeysBetweenStep(l: Loader, dirPath: string, entries: seq<Entry>, i: nat, j: nat)
    requires i < j <= |entries|
    ensures IncludedKeysBetween(l, dirPath, entries, i, j) ==
      (if IncludedEntryKey(l, dirPath, entries[i]).Some? then {IncludedEntryKey(l, dirPath, entries[i]).value} else {})
      + IncludedKeysBetween(l, dirPath, entries, i + 1, j)
  {
  }

  /** Entry `j` of the listing, reached from position `i` with `keys` taken, against the
      names taken by then. */
  function EntryErrorAt(l: Loader, dirPath: string, keys: set<string>, entries: seq<Entry>, i: nat, j: nat): Option<LoadError>
    requires i <= j < |entries|
  {
    EntryError(l, dirPath, keys + IncludedKeysBetween(l, dirPath, entries, i, j), entries[j])
  }

  /** No entry from position `i` on fails. */
  predicate EntriesLoad(l: Loader, dirPath: string, keys: set<string>, entries: seq<Entry>, i: nat)
    requires i <= |entries|
  {
    forall j | i <= j < |entries| :: EntryErrorAt(l, dirPath, keys, entries, i, j).None?
  }

  /** Entry `j` is the first from position `i` on that fails. */
  predicate FailsFirstAt(l: Loader, dirPath: string, keys: set<string>, entries: seq<Entry>, i: nat, j: nat)
    requires i <= |entries|
  {
    && i <= j < |entries|
    && (forall k | i <= k < j :: EntryErrorAt(l, dirPath, keys, entries, i, k).None?)
    && EntryErrorAt(l, dirPath, keys, entries, i, j).Some?
  }

  /** What a successful fold from position `i` stores in `d`: every child of `acc` as it
      was; every included sub-directory as its own listing loads; every included file
      other than `index` as `getAstForFile` loads it; and as namespace config the last
      `index` file, or the one `acc` had when there is none. */
  ghost predicate StoresEntries(l: Loader, acc: AstNode, entries: seq<Entry>, i: nat, d: AstNode)
    requires acc.HasChildren() && d.HasChildren() && i <= |entries|
  {
    && KeepsChildren(acc.children, d.children)
    && StoresDirs(l, acc.absPath, entries, i, d.children)
    && StoresFiles(l, acc.absPath, entries, i, d.children)
    && StoresIndex(l, acc.absPath, entries, i, acc.namespaceConfig, d.namespaceConfig)
  }

  ghost predicate KeepsChildren(before: map<string, AstNode>, after: map<string, AstNode>) {
    forall k | k in before :: k in after && after[k] == before[k]
  }

  ghost predicate StoresDirs(l: Loader, dirPath: string, entries: seq<Entry>, i: nat, children: map<string, AstNode>)
    requires i <= |entries|
  {
    forall j | i <= j < |entries| && entries[j].DirEntry? && IncludedEntryKey(l, dirPath, entries[j]).Some? ::
      && entries[j].name in children
      && GetAstForDir(l, JoinPath(dirPath, entries[j].name), entries[j].entries) == Ok(Some(children[entries[j].name]))
  }

  ghost predicate StoresFiles(l: Loader, dirPath: string, entries: seq<Entry>, i: nat, children: map<string, AstNode>)
    requires i <= |entries|
  {
    forall j | i <= j < |entries| && entries[j].FileEntry? && IncludedEntryKey(l, dirPath, entries[j]).Some? ::
      && IncludedEntryKey(l, dirPath, entries[j]).value in children
      && GetAstForFile(l, JoinPath(dirPath, entries[j].name), entries[j].exports) == Ok(Some(children[IncludedEntryKey(l, dirPath, entries[j]).value]))
  }

  ghost predicate StoresIndex(l: Loader, dirPath: string, entries: seq<Entry>, i: nat, before: Option<AstNode>, after: Option<AstNode>)
    requires i <= |entries|
  {
    var last := LastSet(IndexFlags(l, dirPath, entries), i);
    && (last.None? ==> after == before)
    && (last.Some? ==>
          && entries[last.value].FileEntry?
          && GetAstForFile(l, JoinPath(dirPath, entries[last.value].name), entries[last.value].exports) == Ok(after))
  }

  /** One entry succeeds exactly when `EntryError` finds nothing, and fails with what it
      finds; on success it keeps the children already there and stores what it loaded. */
  lemma AddEntryOutcome(l: Loader, acc: AstNode, e: Entry)
    requires acc.DirNode?
    ensures AddEntry(l, acc, e).Ok? <==> EntryError(l, acc.absPath, acc.children.Keys, e).None?
    ensures AddEntry(l, acc, e).Err? ==> AddEntry(l, acc, e).error == EntryError(l, acc.absPath, acc.children.Keys, e).value
    ensures AddEntry(l, acc, e).Ok? ==> EntryStored(l, acc, e, AddEntry(l, acc, e).value)
  {
    match e
    case DirEntry(_, _) => AddDirEntryOutcome(l, acc, e);
    case FileEntry(name, exports) => AddFileEntryOutcome(l, acc, name, exports);
    case OtherEntry(_) =>
  }

  lemma AddDirEntryOutcome(l: Loader, acc: AstNode, e: Entry)
    requires acc.DirNode? && e.DirEntry?
    ensures AddEntry(l, acc, e).Ok? <==> EntryError(l, acc.absPath, acc.children.Keys, e).None?
    ensures AddEntry(l, acc, e).Err? ==> AddEntry(l, acc, e).error == EntryError(l, acc.absPath, acc.children.Keys, e).value
    ensures AddEntry(l, acc, e).Ok? ==> EntryStored(l, acc, e, AddEntry(l, acc, e).value)
  {
    BasenameOfJoin(acc.absPath, e.name);
  }

  lemma AddFileEntryOutcome(l: Loader, acc: AstNode, name: string, exports: JsValue)
    requires acc.DirNode?
    ensures var e := FileEntry(name, exports);
      && (AddEntry(l, acc, e).Ok? <==> EntryError(l, acc.absPath, acc.children.Keys, e).None?)
      && (AddEntry(l, acc, e).Err? ==> AddEntry(l, acc, e).error == EntryError(l, acc.absPath, acc.children.Keys, e).value)
      && (AddEntry(l, acc, e).Ok? ==> EntryStored(l, acc, e, AddEntry(l, acc, e).value))
  {
    var e, p := FileEntry(name, exports), JoinPath(acc.absPath, name);
    LoadedFileKey(l, acc.absPath, name, exports);
    LoadedIndexFile(l, acc.absPath, name, exports);
    var g := GetAstForFile(l, p, exports);
    assert AddEntry(l, acc, e) == AddFileEntry(l, acc, name, exports);
    if g.Ok? {
      var r := AttachFile(l, acc, g.value);
      assert AddEntry(l, acc, e) == r;
      if r.Ok? {
        AttachedFileStored(l, acc, e, g.value, r.value);
      }
    }
  }

  /** A loaded file that `AttachFile` accepts is stored as `EntryStored` says. */
  lemma AttachedFileStored(l: Loader, acc: AstNode, e: Entry, f: Option<AstNode>, d: AstNode)
    requires acc.DirNode? && e.FileEntry? && (f.Some? ==> f.value.FileNode?)
    requires GetAstForFile(l, JoinPath(acc.absPath, e.name), e.exports) == Ok(f)
    requires var key := IncludedEntryKey(l, acc.absPath, e);
      && (key.Some? <==> f.Some? && f.value.name != "index")
      && (key.Some? ==> key.value == f.value.name)
    requires IsIndexEntry(l, acc.absPath, e) <==> f.Some? && f.value.name == "index"
    requires AttachFile(l, acc, f) == Ok(d)
    ensures EntryStored(l, acc, e, d)
  {
  }

  /** What one successful entry leaves in `d`. */
  ghost predicate EntryStored(l: Loader, acc: AstNode, e: Entry, d: AstNode)
    requires acc.HasChildren() && d.HasChildren()
  {
    var key := IncludedEntryKey(l, acc.absPath, e);
    && KeepsChildren(acc.children, d.children)
    && (e.DirEntry? && key.Some? ==>
          e.name in d.children && GetAstForDir(l, JoinPath(acc.absPath, e.name), e.entries) == Ok(Some(d.children[e.name])))
    && (e.FileEntry? && key.Some? ==>
          key.value in d.children && GetAstForFile(l, JoinPath(acc.absPath, e.name), e.exports) == Ok(Some(d.children[key.value])))
    && (IsIndexEntry(l, acc.absPath, e) ==> e.FileEntry? && GetAstForFile(l, JoinPath(acc.absPath, e.name), e.exports) == Ok(d.namespaceConfig))
    && (!IsIndexEntry(l, acc.absPath, e) ==> d.namespaceConfig == acc.namespaceConfig)
  }

  /** The fold over a listing, from position `i` on: it succeeds iff no entry fails
      against the names taken before it, and otherwise fails with the first failing
      entry's error; on success it stores what `StoresEntries` says. */
  lemma {:induction false} AddEntriesOutcome(l: Loader, acc: AstNode, entries: seq<Entry>, i: nat)
    requires acc.DirNode? && i <= |entries|
    decreases |entries| - i
    ensures AddEntries(l, acc, entries, i).Ok? <==> EntriesLoad(l, acc.absPath, acc.children.Keys, entries, i)
    ensures forall j | FailsFirstAt(l, acc.absPath, acc.children.Keys, entries, i, j) ::
      AddEntries(l, acc, entries, i) == Err(EntryErrorAt(l, acc.absPath, acc.children.Keys, entries, i, j).value)
    ensures AddEntries(l, acc, entries, i).Ok? ==> StoresEntries(l, acc, entries, i, AddEntries(l, acc, entries, i).value)
  {
    if i < |entries| {
      var s := AddEntry(l, acc, entries[i]);
      AddEntryOutcome(l, acc, entries[i]);
      FirstEntryError(l, acc.absPath, acc.children.Keys, entries, i);
      if s.Ok? {
        var next := s.value;
        AddEntriesOutcome(l, next, entries, i + 1);
        ShiftedErrors(l, acc.absPath, acc.children.Keys, next.children.Keys, entries, i);
        var r := AddEntries(l, next, entries, i + 1);
        assert AddEntries(l, acc, entries, i) == r;
        if r.Ok? {
          StoresStep(l, acc, entries, i, next, r.value);
        }
      }
    }
  }

  lemma StoresStep(l: Loader, acc: AstNode, entries: seq<Entry>, i: nat, next: AstNode, d: AstNode)
    requires acc.DirNode? && i < |entries| && next.DirNode? && d.DirNode? && next.absPath == acc.absPath
    requires EntryStored(l, acc, entries[i], next)
    requires StoresEntries(l, next, entries, i + 1, d)
    ensures StoresEntries(l, acc, entries, i, d)
  {
    var e, p := entries[i], acc.absPath;
    assert KeepsChildren(acc.children, d.children);
    DirsStep(l, p, entries, i, next.children, d.children);
    FilesStep(l, p, entries, i, next.children, d.children);
    IndexStep(l, p, entries, i, acc.namespaceConfig, next.namespaceConfig, d.namespaceConfig);
  }

  lemma DirsStep(l: Loader, dirPath: string, entries: seq<Entry>, i: nat, next: map<string, AstNode>, d: map<string, AstNode>)
    requires i < |entries| && KeepsChildren(next, d) && StoresDirs(l, dirPath, entries, i + 1, d)
    requires entries[i].DirEntry? && IncludedEntryKey(l, dirPath, entries[i]).Some? ==>
      entries[i].name in next && GetAstForDir(l, JoinPath(dirPath, entries[i].name), entries[i].entries) == Ok(Some(next[entries[i].name]))
    ensures StoresDirs(l, dirPath, entries, i, d)
  {
  }

  lemma FilesStep(l: Loader, dirPath: string, entries: seq<Entry>, i: nat, next: map<string, AstNode>, d: map<string, AstNode>)
    requires i < |entries| && KeepsChildren(next, d) && StoresFiles(l, dirPath, entries, i + 1, d)
    requires entries[i].FileEntry? && IncludedEntryKey(l, dirPath, entries[i]).Some? ==>
      && IncludedEntryKey(l, dirPath, entries[i]).value in next
      && GetAstForFile(l, JoinPath(dirPath, entries[i].name), entries[i].exports) == Ok(Some(next[IncludedEntryKey(l, dirPath, entries[i]).value]))
    ensures StoresFiles(l, dirPath, entries, i, d)
  {
  }

  lemma IndexStep(l: Loader, dirPath: string, entries: seq<Entry>, i: nat, before: Option<AstNode>, next: Option<AstNode>, after: Option<AstNode>)
    requires i < |entries| && StoresIndex(l, dirPath, entries, i + 1, next, after)
    requires IsIndexEntry(l, dirPath, entries[i]) ==>
      entries[i].FileEntry? && GetAstForFile(l, JoinPath(dirPath, entries[i].name), entries[i].exports) == Ok(next)
    requires !IsIndexEntry(l, dirPath, entries[i]) ==> next == before
    ensures StoresIndex(l, dirPath, entries, i, before, after)
  {
    var flags := IndexFlags(l, dirPath, entries);
    assert flags[i] == IsIndexEntry(l, dirPath, entries[i]);
  }

  /** Entry `i`, reached from position `i`, meets only the names taken before the fold. */
  lemma FirstEntryError(l: Loader, dirPath: string, keys: set<string>, entries: seq<Entry>, i: nat)
    requires i < |entries|
    ensures EntryErrorAt(l, dirPath, keys, entries, i, i) == EntryError(l, dirPath, keys, entries[i])
    ensures EntryErrorAt(l, dirPath, keys, entries, i, i).Some? ==>
      !EntriesLoad(l, dirPath, keys, entries, i) && forall j | FailsFirstAt(l, dirPath, keys, entries, i, j) :: j == i
  {
    assert IncludedKeysBetween(l, dirPath, entries, i, i) == {};
  }

  /** Once entry `i` has stored its key, the rest of the fold sees the same names
      whether counted from `i` or from `i + 1`. */
  lemma ShiftedErrors(l: Loader, dirPath: string, keys: set<string>, nextKeys: set<string>, entries: seq<Entry>, i: nat)
    requires i < |entries| && EntryErrorAt(l, dirPath, keys, entries, i, i).None?
    requires nextKeys == keys + (if IncludedEntryKey(l, dirPath, entries[i]).Some? then {IncludedEntryKey(l, dirPath, entries[i]).value} else {})
    ensures EntriesLoad(l, dirPath, keys, entries, i) <==> EntriesLoad(l, dirPath, nextKeys, entries, i + 1)
    ensures forall j | FailsFirstAt(l, dirPath, keys, entries, i, j) ::
      FailsFirstAt(l, dirPath, nextKeys, entries, i + 1, j) &&
      EntryErrorAt(l, dirPath, keys, entries, i, j) == EntryErrorAt(l, dirPath, nextKeys, entries, i + 1, j)
  {
    forall j | i + 1 <= j < |entries|
      ensures EntryErrorAt(l, dirPath, keys, entries, i, j) == EntryErrorAt(l, dirPath, nextKeys, entries, i + 1, j)
    {
      SameTakenNames(l, dirPath, keys, nextKeys, entries, i, j);
    }
    ShiftedLoads(l, dirPath, keys, nextKeys, entries, i);
  }

  lemma SameTakenNames(l: Loader, dirPath: string, keys: set<string>, nextKeys: set<string>, entries: seq<Entry>, i: nat, j: nat)
    requires i < j < |entries|
    requires nextKeys == keys + (if IncludedEntryKey(l, dirPath, entries[i]).Some? then {IncludedEntryKey(l, dirPath, entries[i]).value} else {})
    ensures EntryErrorAt(l, dirPath, keys, entries, i, j) == EntryErrorAt(l, dirPath, nextKeys, entries, i + 1, j)
  {
    IncludedKeysBetweenStep(l, dirPath, entries, i, j);
    assert keys + IncludedKeysBetween(l, dirPath, entries, i, j) == nextKeys + IncludedKeysBetween(l, dirPath, entries, i + 1, j);
  }

  lemma ShiftedLoads(l: Loader, dirPath: string, keys: set<string>, nextKeys: set<string>, entries: seq<Entry>, i: nat)
    requires i < |entries| && EntryErrorAt(l, dirPath, keys, entries, i, i).None?
    requires forall j | i + 1 <= j < |entries| ::
      EntryErrorAt(l, dirPath, keys, entries, i, j) == EntryErrorAt(l, dirPath, nextKeys, entries, i + 1, j)
    ensures EntriesLoad(l, dirPath, keys, entries, i) <==> EntriesLoad(l, dirPath, nextKeys, entries, i + 1)
    ensures forall j | FailsFirstAt(l, dirPath, keys, entries, i, j) ::
      FailsFirstAt(l, dirPath, nextKeys, entries, i + 1, j) &&
      EntryErrorAt(l, dirPath, keys, entries, i, j) == EntryErrorAt(l, dirPath, nextKeys, entries, i + 1, j)
  {
    var i1 := i + 1;
    if EntriesLoad(l, dirPath, keys, entries, i) {
      forall j | i1 <= j < |entries| ensures EntryErrorAt(l, dirPath, nextKeys, entries, i1, j).None? {
        assert EntryErrorAt(l, dirPath, keys, entries, i, j).None?;
      }
    }
    if EntriesLoad(l, dirPath, nextKeys, entries, i + 1) {
      forall j | i <= j < |entries| ensures EntryErrorAt(l, dirPath, keys, entries, i, j).None? {
        if j > i {
          assert EntryErrorAt(l, dirPath, nextKeys, entries, i + 1, j).None?;
        }
      }
    }
    forall j | FailsFirstAt(l, dirPath, keys, entries, i, j)
      ensures FailsFirstAt(l, dirPath, nextKeys, entries, i + 1, j)
    {
      forall k | i1 <= k < j ensures EntryErrorAt(l, dirPath, nextKeys, entries, i1, k).None? {
        assert EntryErrorAt(l, dirPath, keys, entries, i, k).None?;
      }
    }
  }

  /** `getAstForDir` in terms of its entries: nothing for an excluded directory;
      otherwise it succeeds iff no entry fails against the names taken before it, fails
      with the first failing entry's error, and on success stores what
      `StoresEntries` says, starting from an empty directory. */
  lemma GetAstForDirOutcome(l: Loader, absPath: string, entries: seq<Entry>)
    ensures var r, acc := GetAstForDir(l, absPath, entries), DirNode(Basename(absPath), absPath, map[], None);
      && (CheckInclusion(absPath, DirKind, Basename(absPath), l.options) ==>
            && (r.Ok? <==> EntriesLoad(l, absPath, {}, entries, 0))
            && (forall j | FailsFirstAt(l, absPath, {}, entries, 0, j) :: r == Err(EntryErrorAt(l, absPath, {}, entries, 0, j).value)))
      && (r.Ok? && r.value.Some? ==> StoresEntries(l, acc, entries, 0, r.value.value))
  {
    var acc := DirNode(Basename(absPath), absPath, map[], None);
    assert acc.children.Keys == {};
    AddEntriesOutcome(l, acc, entries, 0);
  }

  // ---------------------------------------------------------------------------------
  // directoryToAst

  predicate IsLineTerminator(c: char) {
    c == '\n' || c == '\r' || c as int == 0x2028 || c as int == 0x2029
  }

  /** What follows the operation word in `^(query|mutation|subscription)(\.(.*))?$`:
      nothing, or a dot and a sub-field free of line terminators (possibly empty). */
  function OperationSuffix(op: Operation, rest: string): (r: Option<(Operation, string)>)
    ensures r.Some? ==> r.value.0 == op
    ensures r.Some? ==> (rest == "" && r.value.1 == "") || rest == "." + r.value.1
  {
    if rest == "" then Some((op, ""))
    else if rest[0] == '.' && (forall i | 1 <= i < |rest| :: !IsLineTerminator(rest[i])) then Some((op, rest[1..]))
    else None
  }

  /** The operation-directory pattern, matched ignoring ASCII case: the operation and the
      sub-field after the dot (empty when there is none). */
  function MatchOperationDir(name: string): (r: Option<(Operation, string)>)
    ensures r.Some? ==>
      var n := |OperationKey(r.value.0)|;
      && n <= |name|
      && ToLower(name[..n]) == OperationKey(r.value.0)
      && ((name[n..] == "" && r.value.1 == "") || name[n..] == "." + r.value.1)
  {
    var lower := ToLower(name);
    if StartsWith(lower, "query") then
      OperationPrefix(name, Query);
      OperationSuffix(Query, name[5..])
    else if StartsWith(lower, "mutation") then
      OperationPrefix(name, Mutation);
      OperationSuffix(Mutation, name[8..])
    else if StartsWith(lower, "subscription") then
      OperationPrefix(name, Subscription);
      OperationSuffix(Subscription, name[12..])
    else None
  }

  /** A name whose lower-case form starts with an operation key starts with that key up
      to letter case. */
  lemma OperationPrefix(name: string, op: Operation)
    requires StartsWith(ToLower(name), OperationKey(op))
    ensures |OperationKey(op)| <= |name| && ToLower(name[..|OperationKey(op)|]) == OperationKey(op)
  {
    var n := |OperationKey(op)|;
    assert ToLower(name[..n]) == ToLower(name)[..n];
  }

  /** The root-type nodes collected so far, each under its operation. */
  predicate RootTypesOk(acc: map<Operation, AstNode>) {
    forall op | op in acc :: acc[op].RootTypeNode? && acc[op].name == OperationKey(op)
  }

  /** One top-level entry: only included operation directories contribute. `query.X`
      adds child `X`; a bare `query` takes over the loaded directory's children and,
      when it has one, its namespace config. */
  function AddRootEntry(l: Loader, schemaPath: string, acc: map<Operation, AstNode>, e: Entry): (r: Result<map<Operation, AstNode>, LoadError>)
    requires RootTypesOk(acc)
    ensures r.Ok? ==> RootTypesOk(r.value) && acc.Keys <= r.value.Keys
    ensures !e.DirEntry? || MatchOperationDir(e.name).None? ==> r == Ok(acc)
    ensures e.DirEntry? && !CheckInclusion(JoinPath(schemaPath, e.name), DirKind, Basename(JoinPath(schemaPath, e.name)), l.options) ==> r == Ok(acc)
    ensures r.Ok? ==> r.value.Keys == acc.Keys + (if IncludedOperation(l, schemaPath, e).Some? then {IncludedOperation(l, schemaPath, e).value} else {})
    ensures r.Err? ==> r.error != RelativePathDeprecated
  {
    match e
    case DirEntry(filename, entries) =>
      var found := MatchOperationDir(filename);
      if found.None? then Ok(acc)
      else AddOperationDir(l, JoinPath(schemaPath, filename), acc, found.value.0, found.value.1, entries)
    case _ => Ok(acc)
  }

  /** An operation directory that survives inclusion: its root type is created if not
      there yet; `query.X` adds the directory as child `X` named `X`, while a bare
      `query` takes over the directory's children and `index` config. */
  function AddOperationDir(l: Loader, absPath: string, acc: map<Operation, AstNode>, op: Operation, subField: string, entries: seq<Entry>): (r: Result<map<Operation, AstNode>, LoadError>)
    requires RootTypesOk(acc)
    ensures r.Ok? ==> RootTypesOk(r.value) && acc.Keys <= r.value.Keys
    ensures !CheckInclusion(absPath, DirKind, Basename(absPath), l.options) ==> r == Ok(acc)
    ensures r.Ok? ==> r.value.Keys == acc.Keys + (if CheckInclusion(absPath, DirKind, Basename(absPath), l.options) then {op} else {})
    ensures r.Ok? ==> forall o | o in acc && o != op :: r.value[o] == acc[o]
    ensures r.Ok? && CheckInclusion(absPath, DirKind, Basename(absPath), l.options) ==>
      var rootType := if op in acc then acc[op] else RootTypeNode(OperationKey(op), absPath, map[], None);
      var loaded := GetAstForDir(l, absPath, entries);
      loaded.Ok? && loaded.value.Some? && r.value[op] == TakeOver(rootType, loaded.value.value, subField, absPath)
    ensures r.Err? ==> r.error != RelativePathDeprecated
  {
    var rootType := if op in acc then acc[op] else RootTypeNode(OperationKey(op), absPath, map[], None);
    var astDir :- GetAstForDir(l, absPath, entries);
    if astDir.None? then Ok(acc)
    else
      var updated := TakeOver(rootType, astDir.value, subField, absPath);
      assert acc[op := updated].Keys == acc.Keys + {op};
      Ok(acc[op := updated])
  }

  /** The root type after an operation directory `d` is loaded: `query.X` adds `d` as
      child `X` named `X`; a bare `query` takes over `d`'s children and, when `d` has one,
      its namespace config. */
  function TakeOver(rootType: AstNode, d: AstNode, subField: string, absPath: string): (r: AstNode)
    requires rootType.RootTypeNode? && d.HasChildren()
    ensures r.RootTypeNode? && r.name == rootType.name && r.absPath == rootType.absPath
    ensures subField != "" ==>
      r.children == rootType.children[subField := DirNode(subField, absPath, d.children, d.namespaceConfig)]
      && r.namespaceConfig == rootType.namespaceConfig
    ensures subField == "" ==>
      r.children == d.children
      && r.namespaceConfig == (if d.namespaceConfig.Some? then d.namespaceConfig else rootType.namespaceConfig)
  {
    if subField != "" then
      rootType.WithChildren(rootType.children[subField := DirNode(subField, absPath, d.children, d.namespaceConfig)])
    else
      rootType.WithChildren(d.children)
        .WithNamespace(if d.namespaceConfig.Some? then d.namespaceConfig else rootType.namespaceConfig)
  }

  function AddRootEntries(l: Loader, schemaPath: string, acc: map<Operation, AstNode>, listing: seq<Entry>, i: nat): (r: Result<map<Operation, AstNode>, LoadError>)
    requires RootTypesOk(acc) && i <= |listing|
    decreases |listing| - i
    ensures r.Ok? ==> RootTypesOk(r.value) && r.value.Keys == acc.Keys + IncludedOperations(l, schemaPath, listing, i)
    ensures r.Err? ==> r.error != RelativePathDeprecated
  {
    if i == |listing| then Ok(acc)
    else
      var next :- AddRootEntry(l, schemaPath, acc, listing[i]);
      IncludedOperationsStep(l, schemaPath, listing, i);
      AddRootEntries(l, schemaPath, next, listing, i + 1)
  }

  /** The operation a top-level entry contributes: an operation directory that passes
      `checkInclusion`. */
  function IncludedOperation(l: Loader, schemaPath: string, e: Entry): Option<Operation> {
    if e.DirEntry? && MatchOperationDir(e.name).Some?
       && CheckInclusion(JoinPath(schemaPath, e.name), DirKind, Basename(JoinPath(schemaPath, e.name)), l.options)
    then Some(MatchOperationDir(e.name).value.0)
    else None
  }

  /** The operations contributed by the entries from position `i` on. */
  function IncludedOperations(l: Loader, schemaPath: string, listing: seq<Entry>, i: nat): set<Operation>
    requires i <= |listing|
  {
    set j | i <= j < |listing| && IncludedOperation(l, schemaPath, listing[j]).Some? :: IncludedOperation(l, schemaPath, listing[j]).value
  }

  lemma IncludedOperationsStep(l: Loader, schemaPath: string, listing: seq<Entry>, i: nat)
    requires i < |listing|
    ensures IncludedOperations(l, schemaPath, listing, i) ==
      (if IncludedOperation(l, schemaPath, listing[i]).Some? then {IncludedOperation(l, schemaPath, listing[i]).value} else {})
      + IncludedOperations(l, schemaPath, listing, i + 1)
  {
  }

  /** Filling in defaults does not change which operation directories are included. */
  lemma IncludedOperationsDefaults(l: Loader, schemaPath: string, listing: seq<Entry>)
    ensures IncludedOperations(l.(options := WithDefaults(l.options)), schemaPath, listing, 0) == IncludedOperations(l, schemaPath, listing, 0)
  {
    forall j | 0 <= j < |listing|
      ensures IncludedOperation(l.(options := WithDefaults(l.options)), schemaPath, listing[j]) == IncludedOperation(l, schemaPath, listing[j])
    {
      var p := JoinPath(schemaPath, listing[j].name);
      DefaultsKeepInclusion(p, DirKind, Basename(p), l.options);
    }
  }

  /** What a top-level entry fails with, if it fails: only an operation directory is
      loaded, and only its own listing can fail. The names other directories took do not
      matter, since each operation directory starts from an empty node. */
  function RootEntryError(l: Loader, schemaPath: string, e: Entry): Option<LoadError> {
    if e.DirEntry? && MatchOperationDir(e.name).Some? then
      var g := GetAstForDir(l, JoinPath(schemaPath, e.name), e.entries);
      if g.Err? then Some(g.error) else None
    else None
  }

  /** No top-level entry from position `i` on fails. */
  predicate RootEntriesLoad(l: Loader, schemaPath: string, listing: seq<Entry>, i: nat)
    requires i <= |listing|
  {
    forall j | i <= j < |listing| :: RootEntryError(l, schemaPath, listing[j]).None?
  }

  /** Top-level entry `j` is the first from position `i` on that fails. */
  predicate RootFailsFirstAt(l: Loader, schemaPath: string, listing: seq<Entry>, i: nat, j: nat)
    requires i <= |listing|
  {
    && i <= j < |listing|
    && RootEntryError(l, schemaPath, listing[j]).Some?
    && forall k | i <= k < j :: RootEntryError(l, schemaPath, listing[k]).None?
  }

  function Lookup(m: map<Operation, AstNode>, op: Operation): Option<AstNode> {
    if op in m then Some(m[op]) else None
  }

  /** The root type of `op` after entry `e`, from `cur`: an included directory of `op`
      that loads is taken over by `TakeOver`, into a fresh root type at that directory
      when there is none yet; any other entry leaves it as it was. */
  function OperationStep(l: Loader, schemaPath: string, e: Entry, op: Operation, cur: Option<AstNode>): (r: Option<AstNode>)
    ensures cur.Some? && cur.value.RootTypeNode? ==> r.Some? && r.value.RootTypeNode?
  {
    if IncludedOperation(l, schemaPath, e) == Some(op) then
      var p := JoinPath(schemaPath, e.name);
      var g := GetAstForDir(l, p, e.entries);
      if g.Ok? && g.value.Some? then
        var rootType := if cur.Some? && cur.value.RootTypeNode? then cur.value else RootTypeNode(OperationKey(op), p, map[], None);
        Some(TakeOver(rootType, g.value.value, MatchOperationDir(e.name).value.1, p))
      else cur
    else cur
  }

  /** The root type of `op` after the entries from position `i` on, looking at the
      entries of `op` alone. */
  function OperationRootType(l: Loader, schemaPath: string, listing: seq<Entry>, i: nat, op: Operation, cur: Option<AstNode>): (r: Option<AstNode>)
    requires i <= |listing|
    decreases |listing| - i
  {
    if i == |listing| then cur
    else OperationRootType(l, schemaPath, listing, i + 1, op, OperationStep(l, schemaPath, listing[i], op, cur))
  }

  /** One top-level entry succeeds exactly when `RootEntryError` finds nothing, fails with
      what it finds, and on success moves each root type by its own `OperationStep`. */
  lemma AddRootEntryOutcome(l: Loader, schemaPath: string, acc: map<Operation, AstNode>, e: Entry)
    requires RootTypesOk(acc)
    ensures AddRootEntry(l, schemaPath, acc, e).Ok? <==> RootEntryError(l, schemaPath, e).None?
    ensures AddRootEntry(l, schemaPath, acc, e).Err? ==> AddRootEntry(l, schemaPath, acc, e).error == RootEntryError(l, schemaPath, e).value
    ensures AddRootEntry(l, schemaPath, acc, e).Ok? ==>
      forall op :: Lookup(AddRootEntry(l, schemaPath, acc, e).value, op) == OperationStep(l, schemaPath, e, op, Lookup(acc, op))
  {
    if e.DirEntry? && MatchOperationDir(e.name).Some? {
      var p := JoinPath(schemaPath, e.name);
      var found := MatchOperationDir(e.name).value;
      assert AddRootEntry(l, schemaPath, acc, e) == AddOperationDir(l, p, acc, found.0, found.1, e.entries);
    }
  }

  /** The top-level fold from position `i` on: it succeeds iff no operation directory
      fails to load, fails with the first failing one's error, and on success holds for
      each operation what its own directories make of it. */
  lemma {:induction false} AddRootEntriesOutcome(l: Loader, schemaPath: string, acc: map<Operation, AstNode>, listing: seq<Entry>, i: nat)
    requires RootTypesOk(acc) && i <= |listing|
    decreases |listing| - i
    ensures AddRootEntries(l, schemaPath, acc, listing, i).Ok? <==> RootEntriesLoad(l, schemaPath, listing, i)
    ensures forall j: nat | RootFailsFirstAt(l, schemaPath, listing, i, j) ::
      AddRootEntries(l, schemaPath, acc, listing, i) == Err(RootEntryError(l, schemaPath, listing[j]).value)
    ensures AddRootEntries(l, schemaPath, acc, listing, i).Ok? ==>
      forall op :: Lookup(AddRootEntries(l, schemaPath, acc, listing, i).value, op) == OperationRootType(l, schemaPath, listing, i, op, Lookup(acc, op))
  {
    if i < |listing| {
      var e := listing[i];
      var s := AddRootEntry(l, schemaPath, acc, e);
      AddRootEntryOutcome(l, schemaPath, acc, e);
      if s.Ok? {
        var next := s.value;
        AddRootEntriesOutcome(l, schemaPath, next, listing, i + 1);
        var r := AddRootEntries(l, schemaPath, next, listing, i + 1);
        assert AddRootEntries(l, schemaPath, acc, listing, i) == r;
        RootShifted(l, schemaPath, listing, i);
        if r.Ok? {
          forall op ensures Lookup(r.value, op) == OperationRootType(l, schemaPath, listing, i, op, Lookup(acc, op)) {
            assert Lookup(next, op) == OperationStep(l, schemaPath, e, op, Lookup(acc, op));
          }
        }
      } else {
        forall j: nat | RootFailsFirstAt(l, schemaPath, listing, i, j) ensures j == i {
        }
      }
    }
  }

  /** Past a top-level entry that loads, the rest of the listing decides. */
  lemma RootShifted(l: Loader, schemaPath: string, listing: seq<Entry>, i: nat)
    requires i < |listing| && RootEntryError(l, schemaPath, listing[i]).None?
    ensures RootEntriesLoad(l, schemaPath, listing, i) <==> RootEntriesLoad(l, schemaPath, listing, i + 1)
    ensures forall j: nat | RootFailsFirstAt(l, schemaPath, listing, i, j) :: RootFailsFirstAt(l, schemaPath, listing, i + 1, j)
  {
    var i1 := i + 1;
    forall j: nat | RootFailsFirstAt(l, schemaPath, listing, i, j) ensures RootFailsFirstAt(l, schemaPath, listing, i1, j) {
      assert j != i;
    }
  }

  /** `directoryToAst`: the deprecated `relativePath` option is refused; otherwise the
      root named after the schema directory with a root type for exactly the operations
      whose directories are listed and included. */
  function DirectoryToAst(l: Loader, schemaPath: string, listing: seq<Entry>): (r: Result<AstRoot, LoadError>)
    ensures Truthy(l.options.relativePath) <==> r == Err(RelativePathDeprecated)
    ensures r.Ok? ==> r.value.name == Basename(schemaPath) && r.value.absPath == schemaPath
    ensures r.Ok? ==> RootTypesOk(r.value.children)
    ensures r.Ok? ==> r.value.children.Keys == IncludedOperations(l, schemaPath, listing, 0)
  {
    if Truthy(l.options.relativePath) then Err(RelativePathDeprecated)
    else
      var withDefaults := l.(options := WithDefaults(l.options));
      IncludedOperationsDefaults(l, schemaPath, listing);
      var children :- AddRootEntries(withDefaults, schemaPath, map[], listing, 0);
      Ok(AstRoot(Basename(schemaPath), schemaPath, children))
  }

  /** `directoryToAst` in terms of its listing: it succeeds iff `relativePath` is unset
      and every operation directory loads under the default options; otherwise it fails
      with `RelativePathDeprecated` or the first failing directory's error; and each
      root type is what that operation's own directories make of it, in listing order. */
  lemma DirectoryToAstOutcome(l: Loader, schemaPath: string, listing: seq<Entry>)
    ensures var r, ld := DirectoryToAst(l, schemaPath, listing), l.(options := WithDefaults(l.options));
      && (r.Ok? <==> !Truthy(l.options.relativePath) && RootEntriesLoad(ld, schemaPath, listing, 0))
      && (!Truthy(l.options.relativePath) ==>
            forall j: nat | RootFailsFirstAt(ld, schemaPath, listing, 0, j) :: r == Err(RootEntryError(ld, schemaPath, listing[j]).value))
      && (r.Ok? ==> forall op :: Lookup(r.value.children, op) == OperationRootType(ld, schemaPath, listing, 0, op, None))
  {
    var ld := l.(options := WithDefaults(l.options));
    if !Truthy(l.options.relativePath) {
      AddRootEntriesOutcome(ld, schemaPath, map[], listing, 0);
      forall op ensures Lookup(map[], op) == None {
      }
    }
  }

  // ---------------------------------------------------------------------------------
  // Properties

  /** The extension pattern built from a non-empty list of plain extensions has exactly
      those extensions as its alternatives. */
  lemma {:induction false} AlternativesOfPlain(exts: seq<string>)
    requires |exts| >= 1
    requires forall i | 0 <= i < |exts| :: '|' !in exts[i]
    ensures Alternatives(exts) == exts
  {
    SplitJoin(exts, '|');
  }

  /** With an empty extension list the pattern is `\.()$`: any name ending in a dot has
      a valid extension. */
  lemma EmptyExtensionList(filename: string)
    requires EndsWith(filename, ".")
    ensures Alternatives([]) == [""]
    ensures HasExtension(filename, [])
  {
    assert Join([], "|") == "";
    assert Alternatives([]) == [""];
    assert "." + Alternatives([])[0] == ".";
    assert EndsWithIgnoreCase(filename, ".");
  }

  /** The default extensions accept `.js` and `.ts` in any letter case and nothing else
      that ends differently. */
  lemma DefaultExtensionTest(filename: string)
    ensures HasExtension(filename, DefaultExtensions) <==>
      EndsWith(ToLower(filename), ".js") || EndsWith(ToLower(filename), ".ts")
  {
    var alts := Alternatives(DefaultExtensions);
    AlternativesOfPlain(DefaultExtensions);
    assert alts == ["js", "ts"];
    assert "." + alts[0] == ".js" && "." + alts[1] == ".ts";
    ToLowerOfLower(".js");
    ToLowerOfLower(".ts");
    assert HasExtension(filename, DefaultExtensions) <==>
      EndsWithIgnoreCase(filename, ".js") || EndsWithIgnoreCase(filename, ".ts");
  }

  /** Filling in defaults does not change which entries are included. */
  lemma DefaultsKeepInclusion(absPath: string, kind: EntryKind, filename: string, o: Options)
    ensures CheckInclusion(absPath, kind, filename, WithDefaults(o)) == CheckInclusion(absPath, kind, filename, o)
  {
  }

  /** A file entry that loads is stored as `AttachFile` says. */
  lemma AddLoadedFile(l: Loader, acc: AstNode, x: string, mx: JsValue, fx: AstNode)
    requires acc.DirNode?
    requires GetAstForFile(l, JoinPath(acc.absPath, x), mx) == Ok(Some(fx))
    ensures AddEntry(l, acc, FileEntry(x, mx)) == AttachFile(l, acc, Some(fx))
  {
  }

  /** Two included files with the same name before the extension (`a.ts`, `a.js`) in one
      directory are a collision, whichever lookup is used. */
  lemma {:induction false} SameModuleNameCollides(l: Loader, acc: AstNode, x: string, y: string, mx: JsValue, my: JsValue, fx: AstNode, fy: AstNode)
    requires acc.DirNode? && StripExtension(x) !in acc.children
    requires StripExtension(x) == StripExtension(y) != "index"
    requires GetAstForFile(l, JoinPath(acc.absPath, x), mx) == Ok(Some(fx))
    requires GetAstForFile(l, JoinPath(acc.absPath, y), my) == Ok(Some(fy))
    requires '/' !in x && '/' !in y
    ensures AddEntries(l, acc, [FileEntry(x, mx), FileEntry(y, my)], 0) == Err(NameCollision(StripExtension(x), acc.absPath))
  {
    var entries := [FileEntry(x, mx), FileEntry(y, my)];
    BasenameOfJoin(acc.absPath, x);
    BasenameOfJoin(acc.absPath, y);
    var name := StripExtension(x);
    assert fx.name == name && fy.name == name;
    AddLoadedFile(l, acc, x, mx, fx);
    if HasKey(acc.children, name, l.lookup) {
      assert AddEntry(l, acc, entries[0]) == Err(NameCollision(name, acc.absPath));
      FailingEntryStops(l, acc, entries, 0);
    } else {
      var acc1 := acc.WithChildren(acc.children[name := fx]);
      assert AddEntry(l, acc, entries[0]) == Ok(acc1);
      AddLoadedFile(l, acc1, y, my, fy);
      assert AddEntry(l, acc1, entries[1]) == Err(NameCollision(name, acc.absPath));
      NextEntry(l, acc, entries, 0, acc1);
      FailingEntryStops(l, acc1, entries, 1);
    }
  }

  /** A failing entry ends the listing with its error. */
  lemma FailingEntryStops(l: Loader, acc: AstNode, entries: seq<Entry>, i: nat)
    requires acc.DirNode? && i < |entries| && AddEntry(l, acc, entries[i]).Err?
    ensures AddEntries(l, acc, entries, i) == AddEntry(l, acc, entries[i])
  {
  }

  /** A successful entry hands its directory to the rest of the listing. */
  lemma NextEntry(l: Loader, acc: AstNode, entries: seq<Entry>, i: nat, next: AstNode)
    requires acc.DirNode? && i < |entries| && AddEntry(l, acc, entries[i]) == Ok(next)
    ensures next.DirNode? && AddEntries(l, acc, entries, i) == AddEntries(l, next, entries, i + 1)
  {
  }

  /** `query.X` (any letter case, any operation) names the operation and the sub-field
      `X`; the bare operation name has no sub-field. */
  lemma OperationDirRoundTrip(op: Operation, sub: string)
    requires forall i | 0 <= i < |sub| :: !IsLineTerminator(sub[i])
    ensures MatchOperationDir(OperationKey(op)) == Some((op, ""))
    ensures MatchOperationDir(OperationKey(op) + "." + sub) == Some((op, sub))
  {
    BareOperationMatches(op);
    DottedOperationMatches(op, sub);
  }

  lemma BareOperationMatches(op: Operation)
    ensures MatchOperationDir(OperationKey(op)) == Some((op, ""))
  {
    OperationWordMatches(op, "");
    assert OperationKey(op) + "" == OperationKey(op);
  }

  lemma DottedOperationMatches(op: Operation, sub: string)
    requires forall i | 0 <= i < |sub| :: !IsLineTerminator(sub[i])
    ensures MatchOperationDir(OperationKey(op) + "." + sub) == Some((op, sub))
  {
    var k, rest := OperationKey(op), "." + sub;
    assert MatchOperationDir(k + rest) == Some((op, sub)) by {
      OperationWordMatches(op, rest);
      DotSuffix(op, sub);
    }
    assert k + "." + sub == k + rest;
  }

  /** A dot and a sub-field free of line terminators is a valid suffix. */
  lemma DotSuffix(op: Operation, sub: string)
    requires forall i | 0 <= i < |sub| :: !IsLineTerminator(sub[i])
    ensures OperationSuffix(op, "." + sub) == Some((op, sub))
  {
    var rest := "." + sub;
    assert rest[0] == '.' && rest[1..] == sub;
    forall i | 1 <= i < |rest| ensures !IsLineTerminator(rest[i]) {
      assert rest[i] == sub[i - 1];
    }
  }

  /** The operation word, followed by anything, is matched as that operation. */
  lemma OperationWordMatches(op: Operation, rest: string)
    ensures MatchOperationDir(OperationKey(op) + rest) == OperationSuffix(op, rest)
  {
    var k := OperationKey(op);
    var name := k + rest;
    ToLowerAppend(k, rest);
    ToLowerOfLower(k);
    assert ToLower(name)[..|k|] == k;
    assert name[|k|..] == rest;
    match op
    case Query =>
    case Mutation =>
      assert ToLower(name)[..5] != "query" by { assert ToLower(name)[0] == 'm'; }
    case Subscription =>
      assert ToLower(name)[..5] != "query" by { assert ToLower(name)[0] == 's'; }
      assert ToLower(name)[..8] != "mutation" by { assert ToLower(name)[0] == 's'; }
  }

  lemma OperationDirExamples()
    ensures MatchOperationDir("Query.me") == Some((Query, "me"))
    ensures MatchOperationDir("MUTATION") == Some((Mutation, ""))
    ensures MatchOperationDir("query.") == Some((Query, ""))
  {
    assert ToLower("Query.me")[..5] == "query";
    assert "Query.me"[5..] == ".me";
    assert ToLower("MUTATION")[..5] != "query" by { assert ToLower("MUTATION")[0] == 'm'; }
    assert ToLower("MUTATION")[..8] == "mutation";
    assert "MUTATION"[8..] == "";
    OperationWordMatches(Query, ".");
    assert "query" + "." == "query.";
  }

  // Finding: `children[name]` on a plain object also sees Object.prototype names.

  /** As written: the first file named after an Object.prototype member (`constructor.ts`,
      `toString.ts`, ...) is reported as a folder/file collision although the directory
      holds nothing under that name. */
  lemma PrototypeNameCollides(l: Loader, acc: AstNode, x: string, mx: JsValue, fx: AstNode)
    requires acc.DirNode? && l.lookup == WithPrototype
    requires GetAstForFile(l, JoinPath(acc.absPath, x), mx) == Ok(Some(fx))
    requires fx.name in ObjectPrototypeKeys && fx.name !in acc.children
    ensures AddEntry(l, acc, FileEntry(x, mx)) == Err(NameCollision(fx.name, acc.absPath))
  {
    IndexNotPrototypeKey();
  }

  /** Corrected: looking up own keys only, such a file is stored under its name. */
  lemma OwnKeysStoresPrototypeNamedFile(l: Loader, acc: AstNode, x: string, mx: JsValue, fx: AstNode)
    requires acc.DirNode? && l.lookup == OwnKeys
    requires GetAstForFile(l, JoinPath(acc.absPath, x), mx) == Ok(Some(fx))
    requires fx.name != "index" && fx.name !in acc.children
    ensures AddEntry(l, acc, FileEntry(x, mx)) == Ok(acc.WithChildren(acc.children[fx.name := fx]))
  {
  }

  /** Corrected: with own-key lookup, a collision is reported only for a name the
      directory already holds. */
  lemma OwnKeysCollisionIsReal(l: Loader, acc: AstNode, e: Entry)
    requires acc.DirNode? && l.lookup == OwnKeys
    ensures AddEntry(l, acc, e) == Err(NameCollision(e.name, acc.absPath)) && e.DirEntry? ==> e.name in acc.children
  {
  }

  /** `constructor.ts` passes every built-in test of `checkInclusion`. */
  lemma ConstructorTsIncluded(path: string)
    ensures CheckInclusion(path, FileKind, "constructor.ts", Options(Undefined, Some(DefaultExtensions), NoFilter, NoFilter))
  {
    var f := "constructor.ts";
    assert !IsHidden(f) by {
      assert f[..2][0] != "__"[0];
      assert f[..1][0] != "."[0];
    }
    assert HasExtension(f, DefaultExtensions) by {
      ToLowerOfLower(f);
      DefaultExtensionTest(f);
      assert f[11..] == ".ts";
    }
    assert !IsDeclarationOrSpec(f) by {
      ConstructorTsNotSpec();
    }
  }

  lemma ConstructorTsNotSpec()
    ensures !IsDeclarationOrSpec("constructor.ts")
  {
    var f := "constructor.ts";
    ToLowerOfLower(f);
    ToLowerOfLower(".d.ts");
    ToLowerOfLower(".spec.ts");
    ToLowerOfLower(".spec.js");
    assert f[9..][0] != ".d.ts"[0];
    assert f[6..][0] != ".spec.ts"[0];
    assert f[6..][0] != ".spec.js"[0];
  }

  /** The module of the example: a default export `{ type: 'String' }`. */
  const StringFieldModule: JsValue := Obj(map["default" := Obj(map["type" := Str("String")])])

  const DefaultOptions: Options := Options(Undefined, Some(DefaultExtensions), NoFilter, NoFilter)

  lemma ConstructorFileLoads(l: Loader, dirPath: string)
    requires l.callerFile == "" && l.options == DefaultOptions
    requires l.oracle.isSomeOutputTypeDefinitionString("String")
    ensures
      var path := JoinPath(dirPath, "constructor.ts");
      GetAstForFile(l, path, StringFieldModule)
        == Ok(Some(FileNode("constructor", path, StringFieldModule, Obj(map["type" := Str("String")]))))
  {
    var path := JoinPath(dirPath, "constructor.ts");
    assert Basename(path) == "constructor.ts" by {
      BasenameOfJoin(dirPath, "constructor.ts");
    }
    assert StripExtension("constructor.ts") == "constructor" by {
      assert "constructor" + "." + "ts" == "constructor.ts";
      StripExtensionOf("constructor", "ts");
    }
    assert CheckInclusion(path, FileKind, "constructor.ts", l.options) by {
      ConstructorTsIncluded(path);
    }
    assert path != l.callerFile by { assert |path| > 0; }
    StringFieldModuleChecks(l.oracle, path);
  }

  lemma StringFieldModuleChecks(o: TypeOracle, path: string)
    requires o.isSomeOutputTypeDefinitionString("String")
    ensures PrepareFieldConfig(o, StringFieldModule, path, true) == Ok(Obj(map["type" := Str("String")]))
  {
    var fc := Obj(map["type" := Str("String")]);
    assert Get(StringFieldModule, "default") == fc;
    assert "resolve" !in fc.props by { assert |"resolve"| != |"type"|; }
    assert CopyConfig(o, fc) == fc;
    assert TypeOk(o, fc);
    assert ResolveOk(fc);
  }

  /** The concrete case: `constructor.ts` exporting a valid field config collides with
      nothing as written, and is stored once lookups use own keys. */
  lemma ConstructorFileExample(o: TypeOracle, dirPath: string)
    requires o.isSomeOutputTypeDefinitionString("String")
    ensures
      var acc := DirNode("d", dirPath, map[], None);
      && AddEntry(Loader("", DefaultOptions, o, WithPrototype), acc, FileEntry("constructor.ts", StringFieldModule))
         == Err(NameCollision("constructor", dirPath))
      && AddEntry(Loader("", DefaultOptions, o, OwnKeys), acc, FileEntry("constructor.ts", StringFieldModule)).Ok?
  {
    var acc := DirNode("d", dirPath, map[], None);
    var path := JoinPath(dirPath, "constructor.ts");
    var fx := FileNode("constructor", path, StringFieldModule, Obj(map["type" := Str("String")]));
    ConstructorFileLoads(Loader("", DefaultOptions, o, WithPrototype), dirPath);
    ConstructorFileLoads(Loader("", DefaultOptions, o, OwnKeys), dirPath);
    PrototypeNameCollides(Loader("", DefaultOptions, o, WithPrototype), acc, "constructor.ts", StringFieldModule, fx);
    OwnKeysStoresPrototypeNamedFile(Loader("", DefaultOptions, o, OwnKeys), acc, "constructor.ts", StringFieldModule, fx);
  }
}

=== FILE: jsvalue.dfy ===
/** The JavaScript values the loaders inspect: module exports, field configs and the
    `type`/`resolve` properties inside them. Only the distinctions the library's branches
    make are kept: truthiness, `typeof`, `Array.isArray`, `instanceof` a handful of
    graphql-compose / graphql classes, and own properties. */
module JsValues {
  import opened Strings

  /** The classes the library tests with `instanceof`. */
  datatype NativeClass =
    | ObjectTypeComposerClass
    | GraphQLObjectTypeClass
    | ResolverClass
    | OtherClass(className: string)

  /** A JavaScript value. Numbers are integers (no NaN); a function is known by an
      identity only, since the library stores functions and never calls them. */
  datatype JsValue =
    | Undefined
    | Null
    | Bool(b: bool)
    | Num(n: int)
    | Str(s: string)
    | Func(id: string)
    | Arr(items: seq<JsValue>)
    | Obj(props: map<string, JsValue>)
    | Instance(cls: NativeClass, typeName: string, props: map<string, JsValue>)

  /** `!!v`. */
  predicate Truthy(v: JsValue) {
    match v
    case Undefined => false
    case Null => false
    case Bool(b) => b
    case Num(n) => n != 0
    case Str(s) => s != ""
    case _ => true
  }

  /** `typeof v === 'object'`: `null`, arrays, plain objects and class instances. */
  predicate IsObjectTyped(v: JsValue) {
    v.Null? || v.Arr? || v.Obj? || v.Instance?
  }

  /** `typeof v === 'function'`. */
  predicate IsFunction(v: JsValue) {
    v.Func?
  }

  predicate IsString(v: JsValue) {
    v.Str?
  }

  /** `v?.[key]` for an own property of an object; anything else reads as `undefined`. */
  function Get(v: JsValue, key: string): (r: JsValue)
    ensures (v.Obj? || v.Instance?) && key in v.props ==> r == v.props[key]
    ensures !((v.Obj? || v.Instance?) && key in v.props) ==> r == Undefined
  {
    match v
    case Obj(props) => if key in props then props[key] else Undefined
    case Instance(_, _, props) => if key in props then props[key] else Undefined
    case _ => Undefined
  }

  /** `v[key] = x` on an object; the properties are updated, the class is kept. */
  function SetProp(v: JsValue, key: string, x: JsValue): (r: JsValue)
    requires v.Obj? || v.Instance?
    ensures Get(r, key) == x
    ensures forall k | k != key :: Get(r, k) == Get(v, k)
  {
    v.(props := v.props[key := x])
  }

  /** The own enumerable properties `{ ...v }` copies: array elements under their index. */
  function OwnProps(v: JsValue): (r: map<string, JsValue>)
    ensures v.Obj? || v.Instance? ==> r == v.props
    ensures v.Arr? ==> |r.Keys| <= |v.items|
  {
    match v
    case Obj(props) => props
    case Instance(_, _, props) => props
    case Arr(items) => IndexProps(items)
    case _ => map[]
  }

  function IndexProps(items: seq<JsValue>): (r: map<string, JsValue>)
    ensures |r.Keys| <= |items|
  {
    if |items| == 0 then map[]
    else
      var last := |items| - 1;
      var m := IndexProps(items[..last]);
      assert m[NatToString(last) := items[last]].Keys <= m.Keys + {NatToString(last)};
      m[NatToString(last) := items[last]]
  }

  /** The function `() => ({})` the library installs as a default `resolve`. */
  const DefaultResolve: JsValue := Func("() => ({})")

  /** An `ObjectTypeComposer` for the type called `name`, as the registry hands out. */
  function ObjectTC(name: string): (r: JsValue)
    ensures r.Instance? && r.cls == ObjectTypeComposerClass && r.typeName == name
    ensures Truthy(r) && IsObjectTyped(r)
  {
    Instance(ObjectTypeComposerClass, name, map[])
  }

  /** The names `Object.prototype` provides to every plain object, so `obj[name]` is a
      (truthy) function even when `obj` has no such own key. */
  const ObjectPrototypeKeys: set<string> := {
    "constructor", "hasOwnProperty", "isPrototypeOf", "propertyIsEnumerable",
    "toLocaleString", "toString", "valueOf", "__proto__", "__defineGetter__",
    "__defineSetter__", "__lookupGetter__", "__lookupSetter__"
  }

  /** No Object.prototype name is five characters long, so `index` is not one. */
  lemma IndexNotPrototypeKey()
    ensures "index" !in ObjectPrototypeKeys
  {
    forall k | k in ObjectPrototypeKeys ensures |k| != 5 {
    }
  }

  /** How a child-map lookup `children[key]` is read: as JavaScript evaluates it on a
      plain object (prototype names included), or by own keys only. */
  datatype KeyLookup = OwnKeys | WithPrototype

  /** `!!children[key]` where every own value is a (truthy) node object. */
  predicate HasKey<V>(children: map<string, V>, key: string, lookup: KeyLookup) {
    key in children || (lookup == WithPrototype && key in ObjectPrototypeKeys)
  }

  /** The same test against a set of own keys: `key` is taken once it is one of them or,
      read through the prototype, one of Object.prototype's names. */
  predicate KeyTaken(keys: set<string>, key: string, lookup: KeyLookup) {
    key in keys || (lookup == WithPrototype && key in ObjectPrototypeKeys)
  }

  /** Away from the Object.prototype names, both readings of a lookup agree. */
  lemma OwnLookupAgrees<V>(children: map<string, V>, key: string)
    requires key !in ObjectPrototypeKeys
    ensures HasKey(children, key, WithPrototype) == HasKey(children, key, OwnKeys)
  {
  }

  /** The graphql-compose functions the library consults, left uninterpreted: the
      type-definition string tests, `isComposeOutputType`, `Resolver.getFieldConfig()`,
      and the name `createObjectTC` gives to a type built from an SDL string. */
  datatype TypeOracle = TypeOracle(
    isSomeOutputTypeDefinitionString: string -> bool,
    isWrappedTypeNameString: string -> bool,
    isTypeNameString: string -> bool,
    isOutputTypeDefinitionString: string -> bool,
    isComposeOutputType: JsValue -> bool,
    resolverFieldConfig: JsValue -> JsValue,
    definedTypeName: string -> string)
}

=== FILE: registry.dfy ===
/** An abstract graphql-compose `SchemaComposer`, as seen by the schema builders: the
    object types they create by name and the fields they add to named types. Field
    configs are kept as the JavaScript values handed over; what `addNestedFields` does
    with a dotted key and how a later field replaces an earlier one of the same key are
    left to graphql-compose. */
module Registry {
  import opened Results
  import opened JsValues

  /** `addNestedFields({ [key]: config })` on the object type called `owner`. */
  datatype Field = Field(owner: string, key: string, config: JsValue)

  /** Everything handed to the composer: created types and added fields. */
  datatype Schema = Schema(types: set<string>, fields: set<Field>)

  const Empty: Schema := Schema({}, {})

  function Union(a: Schema, b: Schema): Schema {
    Schema(a.types + b.types, a.fields + b.fields)
  }

  /** Two one-type, one-field schemas together. */
  lemma TwoOfEach(ta: string, tb: string, fa: Field, fb: Field)
    ensures Union(Schema({ta}, {fa}), Schema({tb}, {fb})) == Schema({ta, tb}, {fa, fb})
  {
  }

  /** The errors the schema builders throw, one variant per message. */
  datatype SchemaError =
    | InvalidName(name: string, absPath: string)
    | MisplacedDots(name: string, absPath: string)
    | MissingNamespaceDefault(absPath: string)
    | NamespaceNotObject(absPath: string)
    | InvalidTypeDefinition(absPath: string)
    | StrangeType(absPath: string)
    | MissingDefault(absPath: string)
    | InvalidFieldType(absPath: string)
    | NotAComposer(absPath: string)

  /** The outcome of a step that may throw: what it adds to the composer, or the set of
      errors that can be the first one thrown. Siblings are visited in `Object.keys`
      order, which the model does not fix, so a failing step reports every error some
      order of its siblings would raise first. */
  type Outcome = Result<Schema, set<SchemaError>>

  /** Every field sits on the given owner or on a type the same step created. */
  predicate OwnersKnown(s: Schema, owner: string) {
    forall f | f in s.fields :: f.owner == owner || f.owner in s.types
  }

  /** A step's own type, with everything its children added beneath that type. */
  lemma NestedOwners(own: Schema, rest: Schema, owner: string, inner: string)
    requires OwnersKnown(own, owner) && OwnersKnown(rest, inner) && inner in own.types
    ensures OwnersKnown(Union(own, rest), owner)
  {
  }

  /** Sibling steps run one after another in some key order: the run succeeds iff every
      step does, and then adds what they add together; a failing run throws the first
      error of whichever failing step comes first. */
  function CombineAll<K>(steps: map<K, Outcome>): (r: Outcome)
    ensures r.Ok? <==> forall k | k in steps :: steps[k].Ok?
    ensures r.Ok? ==> forall k | k in steps :: steps[k].value.types <= r.value.types && steps[k].value.fields <= r.value.fields
    ensures r.Ok? ==> forall t | t in r.value.types :: exists k | k in steps :: t in steps[k].value.types
    ensures r.Ok? ==> forall f | f in r.value.fields :: exists k | k in steps :: f in steps[k].value.fields
    ensures r.Err? ==> forall e :: e in r.error <==> exists k | k in steps :: steps[k].Err? && e in steps[k].error
  {
    if exists k | k in steps :: steps[k].Err? then
      Err(set k, e | k in steps && steps[k].Err? && e in steps[k].error :: e)
    else
      Ok(Schema(
        set k, t | k in steps && t in steps[k].value.types :: t,
        set k, f | k in steps && f in steps[k].value.fields :: f))
  }

  /** Combining steps that each keep their owners known, all below the same owner and
      whose own owners are created by the parent, keeps owners known. */
  lemma CombineOwners<K>(steps: map<K, Outcome>, owner: string)
    requires CombineAll(steps).Ok?
    requires forall k | k in steps :: steps[k].Ok? ==> OwnersKnown(steps[k].value, owner)
    ensures OwnersKnown(CombineAll(steps).value, owner)
  {
    var r := CombineAll(steps).value;
    forall f | f in r.fields ensures f.owner == owner || f.owner in r.types {
      var k :| k in steps && f in steps[k].value.fields;
      assert steps[k].value.types <= r.types;
    }
  }

  /** A step's own additions followed by its combined sub-steps hold exactly what each
      of them adds. */
  lemma CombineContents<K>(own: Schema, steps: map<K, Outcome>)
    requires CombineAll(steps).Ok?
    ensures var r := Union(own, CombineAll(steps).value);
      && own.types <= r.types && own.fields <= r.fields
      && (forall k | k in steps :: steps[k].value.types <= r.types && steps[k].value.fields <= r.fields)
      && (forall t | t in r.types :: t in own.types || exists k | k in steps :: t in steps[k].value.types)
      && (forall f | f in r.fields :: f in own.fields || exists k | k in steps :: f in steps[k].value.fields)
  {
  }

  /** The same, for a step that adds one type and one field of its own. */
  lemma CombineOneContents<K>(r: Schema, typeName: string, field: Field, steps: map<K, Outcome>)
    requires CombineAll(steps).Ok? && r == Union(Schema({typeName}, {field}), CombineAll(steps).value)
    ensures typeName in r.types && field in r.fields
    ensures forall k | k in steps :: steps[k].value.types <= r.types && steps[k].value.fields <= r.fields
    ensures forall t | t in r.types :: t == typeName || exists k | k in steps :: t in steps[k].value.types
    ensures forall f | f in r.fields :: f == field || exists k | k in steps :: f in steps[k].value.fields
  {
    CombineContents(Schema({typeName}, {field}), steps);
  }

  /** With no steps, nothing is added. */
  lemma CombineNone<K>(steps: map<K, Outcome>)
    requires steps == map[]
    ensures CombineAll(steps) == Ok(Empty)
  {
    var r := CombineAll(steps);
    assert r.Ok?;
    assert r.value.types == {};
    assert r.value.fields == {};
  }

  /** A step map with a single key is that one step. */
  lemma OneStep<K>(steps: map<K, Outcome>, k: K, v: Outcome)
    requires steps.Keys == {k} && steps[k] == v
    ensures steps == map[k := v]
  {
  }

  /** A single successful step adds exactly what it adds. */
  lemma CombineOne<K>(steps: map<K, Outcome>, k: K, s: Schema)
    requires steps == map[k := Ok(s)]
    ensures CombineAll(steps) == Ok(s)
  {
    var r := CombineAll(steps);
    assert steps[k] == Ok(s);
    assert r.Ok?;
    forall t | t in r.value.types ensures t in s.types {
      var k' :| k' in steps && t in steps[k'].value.types;
      assert k' == k;
    }
    forall f | f in r.value.fields ensures f in s.fields {
      var k' :| k' in steps && f in steps[k'].value.fields;
      assert k' == k;
    }
    assert s.types <= r.value.types && s.fields <= r.value.fields;
    assert r.value.types == s.types && r.value.fields == s.fields;
  }
}

=== FILE: require_ast_to_schema.dfy ===
/** `requireAstToSchema`: the earlier schema builder, over the AST of
    `requireSchemaDirectory`. Names, type names and field configs are checked as in
    `astToSchema`, with two differences: the type name is synthesised (and so checked)
    for every node, files included, and a directory's children get the directory's raw
    name as their prefix instead of its type name. */
module RequireAstToSchema {
  import opened Results
  import opened Strings
  import opened JsValues
  import opened Ast
  import opened Registry
  import opened RequireSchemaDirectory
  import A = AstToSchema

  /** `createFields` of the earlier builder. */
  function CreateFields(o: TypeOracle, n: RequireAstNode, prefix: string, owner: string): (r: Outcome)
    ensures !A.IsValidName(n.name) ==> r == Err({InvalidName(n.name, n.absPath)})
    ensures A.IsValidName(n.name) && A.GetTypename(n.name, n.absPath).Err? ==> r == Err({MisplacedDots(n.name, n.absPath)})
    ensures r.Ok? ==> OwnersKnown(r.value, owner)
    ensures A.IsValidName(n.name) && A.GetTypename(n.name, n.absPath).Ok? && n.RequireFile? ==>
      r == CreateFileFields(o, n, prefix, A.GetTypename(n.name, n.absPath).value, owner)
    ensures A.IsValidName(n.name) && A.GetTypename(n.name, n.absPath).Ok? && n.RequireDir? ==>
      r == CreateDirFields(o, n, prefix, A.GetTypename(n.name, n.absPath).value, owner)
    ensures A.IsValidName(n.name) && A.GetTypename(n.name, n.absPath).Ok? && n.RequireRootType? ==> r == Ok(Empty)
    decreases n, 3
  {
    if !A.IsValidName(n.name) then Err({InvalidName(n.name, n.absPath)})
    else
      match A.GetTypename(n.name, n.absPath)
      case Err(e) => Err({e})
      case Ok(typename) =>
        if n.RequireFile? then CreateFileFields(o, n, prefix, typename, owner)
        else if n.RequireDir? then CreateDirFields(o, n, prefix, typename, owner)
        else Ok(Empty)
  }

  /** A file: `index` adds nothing; a `*.index` file adds a namespace field whose type
      is named prefix + the file's type name; any other file adds its module's config. */
  function CreateFileFields(o: TypeOracle, n: RequireAstNode, prefix: string, typename: string, owner: string): (r: Outcome)
    requires n.RequireFile?
    ensures r.Ok? ==> OwnersKnown(r.value, owner)
    ensures n.name == "index" ==> r == Ok(Empty)
    ensures n.name != "index" && !EndsWith(n.name, ".index") ==>
      match A.PrepareFieldConfig(o, n.code, n.absPath)
      case Ok(fc) => r == Ok(Schema({}, {Field(owner, n.name, fc)}))
      case Err(e) => r == Err({e})
    ensures A.IsNamespaceFile(n.name) ==>
      match A.PrepareNamespaceFieldConfig(o, n.code, n.absPath, prefix + typename)
      case Ok(ns) => r == Ok(Schema({ns.typeName}, {Field(owner, A.NamespaceKey(n.name), ns.config)}))
      case Err(e) => r == Err({e})
  {
    if n.name == "index" then Ok(Empty)
    else if EndsWith(n.name, ".index") then
      match A.PrepareNamespaceFieldConfig(o, n.code, n.absPath, prefix + typename)
      case Err(e) => Err({e})
      case Ok(ns) => Ok(Schema({ns.typeName}, {Field(owner, A.NamespaceKey(n.name), ns.config)}))
    else
      match A.PrepareFieldConfig(o, n.code, n.absPath)
      case Err(e) => Err({e})
      case Ok(fc) => Ok(Schema({}, {Field(owner, n.name, fc)}))
  }

  /** The config of a directory field: its `index` child's namespace config when that
      child is a file, else a new object type called prefix + the directory's type name. */
  function DirNamespace(o: TypeOracle, children: map<string, RequireAstNode>, fullName: string): (r: Result<A.Namespace, SchemaError>)
    ensures !("index" in children && children["index"].RequireFile?) ==>
      r == Ok(A.Namespace(Obj(map["type" := ObjectTC(fullName)]), fullName))
    ensures "index" in children && children["index"].RequireFile? ==>
      r == A.PrepareNamespaceFieldConfig(o, children["index"].code, children["index"].absPath, fullName)
  {
    if "index" in children && children["index"].RequireFile? then
      A.PrepareNamespaceFieldConfig(o, children["index"].code, children["index"].absPath, fullName)
    else
      Ok(A.Namespace(Obj(map["type" := ObjectTC(fullName)]), fullName))
  }

  /** A directory: its field, of the namespace's type, and its children on that type,
      each child getting the directory's raw name as its prefix. */
  function CreateDirFields(o: TypeOracle, n: RequireAstNode, prefix: string, typename: string, owner: string): (r: Outcome)
    requires n.RequireDir?
    ensures r.Ok? <==>
      && DirNamespace(o, n.children, prefix + typename).Ok?
      && DirBody(o, n, DirNamespace(o, n.children, prefix + typename).value, owner).Ok?
    ensures r.Ok? ==> r == DirBody(o, n, DirNamespace(o, n.children, prefix + typename).value, owner)
    ensures r.Ok? ==> OwnersKnown(r.value, owner)
    decreases n, 2
  {
    match DirNamespace(o, n.children, prefix + typename)
    case Err(e) => Err({e})
    case Ok(ns) => DirBody(o, n, ns, owner)
  }

  function DirBody(o: TypeOracle, n: RequireAstNode, ns: A.Namespace, owner: string): (r: Outcome)
    requires n.RequireDir?
    ensures r.Ok? <==> forall k | k in n.children :: CreateFields(o, n.children[k], n.name, ns.typeName).Ok?
    ensures r.Ok? ==> OwnersKnown(r.value, owner)
    decreases n, 1
  {
    var own := Schema({ns.typeName}, {Field(owner, n.name, A.DirFieldConfig(ns.config))});
    var steps := ChildSteps(o, n, n.name, ns.typeName);
    var rest := CombineAll(steps);
    if rest.Err? then rest
    else
      CombineOwners(steps, ns.typeName);
      NestedOwners(own, rest.value, owner, ns.typeName);
      Ok(Union(own, rest.value))
  }

  /** What a successful directory body holds: the directory's type and field, all its
      children's types and fields, and nothing else. */
  lemma DirBodyContents(o: TypeOracle, n: RequireAstNode, ns: A.Namespace, owner: string)
    requires n.RequireDir? && DirBody(o, n, ns, owner).Ok?
    ensures var r := DirBody(o, n, ns, owner).value;
      var steps := ChildSteps(o, n, n.name, ns.typeName);
      && ns.typeName in r.types
      && Field(owner, n.name, A.DirFieldConfig(ns.config)) in r.fields
      && (forall k | k in steps :: steps[k].value.types <= r.types && steps[k].value.fields <= r.fields)
      && (forall t | t in r.types :: t == ns.typeName || exists k | k in steps :: t in steps[k].value.types)
      && (forall f | f in r.fields :: f == Field(owner, n.name, A.DirFieldConfig(ns.config)) || exists k | k in steps :: f in steps[k].value.fields)
  {
    DirBodyIs(o, n, ns, owner);
    CombineOneContents(DirBody(o, n, ns, owner).value, ns.typeName, Field(owner, n.name, A.DirFieldConfig(ns.config)),
      ChildSteps(o, n, n.name, ns.typeName));
  }

  /** A directory body that succeeds is its own type and field plus its children's. */
  lemma DirBodyIs(o: TypeOracle, n: RequireAstNode, ns: A.Namespace, owner: string)
    requires n.RequireDir? && DirBody(o, n, ns, owner).Ok?
    ensures CombineAll(ChildSteps(o, n, n.name, ns.typeName)).Ok?
    ensures DirBody(o, n, ns, owner).value ==
      Union(Schema({ns.typeName}, {Field(owner, n.name, A.DirFieldConfig(ns.config))}), CombineAll(ChildSteps(o, n, n.name, ns.typeName)).value)
  {
  }

  function ChildSteps(o: TypeOracle, n: RequireAstNode, prefix: string, owner: string): (r: map<string, Outcome>)
    requires n.HasChildren()
    ensures r.Keys == n.children.Keys
    ensures forall k | k in n.children :: r[k] == CreateFields(o, n.children[k], prefix, owner)
    decreases n, 0
  {
    map k | k in n.children :: CreateFields(o, n.children[k], prefix, owner)
  }

  /** `populateRoot` of the earlier builder. */
  function PopulateRoot(o: TypeOracle, op: Operation, root: RequireAstNode): (r: Outcome)
    ensures r.Ok? ==> RootTypeName(op) in r.value.types && OwnersKnown(r.value, RootTypeName(op))
    ensures r.Ok? <==> !root.HasChildren() || forall k | k in root.children :: CreateFields(o, root.children[k], RootTypeName(op), RootTypeName(op)).Ok?
    ensures r.Ok? && root.HasChildren() ==> forall k | k in root.children ::
      CreateFields(o, root.children[k], RootTypeName(op), RootTypeName(op)).value.types <= r.value.types && CreateFields(o, root.children[k], RootTypeName(op), RootTypeName(op)).value.fields <= r.value.fields
    ensures r.Ok? ==> forall t | t in r.value.types ::
      t == RootTypeName(op) || (root.HasChildren() && exists k | k in root.children :: t in CreateFields(o, root.children[k], RootTypeName(op), RootTypeName(op)).value.types)
    ensures r.Ok? ==> forall f | f in r.value.fields ::
      root.HasChildren() && exists k | k in root.children :: f in CreateFields(o, root.children[k], RootTypeName(op), RootTypeName(op)).value.fields
  {
    var rootName := RootTypeName(op);
    if !root.HasChildren() then Ok(Schema({rootName}, {}))
    else
      var steps := ChildSteps(o, root, rootName, rootName);
      var rest := CombineAll(steps);
      if rest.Err? then rest
      else
        CombineOwners(steps, rootName);
        Ok(Union(Schema({rootName}, {}), rest.value))
  }

  function PopulateIfPresent(o: TypeOracle, ast: RequireAstResult, op: Operation, s: Schema): (r: Outcome)
    ensures op !in ast.roots ==> r == Ok(s)
    ensures op in ast.roots ==> (r.Ok? <==> PopulateRoot(o, op, ast.roots[op]).Ok?)
    ensures r.Ok? ==> s.types <= r.value.types && s.fields <= r.value.fields
    ensures r.Ok? && op in ast.roots ==> r.value == Union(s, PopulateRoot(o, op, ast.roots[op]).value)
  {
    if op in ast.roots then
      var p :- PopulateRoot(o, op, ast.roots[op]);
      Ok(Union(s, p))
    else Ok(s)
  }

  /** `requireAstToSchema`: the supplied composer if any, else a new one, populated with
      the query, mutation and subscription roots in that order. */
  function RequireAstToSchemaOf(o: TypeOracle, ast: RequireAstResult, given: Option<Schema>): (r: Outcome)
    ensures r.Ok? ==> given.GetOr(Empty).types <= r.value.types && given.GetOr(Empty).fields <= r.value.fields
    ensures r.Ok? <==> forall op | op in ast.roots :: PopulateRoot(o, op, ast.roots[op]).Ok?
    ensures r.Ok? ==> forall op | op in ast.roots :: RootTypeName(op) in r.value.types
    ensures r.Ok? ==> forall op | op in ast.roots ::
      PopulateRoot(o, op, ast.roots[op]).value.types <= r.value.types &&
      PopulateRoot(o, op, ast.roots[op]).value.fields <= r.value.fields
    ensures r.Ok? ==> forall t | t in r.value.types ::
      t in given.GetOr(Empty).types || exists op | op in ast.roots :: t in PopulateRoot(o, op, ast.roots[op]).value.types
    ensures r.Ok? ==> forall f | f in r.value.fields ::
      f in given.GetOr(Empty).fields || exists op | op in ast.roots :: f in PopulateRoot(o, op, ast.roots[op]).value.fields
  {
    var s0 := given.GetOr(Empty);
    var s1 :- PopulateIfPresent(o, ast, Query, s0);
    var s2 :- PopulateIfPresent(o, ast, Mutation, s1);
    var r := PopulateIfPresent(o, ast, Subscription, s2);
    RootsPopulate(o, ast);
    if r.Ok? then
      A.RootsCollected(s0, ast.roots.Keys, map op | op in ast.roots :: PopulateRoot(o, op, ast.roots[op]).value,
        s1, s2, r.value);
      r
    else r
  }

  /** Every present root populates iff each of the three, when present, does. */
  lemma RootsPopulate(o: TypeOracle, ast: RequireAstResult)
    ensures (forall op | op in ast.roots :: PopulateRoot(o, op, ast.roots[op]).Ok?) <==>
      && (Query in ast.roots ==> PopulateRoot(o, Query, ast.roots[Query]).Ok?)
      && (Mutation in ast.roots ==> PopulateRoot(o, Mutation, ast.roots[Mutation]).Ok?)
      && (Subscription in ast.roots ==> PopulateRoot(o, Subscription, ast.roots[Subscription]).Ok?)
  {
    assert forall op | op in ast.roots :: op == Query || op == Mutation || op == Subscription;
  }

  // ---------------------------------------------------------------------------------
  // Properties

  /** An empty directory adds one type, named from the prefix and its own name, and one
      field of that type on its owner. */
  lemma EmptyDirFields(o: TypeOracle, d: RequireAstNode, prefix: string, owner: string)
    requires d.RequireDir? && d.children == map[] && A.IsValidName(d.name) && '.' !in d.name
    ensures CreateFields(o, d, prefix, owner) ==
      Ok(Schema({prefix + UpperFirst(d.name)}, {Field(owner, d.name, A.PlainDirConfig(prefix + UpperFirst(d.name)))}))
  {
    var typename := prefix + UpperFirst(d.name);
    A.PlainTypename(d.name, d.absPath);
    var steps := ChildSteps(o, d, d.name, typename);
    assert steps == map[];
    CombineNone(steps);
    var ns := A.Namespace(Obj(map["type" := ObjectTC(typename)]), typename);
    assert DirNamespace(o, d.children, typename) == Ok(ns);
    var own := Schema({typename}, {Field(owner, d.name, A.PlainDirConfig(typename))});
    assert DirBody(o, d, ns, owner) == Ok(Union(own, Empty));
    assert Union(own, Empty) == own;
  }

  /** A valid, dot-free directory without an `index` file is its body under the type
      named from the prefix and its own name. */
  lemma PlainDirIsBody(o: TypeOracle, a: RequireAstNode, prefix: string, owner: string)
    requires a.RequireDir? && A.IsValidName(a.name) && '.' !in a.name
    requires !("index" in a.children && a.children["index"].RequireFile?)
    ensures var ta := prefix + UpperFirst(a.name);
      CreateFields(o, a, prefix, owner) == DirBody(o, a, A.Namespace(Obj(map["type" := ObjectTC(ta)]), ta), owner)
  {
    A.PlainTypename(a.name, a.absPath);
  }

  /** The raw-name prefix: a directory `a` holding only an empty directory `b` (as
      `query/user/extended`) gives `b` the type `a` + `B` (`userExtended`), where the
      later builder gives it prefix + `A` + `B` (`QueryUserExtended`). */
  lemma RawNamePrefix(o: TypeOracle, a: RequireAstNode, b: RequireAstNode, prefix: string, owner: string)
    requires a.RequireDir? && b.RequireDir? && a.children == map[b.name := b] && b.children == map[]
    requires A.IsValidName(a.name) && '.' !in a.name && A.IsValidName(b.name) && '.' !in b.name
    ensures var ta := prefix + UpperFirst(a.name);
      var tb := a.name + UpperFirst(b.name);
      CreateFields(o, a, prefix, owner) ==
        Ok(Schema({ta, tb}, {Field(owner, a.name, A.PlainDirConfig(ta)), Field(ta, b.name, A.PlainDirConfig(tb))}))
  {
    var ta := prefix + UpperFirst(a.name);
    var tb := a.name + UpperFirst(b.name);
    var ns := A.Namespace(Obj(map["type" := ObjectTC(ta)]), ta);
    var inner := Schema({tb}, {Field(ta, b.name, A.PlainDirConfig(tb))});
    PlainDirIsBody(o, a, prefix, owner);
    EmptyDirFields(o, b, a.name, ta);
    OneChildSteps(o, a, a.name, ta, b.name, b, Ok(inner));
    OneChildBody(o, a, ns, owner, b.name, inner);
    TwoOfEach(ta, tb, Field(owner, a.name, A.PlainDirConfig(ta)), Field(ta, b.name, A.PlainDirConfig(tb)));
  }

  /** The steps of a directory with a single child. */
  lemma OneChildSteps(o: TypeOracle, a: RequireAstNode, prefix: string, owner: string, k: string, c: RequireAstNode, v: Outcome)
    requires a.RequireDir? && a.children == map[k := c]
    requires CreateFields(o, c, prefix, owner) == v
    ensures ChildSteps(o, a, prefix, owner) == map[k := v]
  {
    var steps := ChildSteps(o, a, prefix, owner);
    assert a.children.Keys == {k} && a.children[k] == c;
    OneStep(steps, k, v);
  }

  /** The body of a directory whose single child succeeds with `inner`. */
  lemma OneChildBody(o: TypeOracle, a: RequireAstNode, ns: A.Namespace, owner: string, k: string, inner: Schema)
    requires a.RequireDir?
    requires ChildSteps(o, a, a.name, ns.typeName) == map[k := Ok(inner)]
    ensures DirBody(o, a, ns, owner) ==
      Ok(Union(Schema({ns.typeName}, {Field(owner, a.name, A.DirFieldConfig(ns.config))}), inner))
  {
    CombineOne(ChildSteps(o, a, a.name, ns.typeName), k, inner);
  }

  /** Type names are checked for plain files too: a file `a..b` is an error here, while
      the later builder adds it as a field. */
  lemma FileDotsChecked(o: TypeOracle, f: RequireAstNode, prefix: string, owner: string)
    requires f.RequireFile? && A.IsValidName(f.name)
    requires !A.GetTypename(f.name, f.absPath).Ok?
    ensures CreateFields(o, f, prefix, owner) == Err({MisplacedDots(f.name, f.absPath)})
    ensures f.name != "index" && !EndsWith(f.name, ".index") && A.PrepareFieldConfig(o, f.code, f.absPath).Ok? ==>
      A.CreateFields(o, FileNode(f.name, f.absPath, f.code, Undefined), prefix, owner).Ok?
  {
  }
}

=== FILE: require_schema_directory.dfy ===
/** `requireSchemaDirectory`: the earlier loader. It reads the same kind of directory
    listing, but keeps `index` files as ordinary children, never filters directories or
    hidden names, and loads every file whose extension matches and which the
    `include`/`exclude` options let through, without checking its module. */
module RequireSchemaDirectory {
  import opened Results
  import opened Strings
  import opened JsValues
  import opened Ast
  import D = DirectoryToAst

  /** `rootType`, `dir` and `file` nodes of the earlier AST; a file keeps its module. */
  datatype RequireAstNode =
    | RequireRootType(name: string, absPath: string, children: map<string, RequireAstNode>)
    | RequireDir(name: string, absPath: string, children: map<string, RequireAstNode>)
    | RequireFile(name: string, absPath: string, code: JsValue)
  {
    predicate HasChildren() {
      !RequireFile?
    }

    function WithChildren(ch: map<string, RequireAstNode>): (r: RequireAstNode)
      requires HasChildren()
      ensures r.HasChildren() && r.children == ch
      ensures r.RequireRootType? == RequireRootType? && r.name == name && r.absPath == absPath
    {
      match this
      case RequireRootType(n, p, _) => RequireRootType(n, p, ch)
      case RequireDir(n, p, _) => RequireDir(n, p, ch)
    }
  }

  /** The result: the root-type node of each operation found. */
  datatype RequireAstResult = RequireAstResult(roots: map<Operation, RequireAstNode>)

  /** The `include` / `exclude` option: absent, a RegExp tested against the absolute
      path, or a callback `(path, filename)`. */
  datatype Filter =
    | NoFilter
    | Pattern(test: string -> bool)
    | Predicate(accept: (string, string) -> bool)

  /** Options; `extensions` is `None` when the caller left it undefined. */
  datatype Options = Options(extensions: Option<seq<string>>, includeFilter: Filter, excludeFilter: Filter)

  /** The node module the loader runs for, its options, and how `children[key]` is read. */
  datatype Requirer = Requirer(callerFile: string, options: Options, lookup: KeyLookup)

  /** "You have a folder and file with same name …". */
  datatype RequireError = FolderFileClash(name: string, path: string)

  /** The default-filling loop over `defaultOptions`: only `extensions` has a default. */
  function WithDefaults(o: Options): (r: Options)
    ensures r.extensions.Some?
    ensures o.extensions.Some? ==> r == o
    ensures o.extensions.None? ==> r.extensions == Some(D.DefaultExtensions)
    ensures r.includeFilter == o.includeFilter && r.excludeFilter == o.excludeFilter
  {
    if o.extensions.None? then o.(extensions := Some(D.DefaultExtensions)) else o
  }

  predicate IncludeAccepts(f: Filter, absPath: string, filename: string) {
    match f
    case NoFilter => true
    case Pattern(test) => test(absPath)
    case Predicate(accept) => accept(absPath, filename)
  }

  predicate ExcludeRejects(f: Filter, absPath: string, filename: string) {
    match f
    case NoFilter => false
    case Pattern(test) => test(absPath)
    case Predicate(accept) => accept(absPath, filename)
  }

  /** `checkFileInclusion`: the extension pattern (ignoring case), then each of the four
      RegExp / function tests of `include` and `exclude`. */
  function CheckFileInclusion(absPath: string, filename: string, o: Options): (r: bool)
    ensures r <==>
      && D.HasExtension(filename, o.extensions.GetOr(D.DefaultExtensions))
      && IncludeAccepts(o.includeFilter, absPath, filename)
      && !ExcludeRejects(o.excludeFilter, absPath, filename)
  {
    && D.HasExtension(filename, o.extensions.GetOr(D.DefaultExtensions))
    && !(o.includeFilter.Pattern? && !o.includeFilter.test(absPath))
    && !(o.includeFilter.Predicate? && !o.includeFilter.accept(absPath, filename))
    && !(o.excludeFilter.Pattern? && o.excludeFilter.test(absPath))
    && !(o.excludeFilter.Predicate? && o.excludeFilter.accept(absPath, filename))
  }

  /** `requireSubDirectory`: a `dir` node named after the path, holding the listing's
      entries in order (the options get their defaults first). */
  function RequireSubDirectory(l: Requirer, path: string, entries: seq<D.Entry>): (r: Result<RequireAstNode, RequireError>)
    decreases entries, 2
    ensures r.Ok? ==> r.value.RequireDir? && r.value.name == Basename(path) && r.value.absPath == path
    ensures r.Ok? ==> r.value.children.Keys == EntryKeys(l, path, entries, 0)
  {
    var withDefaults := l.(options := WithDefaults(l.options));
    EntryKeysDefaults(l, path, entries);
    AddEntries(withDefaults, RequireDir(Basename(path), path, map[]), entries, 0)
  }

  /** The key an entry of the directory at `dirPath` is stored under, if it is stored at
      all: a sub-directory under its name, a file that is not the caller's own and passes
      `checkFileInclusion` under its name without the last extension. */
  function EntryKey(l: Requirer, dirPath: string, e: D.Entry): Option<string> {
    match e
    case DirEntry(name, _) => Some(name)
    case FileEntry(name, _) =>
      if JoinPath(dirPath, name) != l.callerFile && CheckFileInclusion(JoinPath(dirPath, name), name, l.options) then
        Some(StripExtension(name))
      else None
    case OtherEntry(_) => None
  }

  /** The keys the entries from position `i` on are stored under. */
  function EntryKeys(l: Requirer, dirPath: string, entries: seq<D.Entry>, i: nat): set<string>
    requires i <= |entries|
  {
    set j | i <= j < |entries| && EntryKey(l, dirPath, entries[j]).Some? :: EntryKey(l, dirPath, entries[j]).value
  }

  lemma EntryKeysStep(l: Requirer, dirPath: string, entries: seq<D.Entry>, i: nat)
    requires i < |entries|
    ensures EntryKeys(l, dirPath, entries, i) ==
      (if EntryKey(l, dirPath, entries[i]).Some? then {EntryKey(l, dirPath, entries[i]).value} else {}) + EntryKeys(l, dirPath, entries, i + 1)
  {
  }

  /** Filling in defaults does not change which entries are stored. */
  lemma EntryKeysDefaults(l: Requirer, dirPath: string, entries: seq<D.Entry>)
    ensures EntryKeys(l.(options := WithDefaults(l.options)), dirPath, entries, 0) == EntryKeys(l, dirPath, entries, 0)
  {
    forall j | 0 <= j < |entries|
      ensures EntryKey(l.(options := WithDefaults(l.options)), dirPath, entries[j]) == EntryKey(l, dirPath, entries[j])
    {
      DefaultsKeepFileInclusion(JoinPath(dirPath, entries[j].name), entries[j].name, l.options);
    }
  }

  /** The `forEach` over a directory's entries, from position `i` on. */
  function AddEntries(l: Requirer, acc: RequireAstNode, entries: seq<D.Entry>, i: nat): (r: Result<RequireAstNode, RequireError>)
    requires acc.RequireDir? && i <= |entries|
    decreases entries, 1, |entries| - i
    ensures r.Ok? ==> r.value.RequireDir? && r.value.name == acc.name && r.value.absPath == acc.absPath
    ensures r.Ok? ==> r.value.children.Keys == acc.children.Keys + EntryKeys(l, acc.absPath, entries, i)
    ensures i == |entries| ==> r == Ok(acc)
  {
    if i == |entries| then Ok(acc)
    else
      var next :- AddEntry(l, acc, entries[i]);
      EntryKeysStep(l, acc.absPath, entries, i);
      AddEntries(l, next, entries, i + 1)
  }

  /** One entry: a sub-directory is always loaded and stored under its name; a file that
      is not the caller's own and passes `checkFileInclusion` is stored under its name
      without the last extension (`index` included); a name already taken is an error. */
  function AddEntry(l: Requirer, acc: RequireAstNode, e: D.Entry): (r: Result<RequireAstNode, RequireError>)
    requires acc.RequireDir?
    decreases e, 0
    ensures r.Ok? ==> r.value.RequireDir? && r.value.name == acc.name && r.value.absPath == acc.absPath
    ensures r.Ok? ==> r.value.children.Keys == acc.children.Keys + (if EntryKey(l, acc.absPath, e).Some? then {EntryKey(l, acc.absPath, e).value} else {})
    ensures e.DirEntry? && HasKey(acc.children, e.name, l.lookup) ==> r == Err(FolderFileClash(e.name, acc.absPath))
    ensures e.DirEntry? && r.Ok? ==>
      && e.name in r.value.children
      && r.value.children == acc.children[e.name := r.value.children[e.name]]
      && r.value.children[e.name].RequireDir?
      && r.value.children[e.name].absPath == JoinPath(acc.absPath, e.name)
    ensures e.DirEntry? && !HasKey(acc.children, e.name, l.lookup) ==>
      var s := RequireSubDirectory(l, JoinPath(acc.absPath, e.name), e.entries);
      && (s.Err? ==> r == Err(s.error))
      && (s.Ok? ==> r == Ok(acc.WithChildren(acc.children[e.name := s.value])))
    ensures e.FileEntry? && !CheckFileInclusion(JoinPath(acc.absPath, e.name), e.name, l.options) ==> r == Ok(acc)
    ensures e.FileEntry? && JoinPath(acc.absPath, e.name) == l.callerFile ==> r == Ok(acc)
    ensures e.FileEntry? && JoinPath(acc.absPath, e.name) != l.callerFile
            && CheckFileInclusion(JoinPath(acc.absPath, e.name), e.name, l.options) ==>
      var moduleName := StripExtension(e.name);
      if HasKey(acc.children, moduleName, l.lookup) then r == Err(FolderFileClash(moduleName, acc.absPath))
      else r == Ok(acc.WithChildren(acc.children[moduleName := RequireFile(moduleName, JoinPath(acc.absPath, e.name), e.exports)]))
    ensures e.OtherEntry? ==> r == Ok(acc)
  {
    match e
    case DirEntry(filename, entries) =>
      if HasKey(acc.children, filename, l.lookup) then Err(FolderFileClash(filename, acc.absPath))
      else
        var sub :- RequireSubDirectory(l, JoinPath(acc.absPath, filename), entries);
        Ok(acc.WithChildren(acc.children[filename := sub]))
    case FileEntry(filename, exports) =>
      var absPath := JoinPath(acc.absPath, filename);
      if absPath != l.callerFile && CheckFileInclusion(absPath, filename, l.options) then
        var moduleName := StripExtension(filename);
        if HasKey(acc.children, moduleName, l.lookup) then Err(FolderFileClash(moduleName, acc.absPath))
        else Ok(acc.WithChildren(acc.children[moduleName := RequireFile(moduleName, absPath, exports)]))
      else Ok(acc)
    case OtherEntry(_) => Ok(acc)
  }

  /** What an entry fails with, if it fails, when the names in `keys` are already
      taken: a sub-directory whose name is taken clashes before it is read, and
      otherwise fails as its own listing does; a stored file clashes when its name
      without the extension is taken; nothing else fails. */
  function EntryError(l: Requirer, dirPath: string, keys: set<string>, e: D.Entry): Option<RequireError> {
    match e
    case DirEntry(name, entries) =>
      if KeyTaken(keys, name, l.lookup) then Some(FolderFileClash(name, dirPath))
      else
        var s := RequireSubDirectory(l, JoinPath(dirPath, name), entries);
        if s.Err? then Some(s.error) else None
    case FileEntry(_, _) =>
      var key := EntryKey(l, dirPath, e);
      if key.Some? && KeyTaken(keys, key.value, l.lookup) then Some(FolderFileClash(key.value, dirPath)) else None
    case OtherEntry(_) => None
  }

  /** The keys stored by the entries at positions `i` up to `j`. */
  function EntryKeysBetween(l: Requirer, dirPath: string, entries: seq<D.Entry>, i: nat, j: nat): set<string>
    requires i <= j <= |entries|
  {
    set k | i <= k < j && EntryKey(l, dirPath, entries[k]).Some? :: EntryKey(l, dirPath, entries[k]).value
  }

  lemma EntryKeysBetweenStep(l: Requirer, dirPath: string, entries: seq<D.Entry>, i: nat, j: nat)
    requires i < j <= |entries|
    ensures EntryKeysBetween(l, dirPath, entries, i, j) ==
      (if EntryKey(l, dirPath, entries[i]).Some? then {EntryKey(l, dirPath, entries[i]).value} else {}) + EntryKeysBetween(l, dirPath, entries, i + 1, j)
  {
  }

  /** Entry `j` of the listing, reached from position `i` with `keys` taken, against the
      names taken by then. */
  function EntryErrorAt(l: Requirer, dirPath: string, keys: set<string>, entries: seq<D.Entry>, i: nat, j: nat): Option<RequireError>
    requires i <= j < |entries|
  {
    EntryError(l, dirPath, keys + EntryKeysBetween(l, dirPath, entries, i, j), entries[j])
  }

  /** No entry from position `i` on fails. */
  predicate EntriesLoad(l: Requirer, dirPath: string, keys: set<string>, entries: seq<D.Entry>, i: nat)
    requires i <= |entries|
  {
    forall j | i <= j < |entries| :: EntryErrorAt(l, dirPath, keys, entries, i, j).None?
  }

  /** Entry `j` is the first from position `i` on that fails. */
  predicate FailsFirstAt(l: Requirer, dirPath: string, keys: set<string>, entries: seq<D.Entry>, i: nat, j: nat)
    requires i <= |entries|
  {
    && i <= j < |entries|
    && (forall k | i <= k < j :: EntryErrorAt(l, dirPath, keys, entries, i, k).None?)
    && EntryErrorAt(l, dirPath, keys, entries, i, j).Some?
  }

  /** One entry succeeds exactly when `EntryError` finds nothing, and fails with what it finds. */
  lemma AddEntryOutcome(l: Requirer, acc: RequireAstNode, e: D.Entry)
    requires acc.RequireDir?
    ensures AddEntry(l, acc, e).Ok? <==> EntryError(l, acc.absPath, acc.children.Keys, e).None?
    ensures AddEntry(l, acc, e).Err? ==> AddEntry(l, acc, e).error == EntryError(l, acc.absPath, acc.children.Keys, e).value
  {
  }

  /** The fold over a listing, from position `i` on: it succeeds iff no entry fails
      against the names taken before it, and otherwise fails with the first failing
      entry's error. On success every child already there is kept, every sub-directory
      holds what its own listing loads, and every stored file is the file node. */
  lemma {:induction false} AddEntriesOutcome(l: Requirer, acc: RequireAstNode, entries: seq<D.Entry>, i: nat)
    requires acc.RequireDir? && i <= |entries|
    decreases |entries| - i
    ensures AddEntries(l, acc, entries, i).Ok? <==> EntriesLoad(l, acc.absPath, acc.children.Keys, entries, i)
    ensures forall j | FailsFirstAt(l, acc.absPath, acc.children.Keys, entries, i, j) ::
      AddEntries(l, acc, entries, i) == Err(EntryErrorAt(l, acc.absPath, acc.children.Keys, entries, i, j).value)
    ensures AddEntries(l, acc, entries, i).Ok? ==> StoresEntries(l, acc, entries, i, AddEntries(l, acc, entries, i).value)
  {
    if i < |entries| {
      var s := AddEntry(l, acc, entries[i]);
      AddEntryOutcome(l, acc, entries[i]);
      FirstEntryError(l, acc.absPath, acc.children.Keys, entries, i);
      if s.Ok? {
        var next := s.value;
        AddEntriesOutcome(l, next, entries, i + 1);
        ShiftedErrors(l, acc.absPath, acc.children.Keys, next.children.Keys, entries, i);
        var r := AddEntries(l, next, entries, i + 1);
        assert AddEntries(l, acc, entries, i) == r;
        if r.Ok? {
          StoresStep(l, acc, entries, i, next, r.value);
        }
      }
    }
  }

  /** `requireSubDirectory` in terms of its entries, with the options' defaults filled
      in: it succeeds iff no entry fails against the names taken before it, fails with
      the first failing entry's error, and on success stores every sub-directory as its
      own listing loads and every included file as its node. */
  lemma RequireSubDirectoryOutcome(l: Requirer, path: string, entries: seq<D.Entry>)
    ensures var ld, r := l.(options := WithDefaults(l.options)), RequireSubDirectory(l, path, entries);
      && (r.Ok? <==> EntriesLoad(ld, path, {}, entries, 0))
      && (forall j | FailsFirstAt(ld, path, {}, entries, 0, j) :: r == Err(EntryErrorAt(ld, path, {}, entries, 0, j).value))
      && (r.Ok? ==> StoresEntries(ld, RequireDir(Basename(path), path, map[]), entries, 0, r.value))
  {
    var ld, acc := l.(options := WithDefaults(l.options)), RequireDir(Basename(path), path, map[]);
    assert RequireSubDirectory(l, path, entries) == AddEntries(ld, acc, entries, 0);
    assert acc.children.Keys == {};
    AddEntriesOutcome(ld, acc, entries, 0);
  }

  /** Entry `i`, reached from position `i`, meets only the names taken before the fold. */
  lemma FirstEntryError(l: Requirer, dirPath: string, keys: set<string>, entries: seq<D.Entry>, i: nat)
    requires i < |entries|
    ensures EntryErrorAt(l, dirPath, keys, entries, i, i) == EntryError(l, dirPath, keys, entries[i])
    ensures EntryErrorAt(l, dirPath, keys, entries, i, i).Some? ==>
      !EntriesLoad(l, dirPath, keys, entries, i) && forall j | FailsFirstAt(l, dirPath, keys, entries, i, j) :: j == i
  {
    assert EntryKeysBetween(l, dirPath, entries, i, i) == {};
  }

  /** Once entry `i` has stored its key, the rest of the fold sees the same names
      whether counted from `i` or from `i + 1`. */
  lemma ShiftedErrors(l: Requirer, dirPath: string, keys: set<string>, nextKeys: set<string>, entries: seq<D.Entry>, i: nat)
    requires i < |entries| && EntryErrorAt(l, dirPath, keys, entries, i, i).None?
    requires nextKeys == keys + (if EntryKey(l, dirPath, entries[i]).Some? then {EntryKey(l, dirPath, entries[i]).value} else {})
    ensures EntriesLoad(l, dirPath, keys, entries, i) <==> EntriesLoad(l, dirPath, nextKeys, entries, i + 1)
    ensures forall j | FailsFirstAt(l, dirPath, keys, entries, i, j) ::
      FailsFirstAt(l, dirPath, nextKeys, entries, i + 1, j) &&
      EntryErrorAt(l, dirPath, keys, entries, i, j) == EntryErrorAt(l, dirPath, nextKeys, entries, i + 1, j)
  {
    forall j | i + 1 <= j < |entries|
      ensures EntryErrorAt(l, dirPath, keys, entries, i, j) == EntryErrorAt(l, dirPath, nextKeys, entries, i + 1, j)
    {
      SameTakenNames(l, dirPath, keys, nextKeys, entries, i, j);
    }
    ShiftedLoads(l, dirPath, keys, nextKeys, entries, i);
  }

  lemma SameTakenNames(l: Requirer, dirPath: string, keys: set<string>, nextKeys: set<string>, entries: seq<D.Entry>, i: nat, j: nat)
    requires i < j < |entries|
    requires nextKeys == keys + (if EntryKey(l, dirPath, entries[i]).Some? then {EntryKey(l, dirPath, entries[i]).value} else {})
    ensures EntryErrorAt(l, dirPath, keys, entries, i, j) == EntryErrorAt(l, dirPath, nextKeys, entries, i + 1, j)
  {
    EntryKeysBetweenStep(l, dirPath, entries, i, j);
    assert keys + EntryKeysBetween(l, dirPath, entries, i, j) == nextKeys + EntryKeysBetween(l, dirPath, entries, i + 1, j);
  }

  lemma ShiftedLoads(l: Requirer, dirPath: string, keys: set<string>, nextKeys: set<string>, entries: seq<D.Entry>, i: nat)
    requires i < |entries| && EntryErrorAt(l, dirPath, keys, entries, i, i).None?
    requires forall j | i + 1 <= j < |entries| ::
      EntryErrorAt(l, dirPath, keys, entries, i, j) == EntryErrorAt(l, dirPath, nextKeys, entries, i + 1, j)
    ensures EntriesLoad(l, dirPath, keys, entries, i) <==> EntriesLoad(l, dirPath, nextKeys, entries, i + 1)
    ensures forall j | FailsFirstAt(l, dirPath, keys, entries, i, j) ::
      FailsFirstAt(l, dirPath, nextKeys, entries, i + 1, j) &&
      EntryErrorAt(l, dirPath, keys, entries, i, j) == EntryErrorAt(l, dirPath, nextKeys, entries, i + 1, j)
  {
    var i1 := i + 1;
    if EntriesLoad(l, dirPath, keys, entries, i) {
      forall j | i1 <= j < |entries| ensures EntryErrorAt(l, dirPath, nextKeys, entries, i1, j).None? {
        assert EntryErrorAt(l, dirPath, keys, entries, i, j).None?;
      }
    }
    if EntriesLoad(l, dirPath, nextKeys, entries, i + 1) {
      forall j | i <= j < |entries| ensures EntryErrorAt(l, dirPath, keys, entries, i, j).None? {
        if j > i {
          assert EntryErrorAt(l, dirPath, nextKeys, entries, i + 1, j).None?;
        }
      }
    }
    forall j | FailsFirstAt(l, dirPath, keys, entries, i, j)
      ensures FailsFirstAt(l, dirPath, nextKeys, entries, i + 1, j)
    {
      forall k | i1 <= k < j ensures EntryErrorAt(l, dirPath, nextKeys, entries, i1, k).None? {
        assert EntryErrorAt(l, dirPath, keys, entries, i, k).None?;
      }
    }
  }

  /** What a successful fold from position `i` stores in `d`: every child of `acc` as it
      was; every sub-directory as its own listing loads; every stored file as its node. */
  ghost predicate StoresEntries(l: Requirer, acc: RequireAstNode, entries: seq<D.Entry>, i: nat, d: RequireAstNode)
    requires acc.HasChildren() && d.HasChildren() && i <= |entries|
  {
    && (forall k | k in acc.children :: k in d.children && d.children[k] == acc.children[k])
    && (forall j | i <= j < |entries| && entries[j].DirEntry? ::
          && entries[j].name in d.children
          && RequireSubDirectory(l, JoinPath(acc.absPath, entries[j].name), entries[j].entries) == Ok(d.children[entries[j].name]))
    && (forall j | i <= j < |entries| && entries[j].FileEntry? && EntryKey(l, acc.absPath, entries[j]).Some? ::
          var key := EntryKey(l, acc.absPath, entries[j]).value;
          key in d.children && d.children[key] == RequireFile(key, JoinPath(acc.absPath, entries[j].name), entries[j].exports))
  }

  lemma StoresStep(l: Requirer, acc: RequireAstNode, entries: seq<D.Entry>, i: nat, next: RequireAstNode, d: RequireAstNode)
    requires acc.RequireDir? && i < |entries| && AddEntry(l, acc, entries[i]) == Ok(next)
    requires next.HasChildren() && d.HasChildren() && next.absPath == acc.absPath
    requires StoresEntries(l, next, entries, i + 1, d)
    ensures StoresEntries(l, acc, entries, i, d)
  {
  }

  /** The root types collected so far, each under its operation. */
  predicate RootTypesOk(acc: map<Operation, RequireAstNode>) {
    forall op | op in acc :: acc[op].RequireRootType? && acc[op].name == OperationKey(op)
  }

  /** One top-level entry: an operation directory creates its root type (if not there
      yet); `query.X` then adds the loaded directory as child `X` named `X`, while a bare
      `query` (or `query.`) replaces the root type's children with the directory's. */
  function AddRootEntry(l: Requirer, schemaPath: string, acc: map<Operation, RequireAstNode>, e: D.Entry): (r: Result<map<Operation, RequireAstNode>, RequireError>)
    requires RootTypesOk(acc)
    ensures r.Ok? ==> RootTypesOk(r.value)
    ensures !e.DirEntry? || D.MatchOperationDir(e.name).None? ==> r == Ok(acc)
    ensures r.Ok? ==> r.value.Keys == acc.Keys + (if OperationOf(e).Some? then {OperationOf(e).value} else {})
    ensures r.Ok? <==> (OperationOf(e).Some? ==> RequireSubDirectory(l, JoinPath(schemaPath, e.name), e.entries).Ok?)
    ensures e.DirEntry? && D.MatchOperationDir(e.name).Some? ==>
      r == AddOperationDir(l, JoinPath(schemaPath, e.name), acc, D.MatchOperationDir(e.name).value.0, D.MatchOperationDir(e.name).value.1, e.entries)
  {
    match e
    case DirEntry(filename, entries) =>
      var found := D.MatchOperationDir(filename);
      if found.None? then Ok(acc)
      else AddOperationDir(l, JoinPath(schemaPath, filename), acc, found.value.0, found.value.1, entries)
    case _ => Ok(acc)
  }

  /** The root type an operation directory goes into: the one already there, or a new,
      empty one at the directory's path. */
  function RootFor(acc: map<Operation, RequireAstNode>, op: Operation, absPath: string): (r: RequireAstNode)
    requires RootTypesOk(acc)
    ensures r.RequireRootType? && r.name == OperationKey(op)
    ensures op in acc ==> r == acc[op]
    ensures op !in acc ==> r.absPath == absPath && r.children == map[]
  {
    if op in acc then acc[op] else RequireRootType(OperationKey(op), absPath, map[])
  }

  /** An operation directory: its root type is created if not there yet; `query.X` then
      adds the loaded directory as child `X` named `X`, while a bare `query` (or
      `query.`) replaces the root type's children with the directory's. */
  function AddOperationDir(l: Requirer, absPath: string, acc: map<Operation, RequireAstNode>, op: Operation, subField: string, entries: seq<D.Entry>): (r: Result<map<Operation, RequireAstNode>, RequireError>)
    requires RootTypesOk(acc)
    ensures r.Ok? ==> RootTypesOk(r.value)
    ensures r.Ok? <==> RequireSubDirectory(l, absPath, entries).Ok?
    ensures r.Ok? ==>
      var sub := RequireSubDirectory(l, absPath, entries).value;
      var root := RootFor(acc, op, absPath);
      && r.value.Keys == acc.Keys + {op}
      && r.value == acc[op := r.value[op]]
      && r.value[op].absPath == root.absPath
      && r.value[op].children ==
           if subField != "" then root.children[subField := RequireDir(subField, absPath, sub.children)]
           else sub.children
  {
    var root := RootFor(acc, op, absPath);
    var sub :- RequireSubDirectory(l, absPath, entries);
    var children :=
      if subField != "" then root.children[subField := RequireDir(subField, absPath, sub.children)]
      else sub.children;
    Ok(acc[op := root.WithChildren(children)])
  }

  function AddRootEntries(l: Requirer, schemaPath: string, acc: map<Operation, RequireAstNode>, listing: seq<D.Entry>, i: nat): (r: Result<map<Operation, RequireAstNode>, RequireError>)
    requires RootTypesOk(acc) && i <= |listing|
    decreases |listing| - i
    ensures r.Ok? ==> RootTypesOk(r.value) && r.value.Keys == acc.Keys + ListedOperations(listing, i)
  {
    if i == |listing| then Ok(acc)
    else
      var next :- AddRootEntry(l, schemaPath, acc, listing[i]);
      ListedOperationsStep(listing, i);
      AddRootEntries(l, schemaPath, next, listing, i + 1)
  }

  /** The fold fails exactly when one of the remaining operation directories does. */
  lemma {:induction false} AddRootEntriesLoads(l: Requirer, schemaPath: string, acc: map<Operation, RequireAstNode>, listing: seq<D.Entry>, i: nat)
    requires RootTypesOk(acc) && i <= |listing|
    ensures AddRootEntries(l, schemaPath, acc, listing, i).Ok? <==> OperationDirsLoad(l, schemaPath, listing, i)
    decreases |listing| - i
  {
    if i < |listing| {
      OperationDirsLoadStep(l, schemaPath, listing, i);
      var next := AddRootEntry(l, schemaPath, acc, listing[i]);
      if next.Ok? {
        AddRootEntriesLoads(l, schemaPath, next.value, listing, i + 1);
      }
    }
  }

  /** Every operation directory from position `i` on loads without error. */
  predicate OperationDirsLoad(l: Requirer, schemaPath: string, listing: seq<D.Entry>, i: nat)
    requires i <= |listing|
  {
    forall j | i <= j < |listing| && OperationOf(listing[j]).Some? ::
      RequireSubDirectory(l, JoinPath(schemaPath, listing[j].name), listing[j].entries).Ok?
  }

  lemma OperationDirsLoadStep(l: Requirer, schemaPath: string, listing: seq<D.Entry>, i: nat)
    requires i < |listing|
    ensures OperationDirsLoad(l, schemaPath, listing, i) <==>
      && (OperationOf(listing[i]).Some? ==> RequireSubDirectory(l, JoinPath(schemaPath, listing[i].name), listing[i].entries).Ok?)
      && OperationDirsLoad(l, schemaPath, listing, i + 1)
  {
  }

  /** The operation a top-level entry names, when it is an operation directory. */
  function OperationOf(e: D.Entry): Option<Operation> {
    if e.DirEntry? && D.MatchOperationDir(e.name).Some? then Some(D.MatchOperationDir(e.name).value.0) else None
  }

  /** The operations named by the entries from position `i` on. */
  function ListedOperations(listing: seq<D.Entry>, i: nat): set<Operation>
    requires i <= |listing|
  {
    set j | i <= j < |listing| && OperationOf(listing[j]).Some? :: OperationOf(listing[j]).value
  }

  lemma ListedOperationsStep(listing: seq<D.Entry>, i: nat)
    requires i < |listing|
    ensures ListedOperations(listing, i) ==
      (if OperationOf(listing[i]).Some? then {OperationOf(listing[i]).value} else {}) + ListedOperations(listing, i + 1)
  {
  }

  /** `requireSchemaDirectory` over the listing of the schema directory: a root type for
      exactly the operations whose directories the listing holds; it fails exactly when
      loading one of those directories does. */
  function RequireSchemaDirectoryOf(l: Requirer, schemaPath: string, listing: seq<D.Entry>): (r: Result<RequireAstResult, RequireError>)
    ensures r.Ok? ==> RootTypesOk(r.value.roots) && r.value.roots.Keys == ListedOperations(listing, 0)
    ensures r.Ok? <==> OperationDirsLoad(l, schemaPath, listing, 0)
  {
    AddRootEntriesLoads(l, schemaPath, map[], listing, 0);
    var roots :- AddRootEntries(l, schemaPath, map[], listing, 0);
    Ok(RequireAstResult(roots))
  }

  // ---------------------------------------------------------------------------------
  // Properties

  /** Filling in defaults does not change which files are included. */
  lemma DefaultsKeepFileInclusion(absPath: string, filename: string, o: Options)
    ensures CheckFileInclusion(absPath, filename, WithDefaults(o)) == CheckFileInclusion(absPath, filename, o)
  {
  }

  /** Unlike the later loader, hidden and test files are loaded: a `__`-prefixed file
      with a `.ts` extension is skipped by `checkInclusion` but passes
      `checkFileInclusion` when no filters are set. */
  lemma HiddenFilesIncluded(absPath: string, base: string)
    ensures var f := "__" + base + ".ts";
      && !D.CheckInclusion(absPath, FileKind, f, D.DefaultOptions)
      && CheckFileInclusion(absPath, f, Options(None, NoFilter, NoFilter))
  {
    var stem := "__" + base;
    var f := stem + ".ts";
    assert f == "__" + base + ".ts";
    assert StartsWith(f, "__") by {
      assert f[..2] == "__";
    }
    TsExtension(stem);
  }

  /** Any name ending in `.ts` has one of the default extensions. */
  lemma TsExtension(stem: string)
    ensures D.HasExtension(stem + ".ts", D.DefaultExtensions)
  {
    var f := stem + ".ts";
    D.DefaultExtensionTest(f);
    ToLowerAppend(stem, ".ts");
    ToLowerOfLower(".ts");
    var low := ToLower(stem);
    assert ToLower(f) == low + ".ts";
    assert (low + ".ts")[|low|..] == ".ts";
  }

  /** A file named `index` is stored as an ordinary child under `index`. */
  lemma IndexFileKept(l: Requirer, acc: RequireAstNode, ext: string, code: JsValue)
    requires acc.RequireDir? && !HasKey(acc.children, "index", l.lookup)
    requires '.' !in ext && '/' !in ext
    requires JoinPath(acc.absPath, "index." + ext) != l.callerFile
    requires CheckFileInclusion(JoinPath(acc.absPath, "index." + ext), "index." + ext, l.options)
    ensures var r := AddEntry(l, acc, D.FileEntry("index." + ext, code));
      && r.Ok?
      && "index" in r.value.children
      && r.value.children["index"] == RequireFile("index", JoinPath(acc.absPath, "index." + ext), code)
  {
    assert "index" + "." + ext == "index." + ext;
    StripExtensionOf("index", ext);
  }

  /** Two included files with the same name before the extension (`a.ts`, `a.js`) in one
      directory are an error. */
  lemma SameModuleNameClashes(l: Requirer, acc: RequireAstNode, x: string, y: string, mx: JsValue, my: JsValue)
    requires acc.RequireDir? && !HasKey(acc.children, StripExtension(x), l.lookup)
    requires StripExtension(x) == StripExtension(y)
    requires JoinPath(acc.absPath, x) != l.callerFile && CheckFileInclusion(JoinPath(acc.absPath, x), x, l.options)
    requires JoinPath(acc.absPath, y) != l.callerFile && CheckFileInclusion(JoinPath(acc.absPath, y), y, l.options)
    ensures AddEntries(l, acc, [D.FileEntry(x, mx), D.FileEntry(y, my)], 0) == Err(FolderFileClash(StripExtension(x), acc.absPath))
  {
    var entries := [D.FileEntry(x, mx), D.FileEntry(y, my)];
    var name := StripExtension(x);
    var acc1 := acc.WithChildren(acc.children[name := RequireFile(name, JoinPath(acc.absPath, x), mx)]);
    assert AddEntry(l, acc, entries[0]) == Ok(acc1);
    assert AddEntry(l, acc1, entries[1]) == Err(FolderFileClash(name, acc.absPath));
  }
}

=== FILE: require_to_schema.dfy ===
/** `requireToSchema`: the first schema builder, over the AST of `requireSchemaDirectory`.
    It checks no names, derives a directory's name by running its dotted parts together,
    names a directory's type after the name its parent passed down (the root type name,
    or the parent's derived name), and hands each child the type value found in the
    directory's `index` default as its parent, whatever that value is. */
module RequireToSchema {
  import opened Results
  import opened Strings
  import opened JsValues
  import opened Ast
  import opened Registry
  import opened RequireSchemaDirectory
  import A = AstToSchema

  /** A string holding the separator splits into at least two pieces. */
  lemma SeparatedSplits(s: string, sep: char)
    requires sep in s
    ensures |Split(s, sep)| >= 2
  {
    JoinSplit(s, sep);
  }

  /** The name a directory goes by: a name without dots as it is, a dotted one as its
      parts with each first letter upper-cased, run together. The one-part branch of the
      source is dead, since a name holding a dot splits into two parts or more. */
  function DerivedName(name: string): (r: string)
    ensures IndexOf(name, '.') == -1 ==> r == name
    ensures IndexOf(name, '.') != -1 ==> r == JoinMapped(UpperFirst, Split(name, '.'))
  {
    if IndexOf(name, '.') == -1 then name
    else
      var parts := Split(name, '.');
      SeparatedSplits(name, '.');
      if |parts| == 1 then assert false; name
      else JoinMapped(UpperFirst, parts)
  }

  /** Where the later builders accept a dotted name, both derive the same name. */
  lemma DerivedNameAgrees(name: string, absPath: string)
    requires '.' in name && A.GetTypename(name, absPath).Ok?
    ensures DerivedName(name) == A.GetTypename(name, absPath).value
  {
  }

  /** Empty parts are run together too: `a..b` goes by `AB`, where the later builders
      reject the name. */
  lemma EmptyPartsAccepted(a: string, b: string, absPath: string)
    requires '.' !in a && '.' !in b
    ensures DerivedName(a + ".." + b) == UpperFirst(a) + UpperFirst(b)
    ensures A.GetTypename(a + ".." + b, absPath).Err?
  {
    var s := a + ".." + b;
    DoubleDotSplit(a, b);
    assert s[|a|] == '.';
    assert IndexOf(s, '.') != -1;
    assert JoinMapped(UpperFirst, [a, "", b]) == UpperFirst(a) + UpperFirst(b) by {
      assert [b][1..] == [];
      assert JoinMapped(UpperFirst, [b]) == UpperFirst(b);
      assert ["", b][1..] == [b];
      assert JoinMapped(UpperFirst, ["", b]) == UpperFirst("") + UpperFirst(b);
      assert [a, "", b][1..] == ["", b];
    }
    assert "" in Split(s, '.');
  }

  /** The three pieces of `a..b`. */
  lemma DoubleDotSplit(a: string, b: string)
    requires '.' !in a && '.' !in b
    ensures Split(a + ".." + b, '.') == [a, "", b]
  {
    var t := ['.'] + b;
    SplitFree(b, '.');
    SplitPrefix("", b, '.');
    assert "" + t == t;
    assert Split(t, '.') == ["", b];
    SplitPrefix(a, t, '.');
    assert a + ".." + b == a + (['.'] + t);
  }

  /** The parent a child's fields go to: the composer of a named object type, or a value
      that is not an `ObjectTypeComposer`. */
  function OwnerOf(t: JsValue): (r: Option<string>)
    ensures r.Some? <==> t.Instance? && t.cls == ObjectTypeComposerClass
  {
    if t.Instance? && t.cls == ObjectTypeComposerClass then Some(t.typeName) else None
  }

  /** A directory's `typeDefs`: its config with `type` settled, the parent its children
      get, and the object types created for it. */
  datatype TypeDefs = TypeDefs(config: JsValue, owner: Option<string>, created: set<string>)

  /** The `index` file's default export when the directory has such a file and the
      export is truthy, else `{}`. */
  function IndexDefault(children: map<string, RequireAstNode>): (r: JsValue)
    ensures Truthy(r)
    ensures !("index" in children && children["index"].RequireFile? && Truthy(Get(children["index"].code, "default"))) ==> r == Obj(map[])
  {
    if "index" in children && children["index"].RequireFile? then
      var d := Get(children["index"].code, "default");
      if Truthy(d) then d else Obj(map[])
    else Obj(map[])
  }

  /** The type of a directory's field: a string in `typeDefs.type` becomes a new object
      type of the name it defines; another truthy value is kept as it is; no value means
      a new object type named after the name passed down and the directory's own. A
      `typeDefs` that is not an object cannot take a `type`. */
  function DirTypeDefs(o: TypeOracle, n: RequireAstNode, suffix: string): (r: Result<TypeDefs, SchemaError>)
    requires n.RequireDir?
    ensures var d := IndexDefault(n.children);
      && (r.Err? <==> !(d.Obj? || d.Instance?))
      && (r.Err? ==> r.error == NamespaceNotObject(n.absPath))
      && (r.Ok? ==> forall k | k != "type" :: Get(r.value.config, k) == Get(d, k))
    ensures r.Ok? ==> var t := Get(IndexDefault(n.children), "type");
      && (!Truthy(t) ==> var name := suffix + UpperFirst(DerivedName(n.name));
            r.value.owner == Some(name) && r.value.created == {name} && Get(r.value.config, "type") == ObjectTC(name))
      && (Truthy(t) && t.Str? ==> var name := o.definedTypeName(t.s);
            r.value.owner == Some(name) && r.value.created == {name} && Get(r.value.config, "type") == ObjectTC(name))
      && (Truthy(t) && !t.Str? ==>
            r.value.owner == OwnerOf(t) && r.value.created == {} && Get(r.value.config, "type") == t)
  {
    var d := IndexDefault(n.children);
    if !(d.Obj? || d.Instance?) then Err(NamespaceNotObject(n.absPath))
    else
      var t := Get(d, "type");
      if Truthy(t) then
        if t.Str? then
          var name := o.definedTypeName(t.s);
          Ok(TypeDefs(SetProp(d, "type", ObjectTC(name)), Some(name), {name}))
        else Ok(TypeDefs(d, OwnerOf(t), {}))
      else
        var name := suffix + UpperFirst(DerivedName(n.name));
        Ok(TypeDefs(SetProp(d, "type", ObjectTC(name)), Some(name), {name}))
  }

  /** `createFields` of the first builder, below the parent value whose composer (if it
      is one) takes the fields. A node can only succeed below a value that is not a
      composer by adding nothing. */
  function CreateFields(o: TypeOracle, n: RequireAstNode, suffix: string, parent: Option<string>): (r: Outcome)
    ensures n.RequireRootType? ==> r == Ok(Empty)
    ensures n.RequireFile? ==> r == CreateFileFields(n, parent)
    ensures n.RequireDir? ==> r == CreateDirFields(o, n, suffix, parent)
    ensures r.Ok? && parent.None? ==> r.value == Empty
    decreases n, 3
  {
    match n
    case RequireRootType(_, _, _) => Ok(Empty)
    case RequireFile(_, _, _) => CreateFileFields(n, parent)
    case RequireDir(_, _, _) => CreateDirFields(o, n, suffix, parent)
  }

  /** A file other than `index` adds its truthy default export, under its own name and
      with no check of that name, to the parent. */
  function CreateFileFields(n: RequireAstNode, parent: Option<string>): (r: Outcome)
    requires n.RequireFile?
    ensures n.name == "index" ==> r == Ok(Empty)
    ensures n.name != "index" && !Truthy(Get(n.code, "default")) ==> r == Err({MissingDefault(n.absPath)})
    ensures n.name != "index" && Truthy(Get(n.code, "default")) && parent.None? ==> r == Err({NotAComposer(n.absPath)})
    ensures n.name != "index" && Truthy(Get(n.code, "default")) && parent.Some? ==>
      r == Ok(Schema({}, {Field(parent.value, n.name, Get(n.code, "default"))}))
  {
    if n.name == "index" then Ok(Empty)
    else
      var d := Get(n.code, "default");
      if !Truthy(d) then Err({MissingDefault(n.absPath)})
      else if parent.None? then Err({NotAComposer(n.absPath)})
      else Ok(Schema({}, {Field(parent.value, n.name, d)}))
  }

  function CreateDirFields(o: TypeOracle, n: RequireAstNode, suffix: string, parent: Option<string>): (r: Outcome)
    requires n.RequireDir?
    ensures DirTypeDefs(o, n, suffix).Err? ==> r == Err({DirTypeDefs(o, n, suffix).error})
    ensures DirTypeDefs(o, n, suffix).Ok? ==> r == DirBody(o, n, DirTypeDefs(o, n, suffix).value, parent)
    ensures r.Ok? && parent.None? ==> r.value == Empty
    decreases n, 2
  {
    match DirTypeDefs(o, n, suffix)
    case Err(e) => Err({e})
    case Ok(td) => DirBody(o, n, td, parent)
  }

  /** The children, each passed the directory's derived name and its type value, then
      the directory's own field on the parent. */
  function DirBody(o: TypeOracle, n: RequireAstNode, td: TypeDefs, parent: Option<string>): (r: Outcome)
    requires n.RequireDir?
    ensures r.Ok? <==> parent.Some? && forall k | k in n.children :: CreateFields(o, n.children[k], DerivedName(n.name), td.owner).Ok?
    ensures r.Ok? ==> Field(parent.value, n.name, A.DirFieldConfig(td.config)) in r.value.fields && td.created <= r.value.types
    ensures r.Ok? ==> forall k | k in n.children ::
      var c := CreateFields(o, n.children[k], DerivedName(n.name), td.owner).value;
      c.types <= r.value.types && c.fields <= r.value.fields
    ensures r.Ok? ==> forall t | t in r.value.types ::
      t in td.created || exists k | k in n.children :: t in CreateFields(o, n.children[k], DerivedName(n.name), td.owner).value.types
    ensures r.Ok? ==> forall f | f in r.value.fields ::
      f == Field(parent.value, n.name, A.DirFieldConfig(td.config))
      || exists k | k in n.children :: f in CreateFields(o, n.children[k], DerivedName(n.name), td.owner).value.fields
    ensures r.Ok? && parent.None? ==> r.value == Empty
    decreases n, 1
  {
    var steps := ChildSteps(o, n, DerivedName(n.name), td.owner);
    var rest := CombineAll(steps);
    if rest.Err? then rest
    else if parent.None? then Err({NotAComposer(n.absPath)})
    else Ok(Union(Schema(td.created, {Field(parent.value, n.name, A.DirFieldConfig(td.config))}), rest.value))
  }

  function ChildSteps(o: TypeOracle, n: RequireAstNode, suffix: string, parent: Option<string>): (r: map<string, Outcome>)
    requires n.HasChildren()
    ensures r.Keys == n.children.Keys
    ensures forall k | k in n.children :: r[k] == CreateFields(o, n.children[k], suffix, parent)
    decreases n, 0
  {
    map k | k in n.children :: CreateFields(o, n.children[k], suffix, parent)
  }

  /** `populateRoot`: the root type, and each child below it with the root type's name
      passed down. */
  function PopulateRoot(o: TypeOracle, op: Operation, root: RequireAstNode): (r: Outcome)
    ensures r.Ok? ==> RootTypeName(op) in r.value.types
    ensures r.Ok? <==> !root.HasChildren() || forall k | k in root.children :: CreateFields(o, root.children[k], RootTypeName(op), Some(RootTypeName(op))).Ok?
    ensures r.Ok? && root.HasChildren() ==> forall k | k in root.children ::
      CreateFields(o, root.children[k], RootTypeName(op), Some(RootTypeName(op))).value.types <= r.value.types && CreateFields(o, root.children[k], RootTypeName(op), Some(RootTypeName(op))).value.fields <= r.value.fields
    ensures r.Ok? ==> forall t | t in r.value.types ::
      t == RootTypeName(op) || (root.HasChildren() && exists k | k in root.children :: t in CreateFields(o, root.children[k], RootTypeName(op), Some(RootTypeName(op))).value.types)
    ensures r.Ok? ==> forall f | f in r.value.fields ::
      root.HasChildren() && exists k | k in root.children :: f in CreateFields(o, root.children[k], RootTypeName(op), Some(RootTypeName(op))).value.fields
  {
    var rootName := RootTypeName(op);
    if !root.HasChildren() then Ok(Schema({rootName}, {}))
    else
      var rest :- CombineAll(ChildSteps(o, root, rootName, Some(rootName)));
      Ok(Union(Schema({rootName}, {}), rest))
  }

  function PopulateIfPresent(o: TypeOracle, ast: RequireAstResult, op: Operation, s: Schema): (r: Outcome)
    ensures op !in ast.roots ==> r == Ok(s)
    ensures op in ast.roots ==> (r.Ok? <==> PopulateRoot(o, op, ast.roots[op]).Ok?)
    ensures r.Ok? ==> s.types <= r.value.types && s.fields <= r.value.fields
    ensures r.Ok? && op in ast.roots ==> r.value == Union(s, PopulateRoot(o, op, ast.roots[op]).value)
  {
    if op in ast.roots then
      var p :- PopulateRoot(o, op, ast.roots[op]);
      Ok(Union(s, p))
    else Ok(s)
  }

  /** `requireToSchema`: a new composer populated with the query, mutation and
      subscription roots in that order. */
  function RequireToSchemaOf(o: TypeOracle, ast: RequireAstResult): (r: Outcome)
    ensures r.Ok? <==> forall op | op in ast.roots :: PopulateRoot(o, op, ast.roots[op]).Ok?
    ensures r.Ok? ==> forall op | op in ast.roots :: RootTypeName(op) in r.value.types
    ensures r.Ok? ==> forall op | op in ast.roots ::
      PopulateRoot(o, op, ast.roots[op]).value.types <= r.value.types &&
      PopulateRoot(o, op, ast.roots[op]).value.fields <= r.value.fields
    ensures r.Ok? ==> forall t | t in r.value.types ::
      t in Empty.types || exists op | op in ast.roots :: t in PopulateRoot(o, op, ast.roots[op]).value.types
    ensures r.Ok? ==> forall f | f in r.value.fields ::
      f in Empty.fields || exists op | op in ast.roots :: f in PopulateRoot(o, op, ast.roots[op]).value.fields
  {
    var s1 :- PopulateIfPresent(o, ast, Query, Empty);
    var s2 :- PopulateIfPresent(o, ast, Mutation, s1);
    var r := PopulateIfPresent(o, ast, Subscription, s2);
    RootsPopulate(o, ast);
    if r.Ok? then
      A.RootsCollected(Empty, ast.roots.Keys, map op | op in ast.roots :: PopulateRoot(o, op, ast.roots[op]).value,
        s1, s2, r.value);
      r
    else r
  }

  /** Every present root populates iff each of the three, when present, does. */
  lemma RootsPopulate(o: TypeOracle, ast: RequireAstResult)
    ensures (forall op | op in ast.roots :: PopulateRoot(o, op, ast.roots[op]).Ok?) <==>
      && (Query in ast.roots ==> PopulateRoot(o, Query, ast.roots[Query]).Ok?)
      && (Mutation in ast.roots ==> PopulateRoot(o, Mutation, ast.roots[Mutation]).Ok?)
      && (Subscription in ast.roots ==> PopulateRoot(o, Subscription, ast.roots[Subscription]).Ok?)
  {
    assert forall op | op in ast.roots :: op == Query || op == Mutation || op == Subscription;
  }

  // ---------------------------------------------------------------------------------
  // Properties

  /** The field config of a directory without an `index` file. */
  function PlainConfig(name: string): JsValue {
    A.DirFieldConfig(Obj(map["type" := ObjectTC(name)]))
  }

  /** A directory without an `index` file gets a new type named from what was passed
      down and its derived name. */
  lemma PlainTypeDefs(o: TypeOracle, d: RequireAstNode, suffix: string)
    requires d.RequireDir? && "index" !in d.children
    ensures var t := suffix + UpperFirst(DerivedName(d.name));
      DirTypeDefs(o, d, suffix) == Ok(TypeDefs(Obj(map["type" := ObjectTC(t)]), Some(t), {t}))
  {
    assert IndexDefault(d.children) == Obj(map[]);
  }

  /** An empty directory below a composer adds one type, named from what was passed
      down and its derived name, and its field of that type. */
  lemma EmptyDirFields(o: TypeOracle, d: RequireAstNode, suffix: string, parent: string)
    requires d.RequireDir? && d.children == map[]
    ensures var t := suffix + UpperFirst(DerivedName(d.name));
      CreateFields(o, d, suffix, Some(parent)) == Ok(Schema({t}, {Field(parent, d.name, PlainConfig(t))}))
  {
    var t := suffix + UpperFirst(DerivedName(d.name));
    PlainTypeDefs(o, d, suffix);
    var td := TypeDefs(Obj(map["type" := ObjectTC(t)]), Some(t), {t});
    var steps := ChildSteps(o, d, DerivedName(d.name), td.owner);
    assert steps == map[];
    CombineNone(steps);
    var own := Schema({t}, {Field(parent, d.name, PlainConfig(t))});
    assert DirBody(o, d, td, Some(parent)) == Ok(Union(own, Empty));
    assert Union(own, Empty) == own;
  }

  /** A directory without an `index` file is its body under its new type. */
  lemma PlainDirIsBody(o: TypeOracle, a: RequireAstNode, suffix: string, parent: string)
    requires a.RequireDir? && "index" !in a.children
    ensures var t := suffix + UpperFirst(DerivedName(a.name));
      CreateFields(o, a, suffix, Some(parent)) == DirBody(o, a, TypeDefs(Obj(map["type" := ObjectTC(t)]), Some(t), {t}), Some(parent))
  {
    PlainTypeDefs(o, a, suffix);
  }

  /** A body whose only child adds `inner` adds that and the directory's own field. */
  lemma OneChildBody(o: TypeOracle, a: RequireAstNode, td: TypeDefs, parent: string, k: string, inner: Schema)
    requires a.RequireDir?
    requires ChildSteps(o, a, DerivedName(a.name), td.owner) == map[k := Ok(inner)]
    ensures DirBody(o, a, td, Some(parent)) ==
      Ok(Union(Schema(td.created, {Field(parent, a.name, A.DirFieldConfig(td.config))}), inner))
  {
    CombineOne(ChildSteps(o, a, DerivedName(a.name), td.owner), k, inner);
  }

  /** The steps of a directory with a single child. */
  lemma OneChildSteps(o: TypeOracle, a: RequireAstNode, suffix: string, owner: Option<string>, k: string, c: RequireAstNode, v: Outcome)
    requires a.RequireDir? && a.children == map[k := c]
    requires CreateFields(o, c, suffix, owner) == v
    ensures ChildSteps(o, a, suffix, owner) == map[k := v]
  {
    var steps := ChildSteps(o, a, suffix, owner);
    assert a.children.Keys == {k} && a.children[k] == c;
    OneStep(steps, k, v);
  }

  /** Type names follow derived names: a directory `a` holding only an empty directory
      `b` gives `a` the type passed-down + `A'` and `b` the type `a'` + `B'`, where `a'`
      and `b'` are the derived names and `A'`, `B'` those with an upper-case first
      letter: below `query`, `user.admin/extended` gives `QueryUserAdmin` and
      `UserAdminExtended`. */
  lemma NestedTypeNames(o: TypeOracle, a: RequireAstNode, b: RequireAstNode, suffix: string, parent: string)
    requires a.RequireDir? && b.RequireDir? && a.children == map[b.name := b] && b.children == map[]
    requires b.name != "index"
    ensures var ta := suffix + UpperFirst(DerivedName(a.name));
      var tb := DerivedName(a.name) + UpperFirst(DerivedName(b.name));
      CreateFields(o, a, suffix, Some(parent)) ==
        Ok(Schema({ta, tb}, {Field(parent, a.name, PlainConfig(ta)), Field(ta, b.name, PlainConfig(tb))}))
  {
    var ta := suffix + UpperFirst(DerivedName(a.name));
    var tb := DerivedName(a.name) + UpperFirst(DerivedName(b.name));
    var td := TypeDefs(Obj(map["type" := ObjectTC(ta)]), Some(ta), {ta});
    PlainDirIsBody(o, a, suffix, parent);
    EmptyDirFields(o, b, DerivedName(a.name), ta);
    var inner := Schema({tb}, {Field(ta, b.name, PlainConfig(tb))});
    OneChildSteps(o, a, DerivedName(a.name), td.owner, b.name, b, Ok(inner));
    OneChildBody(o, a, td, parent, b.name, inner);
    TwoOfEach(ta, tb, Field(parent, a.name, PlainConfig(ta)), Field(ta, b.name, PlainConfig(tb)));
  }

  /** A directory whose `index` names an existing composer puts its children on that
      type and creates none of its own. */
  lemma ExistingTypeKept(o: TypeOracle, n: RequireAstNode, suffix: string, parent: string, t: JsValue)
    requires n.RequireDir? && "index" in n.children && n.children["index"].RequireFile?
    requires Get(n.children["index"].code, "default") == Obj(map["type" := t])
    requires t.Instance? && t.cls == ObjectTypeComposerClass
    ensures DirTypeDefs(o, n, suffix) == Ok(TypeDefs(Obj(map["type" := t]), Some(t.typeName), {}))
    ensures CreateFields(o, n, suffix, Some(parent)).Ok? ==>
      Field(parent, n.name, A.DirFieldConfig(Obj(map["type" := t]))) in CreateFields(o, n, suffix, Some(parent)).value.fields
  {
    assert Truthy(Obj(map["type" := t]));
    assert IndexDefault(n.children) == Obj(map["type" := t]);
  }
}

=== FILE: results.dfy ===
/** Failure-compatible wrappers used across the model: an optional value and a
    success-or-error result, both usable with `:-`. */
module Results {

  datatype Option<+T> = None | Some(value: T) {
    function GetOr(default: T): T {
      match this
      case Some(v) => v
      case None => default
    }
  }

  /** The outcome of an operation that the source may abort by throwing. */
  datatype Result<+T, +E> = Ok(value: T) | Err(error: E) {
    predicate IsFailure() {
      Err?
    }

    function PropagateFailure<U>(): Result<U, E>
      requires Err?
    {
      Err(error)
    }

    function Extract(): T
      requires Ok?
    {
      value
    }
  }
}

=== FILE: strings.dfy ===
/** The string operations the library relies on, for ASCII text: graphql-compose's
    `upperFirst`, JavaScript's `split`, `join`, `lastIndexOf`/`substring`, case-insensitive
    suffix tests, and the path helpers `join`/`basename` for the paths the loaders build. */
module Strings {

  function UpperChar(c: char): char {
    if 'a' <= c <= 'z' then (c as int - 32) as char else c
  }

  function LowerChar(c: char): char {
    if 'A' <= c <= 'Z' then (c as int + 32) as char else c
  }

  /** graphql-compose `upperFirst`: the first character upper-cased, the rest untouched. */
  function UpperFirst(s: string): (r: string)
    ensures |r| == |s|
    ensures |s| > 0 ==> r[0] == UpperChar(s[0]) && r[1..] == s[1..]
    ensures s == "" <==> r == ""
  {
    if |s| == 0 then s else [UpperChar(s[0])] + s[1..]
  }

  function ToLower(s: string): (r: string)
    ensures |r| == |s|
    ensures forall i | 0 <= i < |s| :: r[i] == LowerChar(s[i])
  {
    seq(|s|, i requires 0 <= i < |s| => LowerChar(s[i]))
  }

  /** Text without upper-case ASCII letters is its own lower-case form. */
  lemma ToLowerOfLower(s: string)
    requires forall i | 0 <= i < |s| :: !('A' <= s[i] <= 'Z')
    ensures ToLower(s) == s
  {
  }

  lemma ToLowerAppend(a: string, b: string)
    ensures ToLower(a + b) == ToLower(a) + ToLower(b)
  {
  }

  predicate StartsWith(s: string, prefix: string) {
    |prefix| <= |s| && s[..|prefix|] == prefix
  }

  predicate EndsWith(s: string, suffix: string) {
    |suffix| <= |s| && s[|s| - |suffix|..] == suffix
  }

  /** A `/…$/i` suffix test: equality after folding ASCII case. */
  predicate EndsWithIgnoreCase(s: string, suffix: string) {
    EndsWith(ToLower(s), ToLower(suffix))
  }

  /** JavaScript `s.split(sep)` for a one-character separator: the maximal
      separator-free pieces, in order; an empty string gives `[""]`. */
  function Split(s: string, sep: char): (r: seq<string>)
    ensures |r| >= 1
    ensures forall i | 0 <= i < |r| :: sep !in r[i]
  {
    if |s| == 0 then [""]
    else
      var rest := Split(s[1..], sep);
      if s[0] == sep then [""] + rest
      else [[s[0]] + rest[0]] + rest[1..]
  }

  /** JavaScript `parts.join(sep)`. */
  function Join(parts: seq<string>, sep: string): string {
    if |parts| == 0 then ""
    else if |parts| == 1 then parts[0]
    else parts[0] + sep + Join(parts[1..], sep)
  }

  /** Joining one more piece appends the separator and that piece. */
  lemma {:induction false} JoinSnoc(parts: seq<string>, x: string, sep: string)
    ensures Join(parts + [x], sep) == if |parts| == 0 then x else Join(parts, sep) + sep + x
  {
    if |parts| == 0 {
      assert parts + [x] == [x];
    } else if |parts| == 1 {
      assert (parts + [x])[1..] == [x];
    } else {
      JoinSnoc(parts[1..], x, sep);
      assert (parts + [x])[1..] == parts[1..] + [x];
    }
  }

  /** Joining the pieces of a split with the separator gives the string back. */
  lemma {:induction false} JoinSplit(s: string, sep: char)
    ensures Join(Split(s, sep), [sep]) == s
  {
    if |s| > 0 {
      var rest := Split(s[1..], sep);
      JoinSplit(s[1..], sep);
      assert Join(rest, [sep]) == s[1..];
      if s[0] == sep {
        assert Split(s, sep) == [""] + rest;
        assert ([""] + rest)[1..] == rest;
        assert s == [sep] + s[1..];
      } else {
        var head := [s[0]] + rest[0];
        assert Split(s, sep) == [head] + rest[1..];
        if |rest| == 1 {
          assert Join(rest, [sep]) == rest[0];
          assert s == [s[0]] + s[1..];
        } else {
          assert ([head] + rest[1..])[1..] == rest[1..];
          assert Join(rest, [sep]) == rest[0] + [sep] + Join(rest[1..], [sep]);
          assert s == [s[0]] + s[1..];
        }
      }
    }
  }

  /** Splitting a join of separator-free pieces gives the pieces back. */
  lemma {:induction false} SplitJoin(parts: seq<string>, sep: char)
    requires |parts| >= 1
    requires forall i | 0 <= i < |parts| :: sep !in parts[i]
    ensures Split(Join(parts, [sep]), sep) == parts
  {
    if |parts| == 1 {
      SplitFree(parts[0], sep);
    } else {
      SplitJoin(parts[1..], sep);
      SplitPrefix(parts[0], Join(parts[1..], [sep]), sep);
      assert Join(parts, [sep]) == parts[0] + ([sep] + Join(parts[1..], [sep]));
      assert [parts[0]] + parts[1..] == parts;
    }
  }

  /** A separator-free string splits into itself. */
  lemma {:induction false} SplitFree(s: string, sep: char)
    requires sep !in s
    ensures Split(s, sep) == [s]
  {
    if |s| > 0 {
      assert sep !in s[1..] by {
        forall i | 0 <= i < |s[1..]| ensures s[1..][i] != sep {
          assert s[1..][i] == s[i + 1];
        }
      }
      SplitFree(s[1..], sep);
      assert s == [s[0]] + s[1..];
    }
  }

  /** Splitting `a + sep + b` for a separator-free `a` puts `a` in front of the split of `b`. */
  lemma {:induction false} SplitPrefix(a: string, b: string, sep: char)
    requires sep !in a
    ensures Split(a + ([sep] + b), sep) == [a] + Split(b, sep)
  {
    if |a| == 0 {
      assert a + ([sep] + b) == [sep] + b;
      assert ([sep] + b)[1..] == b;
    } else {
      var s := a + ([sep] + b);
      assert s[1..] == a[1..] + ([sep] + b);
      assert sep !in a[1..] by {
        forall i | 0 <= i < |a[1..]| ensures a[1..][i] != sep {
          assert a[1..][i] == a[i + 1];
        }
      }
      SplitPrefix(a[1..], b, sep);
      var rest := Split(s[1..], sep);
      assert rest == [a[1..]] + Split(b, sep);
      assert s[0] == a[0];
      assert [a[0]] + a[1..] == a;
    }
  }

  /** `names.map(g).join('')`. */
  function JoinMapped(g: string -> string, names: seq<string>): string {
    if |names| == 0 then "" else g(names[0]) + JoinMapped(g, names[1..])
  }

  /** Mapping and running together distributes over concatenation. */
  lemma {:induction false} JoinMappedAppend(g: string -> string, xs: seq<string>, ys: seq<string>)
    ensures JoinMapped(g, xs + ys) == JoinMapped(g, xs) + JoinMapped(g, ys)
  {
    if |xs| > 0 {
      JoinMappedAppend(g, xs[1..], ys);
      assert (xs + ys)[1..] == xs[1..] + ys;
    } else {
      assert xs + ys == ys;
    }
  }

  /** Lower-casing undoes `upperFirst`. */
  lemma UpperFirstLower(s: string)
    ensures ToLower(UpperFirst(s)) == ToLower(s)
  {
  }

  /** Capitalising every piece before running them together changes only letter case. */
  lemma {:induction false} CapitalisedSpells(xs: seq<string>)
    ensures |JoinMapped(UpperFirst, xs)| == |Join(xs, "")|
    ensures ToLower(JoinMapped(UpperFirst, xs)) == ToLower(Join(xs, ""))
  {
    if |xs| > 0 {
      var x, rest := xs[0], xs[1..];
      CapitalisedSpells(rest);
      var up, plain := JoinMapped(UpperFirst, rest), Join(rest, "");
      calc {
        ToLower(JoinMapped(UpperFirst, xs));
        == { JoinMappedCons(UpperFirst, xs); }
        ToLower(UpperFirst(x) + up);
        == { CapitalisedStep(x, up, plain); }
        ToLower(x + plain);
        == { RunTogetherCons(xs); }
        ToLower(Join(xs, ""));
      }
    }
  }

  /** The positions, in the pieces run together, at which a non-empty piece begins. */
  function PieceStarts(xs: seq<string>): (r: set<int>)
    ensures forall k | k in r :: 0 <= k
  {
    if |xs| == 0 then {}
    else
      var later := set k | k in PieceStarts(xs[1..]) :: k + |xs[0]|;
      (if xs[0] == "" then {} else {0}) + later
  }

  /** Capitalising every piece before running them together upper-cases exactly the
      first letter of each non-empty piece and keeps every other character. */
  lemma {:induction false} CapitalisedChars(xs: seq<string>)
    ensures |JoinMapped(UpperFirst, xs)| == |Join(xs, "")|
    ensures forall k | 0 <= k < |Join(xs, "")| ::
      JoinMapped(UpperFirst, xs)[k] == if k in PieceStarts(xs) then UpperChar(Join(xs, "")[k]) else Join(xs, "")[k]
  {
    if |xs| > 0 {
      var x, rest := xs[0], xs[1..];
      CapitalisedChars(rest);
      JoinMappedCons(UpperFirst, xs);
      RunTogetherCons(xs);
      var up, plain := JoinMapped(UpperFirst, rest), Join(rest, "");
      var later := set k | k in PieceStarts(rest) :: k + |x|;
      assert PieceStarts(xs) == (if x == "" then {} else {0}) + later;
      forall k | 0 <= k < |x + plain|
        ensures (UpperFirst(x) + up)[k] == if k in PieceStarts(xs) then UpperChar((x + plain)[k]) else (x + plain)[k]
      {
        if k < |x| {
          assert k !in later;
        } else {
          assert k in later <==> k - |x| in PieceStarts(rest) by {
            if k - |x| in PieceStarts(rest) {
              assert (k - |x|) + |x| == k;
            }
          }
        }
      }
    }
  }

  /** The pieces of every string of `parts`, split on `sep`, one string after another. */
  function SplitEach(parts: seq<string>, sep: char): seq<string> {
    if |parts| == 0 then [] else Split(parts[0], sep) + SplitEach(parts[1..], sep)
  }

  /** Splitting a join cuts at the separators the join puts in and at those already
      inside the pieces, and nowhere else. */
  lemma {:induction false} SplitOfJoin(parts: seq<string>, sep: char)
    requires |parts| >= 1
    ensures Split(Join(parts, [sep]), sep) == SplitEach(parts, sep)
  {
    if |parts| == 1 {
      assert SplitEach(parts[1..], sep) == [];
    } else {
      SplitOfJoin(parts[1..], sep);
      SplitAppend(parts[0], Join(parts[1..], [sep]), sep);
      assert Join(parts, [sep]) == parts[0] + ([sep] + Join(parts[1..], [sep]));
    }
  }

  /** Running pieces together peels off the first piece. */
  lemma RunTogetherCons(xs: seq<string>)
    requires |xs| > 0
    ensures Join(xs, "") == xs[0] + Join(xs[1..], "")
  {
    JoinCons(xs[0], xs[1..], "");
    assert [xs[0]] + xs[1..] == xs;
  }

  /** Mapping and running together peels off the first piece. */
  lemma JoinMappedCons(g: string -> string, xs: seq<string>)
    requires |xs| > 0
    ensures JoinMapped(g, xs) == g(xs[0]) + JoinMapped(g, xs[1..])
  {
  }

  /** One capitalised piece in front of text that differs only in case. */
  lemma CapitalisedStep(x: string, up: string, plain: string)
    requires ToLower(up) == ToLower(plain)
    ensures ToLower(UpperFirst(x) + up) == ToLower(x + plain)
  {
    UpperFirstLower(x);
    ToLowerAppend(UpperFirst(x), up);
    ToLowerAppend(x, plain);
  }

  /** Joining dot-free pieces with the separator and then removing it runs them together. */
  lemma SeparatorsRemoved(parts: seq<string>, sep: char)
    requires forall i | 0 <= i < |parts| :: sep !in parts[i]
    ensures Without(Join(parts, [sep]), sep) == Join(parts, "")
  {
    if |parts| > 0 {
      SplitJoin(parts, sep);
      SplitSpells(Join(parts, [sep]), sep);
    }
  }

  /** `parts.filter(Boolean)` on strings: the non-empty pieces, order kept. */
  function NonEmptyParts(parts: seq<string>): (r: seq<string>)
    ensures forall i | 0 <= i < |r| :: r[i] != ""
    ensures forall x :: x in r <==> x in parts && x != ""
    ensures |r| <= |parts|
  {
    if |parts| == 0 then []
    else if parts[0] == "" then NonEmptyParts(parts[1..])
    else [parts[0]] + NonEmptyParts(parts[1..])
  }

  /** Filtering distributes over concatenation. */
  lemma {:induction false} NonEmptyPartsAppend(xs: seq<string>, ys: seq<string>)
    ensures NonEmptyParts(xs + ys) == NonEmptyParts(xs) + NonEmptyParts(ys)
  {
    if |xs| == 0 {
      assert xs + ys == ys;
    } else {
      var zs := xs + ys;
      assert zs[0] == xs[0] && zs[1..] == xs[1..] + ys;
      NonEmptyPartsAppend(xs[1..], ys);
      if xs[0] == "" {
        assert NonEmptyParts(zs) == NonEmptyParts(zs[1..]);
      } else {
        assert NonEmptyParts(zs) == [xs[0]] + NonEmptyParts(zs[1..]);
      }
    }
  }

  /** A list without empty pieces passes the filter unchanged. */
  lemma {:induction false} NonEmptyPartsKeeps(parts: seq<string>)
    requires forall i | 0 <= i < |parts| :: parts[i] != ""
    ensures NonEmptyParts(parts) == parts
  {
    if |parts| > 0 {
      NonEmptyPartsKeeps(parts[1..]);
    }
  }

  /** Dropping empty pieces does not change what the pieces spell when run together. */
  lemma {:induction false} NonEmptyPartsSpell(parts: seq<string>)
    ensures Join(NonEmptyParts(parts), "") == Join(parts, "")
  {
    if |parts| > 0 {
      NonEmptyPartsSpell(parts[1..]);
      JoinCons(parts[0], parts[1..], "");
      JoinCons(parts[0], NonEmptyParts(parts[1..]), "");
      assert [parts[0]] + parts[1..] == parts;
    }
  }

  /** Putting one more piece in front adds it and the separator (unless nothing follows). */
  lemma JoinCons(x: string, rest: seq<string>, sep: string)
    ensures Join([x] + rest, sep) == if |rest| == 0 then x else x + sep + Join(rest, sep)
  {
    assert ([x] + rest)[1..] == rest;
  }

  /** `s` with every `c` removed. */
  function Without(s: string, c: char): (r: string)
    ensures c !in r && |r| <= |s|
  {
    if |s| == 0 then "" else (if s[0] == c then "" else [s[0]]) + Without(s[1..], c)
  }

  /** The pieces of a split, run together, are the string without its separators. */
  lemma {:induction false} SplitSpells(s: string, sep: char)
    ensures Join(Split(s, sep), "") == Without(s, sep)
  {
    if |s| > 0 {
      var rest := Split(s[1..], sep);
      SplitSpells(s[1..], sep);
      if s[0] == sep {
        JoinCons("", rest, "");
      } else {
        JoinCons(rest[0], rest[1..], "");
        JoinCons([s[0]] + rest[0], rest[1..], "");
        assert [rest[0]] + rest[1..] == rest;
      }
    }
  }

  /** A separator ends the last piece of what precedes it: the split of `a + sep + b` is
      the split of `a` followed by the split of `b`. */
  lemma {:induction false} SplitAppend(a: string, b: string, sep: char)
    ensures Split(a + ([sep] + b), sep) == Split(a, sep) + Split(b, sep)
  {
    var s := a + ([sep] + b);
    if |a| == 0 {
      assert s == [sep] + b;
      assert s[1..] == b;
    } else {
      var ra, rb := Split(a[1..], sep), Split(b, sep);
      var rest := Split(s[1..], sep);
      assert rest == ra + rb by {
        assert s[1..] == a[1..] + ([sep] + b);
        SplitAppend(a[1..], b, sep);
      }
      assert s[0] == a[0];
      SplitFirst(a[0], rest, ra, rb, sep);
    }
  }

  /** The step of `SplitAppend` for the first character. */
  lemma SplitFirst(c: char, rest: seq<string>, ra: seq<string>, rb: seq<string>, sep: char)
    requires |ra| >= 1 && rest == ra + rb
    ensures (if c == sep then [""] + rest else [[c] + rest[0]] + rest[1..])
      == (if c == sep then [""] + ra else [[c] + ra[0]] + ra[1..]) + rb
  {
    if c != sep {
      assert rest[0] == ra[0];
      assert rest[1..] == ra[1..] + rb;
    }
  }

  /** JavaScript `s.lastIndexOf(c)`: the last position of `c`, or -1. */
  function LastIndexOf(s: string, c: char): (r: int)
    ensures -1 <= r < |s|
    ensures r >= 0 ==> s[r] == c && c !in s[r + 1..]
    ensures r == -1 <==> c !in s
  {
    if |s| == 0 then -1
    else if s[|s| - 1] == c then |s| - 1
    else
      var r := LastIndexOf(s[..|s| - 1], c);
      assert s == s[..|s| - 1] + [s[|s| - 1]];
      r
  }

  /** JavaScript `s.indexOf(c)`: the first position of `c`, or -1. */
  function IndexOf(s: string, c: char): (r: int)
    ensures -1 <= r < |s|
    ensures r >= 0 ==> s[r] == c && c !in s[..r]
    ensures r == -1 <==> c !in s
  {
    if |s| == 0 then -1
    else if s[0] == c then 0
    else
      var r := IndexOf(s[1..], c);
      assert s == [s[0]] + s[1..];
      if r == -1 then -1 else r + 1
  }

  /** JavaScript `s.substring(0, end)`: a negative end counts as 0. */
  function Prefix(s: string, end: int): string
    requires end <= |s|
  {
    if end <= 0 then "" else s[..end]
  }

  /** `filename.substring(0, filename.lastIndexOf('.'))`: the name before its last dot,
      or "" when there is no dot. */
  function StripExtension(filename: string): (r: string)
    ensures '.' in filename ==> |r| < |filename| && filename[..|r|] == r && filename[|r|] == '.' && '.' !in filename[|r| + 1..]
    ensures '.' !in filename ==> r == ""
  {
    Prefix(filename, LastIndexOf(filename, '.'))
  }

  /** Stripping the extension of `base.ext` gives `base`. */
  lemma StripExtensionOf(base: string, ext: string)
    requires '.' !in ext
    ensures StripExtension(base + "." + ext) == base
  {
    var f := base + "." + ext;
    forall j | |base| < j < |f| ensures f[j] != '.' {
      assert f[j] == ext[j - |base| - 1];
    }
    LastIndexOfAt(f, '.', |base|);
  }

  /** The last occurrence is the one with no occurrence after it. */
  lemma {:induction false} LastIndexOfAt(s: string, c: char, k: nat)
    requires k < |s| && s[k] == c
    requires forall j | k < j < |s| :: s[j] != c
    ensures LastIndexOf(s, c) == k
  {
    if k < |s| - 1 {
      LastIndexOfAt(s[..|s| - 1], c, k);
    }
  }

  /** `path.join(dir, name)` for a directory path and a bare entry name. */
  function JoinPath(dir: string, name: string): string {
    dir + "/" + name
  }

  /** `path.basename(p)`: what follows the last `/`. */
  function Basename(p: string): (r: string)
    ensures '/' !in r
    ensures EndsWith(p, r)
  {
    var i := LastIndexOf(p, '/');
    p[i + 1..]
  }

  lemma BasenameOfJoin(dir: string, name: string)
    ensures '/' !in name ==> Basename(JoinPath(dir, name)) == name
  {
    if '/' !in name {
      BasenameOfSlashFree(dir, name);
    }
  }

  lemma BasenameOfSlashFree(dir: string, name: string)
    requires '/' !in name
    ensures Basename(JoinPath(dir, name)) == name
  {
    var p := JoinPath(dir, name);
    forall j | |dir| < j < |p| ensures p[j] != '/' {
      assert p[j] == name[j - |dir| - 1];
    }
    LastIndexOfAt(p, '/', |dir|);
  }

  /** Decimal rendering of a natural number, as `String(n)`. */
  function NatToString(n: nat): (r: string)
    ensures |r| >= 1
    decreases n
  {
    var d := [(48 + n % 10) as char];
    if n < 10 then d else NatToString(n / 10) + d
  }
}

=== FILE: test_helpers.dfy ===
/** `_getArgsForQuery` of the test helpers: checks the variables a test supplies against
    the arguments of the field under test, and renders the variable declarations
    `($a: T $b: U)` of the query and the argument list `(a: $a b: $b)` of the field. The
    field's arguments are given as their names, printed types and non-null flags, in the
    order graphql-compose lists them; the variables in `Object.keys` order. */
module TestHelpers {
  import opened Results
  import opened Strings
  import opened JsValues

  /** One argument of the field: its name, its type as `String()` prints it, and
      whether that type is non-null. */
  datatype ArgMeta = ArgMeta(name: string, printedType: string, nonNull: bool)

  /** One own key of the test's `variables` object, with its value. */
  datatype Variable = Variable(name: string, value: JsValue)

  /** The three errors the helper throws. */
  datatype ArgsError =
    | NoArguments
    | UnknownVariable(name: string)
    | MissingRequired(name: string)

  datatype QueryArgs = QueryArgs(queryVars: string, fieldVars: string)

  predicate IsArgName(args: seq<ArgMeta>, n: string) {
    exists i | 0 <= i < |args| :: args[i].name == n
  }

  /** Every variable names an argument of the field. */
  predicate AllKnown(args: seq<ArgMeta>, vars: seq<Variable>) {
    forall i | 0 <= i < |vars| :: IsArgName(args, vars[i].name)
  }

  predicate Nullish(v: JsValue) {
    v.Null? || v.Undefined?
  }

  /** `variables[n]`: the value of the variable called `n`, else what the object's
      prototype provides under that name when the lookup sees it, else `undefined`. */
  function Lookup(vars: seq<Variable>, n: string, lookup: KeyLookup): (r: JsValue)
    ensures (forall i | 0 <= i < |vars| :: vars[i].name != n) ==>
      r == (if lookup == WithPrototype && n in ObjectPrototypeKeys then Func("Object.prototype." + n) else Undefined)
    ensures |vars| > 0 && vars[0].name == n ==> r == vars[0].value
  {
    if |vars| == 0 then
      if lookup == WithPrototype && n in ObjectPrototypeKeys then Func("Object.prototype." + n) else Undefined
    else if vars[0].name == n then vars[0].value
    else Lookup(vars[1..], n, lookup)
  }

  /** Variable names are distinct, as the keys of an object are. */
  predicate DistinctNames(vars: seq<Variable>) {
    forall i, j | 0 <= i < j < |vars| :: vars[i].name != vars[j].name
  }

  /** Looking up a variable's name gives that variable's value. */
  lemma {:induction false} LookupFinds(vars: seq<Variable>, i: nat, lookup: KeyLookup)
    requires DistinctNames(vars) && i < |vars|
    ensures Lookup(vars, vars[i].name, lookup) == vars[i].value
  {
    if i > 0 {
      assert vars[0].name != vars[i].name;
      assert vars[1..][i - 1] == vars[i];
      LookupFinds(vars[1..], i - 1, lookup);
    }
  }

  /** Every non-null argument has a value that is neither `null` nor `undefined`. */
  predicate AllProvided(args: seq<ArgMeta>, vars: seq<Variable>, lookup: KeyLookup) {
    forall j | 0 <= j < |args| :: args[j].nonNull ==> !Nullish(Lookup(vars, args[j].name, lookup))
  }

  /** `getFieldArgType(n)` printed: the type of the argument called `n`. */
  function ArgType(args: seq<ArgMeta>, n: string): (r: string)
    requires IsArgName(args, n)
    ensures exists i | 0 <= i < |args| :: args[i].name == n && args[i].printedType == r
  {
    if args[0].name == n then args[0].printedType
    else
      var i :| 0 <= i < |args| && args[i].name == n;
      assert args[1..][i - 1] == args[i];
      var r := ArgType(args[1..], n);
      assert exists i' | 0 <= i' < |args[1..]| :: args[1..][i'].name == n && args[1..][i'].printedType == r;
      var i' :| 0 <= i' < |args[1..]| && args[1..][i'].name == n && args[1..][i'].printedType == r;
      assert args[i' + 1] == args[1..][i'];
      r
  }

  /** `$n: T`, one per variable, in variable order. */
  function QueryPieces(args: seq<ArgMeta>, vars: seq<Variable>): (r: seq<string>)
    requires AllKnown(args, vars)
    ensures |r| == |vars|
    ensures forall i | 0 <= i < |vars| :: r[i] == "$" + vars[i].name + ": " + ArgType(args, vars[i].name)
  {
    if |vars| == 0 then []
    else
      var last := |vars| - 1;
      QueryPieces(args, vars[..last]) + ["$" + vars[last].name + ": " + ArgType(args, vars[last].name)]
  }

  /** `n: $n`, one per variable, in variable order. */
  function FieldPieces(vars: seq<Variable>): (r: seq<string>)
    ensures |r| == |vars|
    ensures forall i | 0 <= i < |vars| :: r[i] == vars[i].name + ": $" + vars[i].name
  {
    if |vars| == 0 then []
    else
      var last := |vars| - 1;
      FieldPieces(vars[..last]) + [vars[last].name + ": $" + vars[last].name]
  }

  /** `s ? `(${s})` : ''`. */
  function Parenthesised(s: string): (r: string)
    ensures s == "" ==> r == ""
    ensures s != "" ==> |r| == |s| + 2 && r[0] == '(' && r[|r| - 1] == ')' && r[1..|r| - 1] == s
  {
    if s == "" then "" else "(" + s + ")"
  }

  /** The two strings for variables that all name arguments. */
  function RenderArgs(args: seq<ArgMeta>, vars: seq<Variable>): (r: QueryArgs)
    requires AllKnown(args, vars)
    ensures r.queryVars == "" <==> |vars| == 0
    ensures r.fieldVars == "" <==> |vars| == 0
  {
    var q := Join(QueryPieces(args, vars), " ");
    var f := Join(FieldPieces(vars), " ");
    JoinNonEmpty(QueryPieces(args, vars), " ");
    JoinNonEmpty(FieldPieces(vars), " ");
    QueryArgs(Parenthesised(q), Parenthesised(f))
  }

  /** A join is empty iff there are no pieces, when the first piece is not empty. */
  lemma JoinNonEmpty(parts: seq<string>, sep: string)
    requires |parts| > 0 ==> parts[0] != ""
    ensures Join(parts, sep) == "" <==> |parts| == 0
  {
    if |parts| > 1 {
      assert Join(parts, sep) == parts[0] + sep + Join(parts[1..], sep);
      assert |Join(parts, sep)| >= |parts[0]|;
    }
  }

  /** `_getArgsForQuery`: variables given to a field without arguments are an error;
      then the first variable, in variable order, that names no argument is; then the
      first non-null argument, in argument order, whose variable is missing, `null` or
      `undefined`. Otherwise the rendered strings. */
  method GetArgsForQuery(args: seq<ArgMeta>, vars: seq<Variable>, lookup: KeyLookup) returns (r: Result<QueryArgs, ArgsError>)
    ensures r == Err(NoArguments) <==> |args| == 0 && |vars| > 0
    ensures r.Ok? <==> (|args| > 0 || |vars| == 0) && AllKnown(args, vars) && AllProvided(args, vars, lookup)
    ensures r.Err? && r.error.UnknownVariable? ==>
      exists i | 0 <= i < |vars| :: vars[i].name == r.error.name && !IsArgName(args, vars[i].name) && AllKnown(args, vars[..i])
    ensures r.Err? && r.error.MissingRequired? ==>
      && AllKnown(args, vars)
      && exists j | 0 <= j < |args| :: args[j].name == r.error.name && args[j].nonNull
           && Nullish(Lookup(vars, args[j].name, lookup)) && AllProvided(args[..j], vars, lookup)
    ensures r.Ok? ==> AllKnown(args, vars) && r.value == RenderArgs(args, vars)
  {
    if |args| == 0 && |vars| > 0 {
      return Err(NoArguments);
    }
    var i := FirstUnknown(args, vars);
    if i < |vars| {
      return Err(UnknownVariable(vars[i].name));
    }
    assert vars[..i] == vars;
    var j := FirstMissing(args, vars, lookup);
    if j < |args| {
      return Err(MissingRequired(args[j].name));
    }
    assert args[..j] == args;
    var queryVars, fieldVars := JoinVars(args, vars);
    return Ok(QueryArgs(Parenthesised(queryVars), Parenthesised(fieldVars)));
  }

  /** The position of the first variable that names no argument, or `|vars|`. */
  method FirstUnknown(args: seq<ArgMeta>, vars: seq<Variable>) returns (i: nat)
    ensures i <= |vars| && AllKnown(args, vars[..i])
    ensures i < |vars| ==> !IsArgName(args, vars[i].name)
  {
    i := 0;
    while i < |vars|
      invariant 0 <= i <= |vars|
      invariant AllKnown(args, vars[..i])
    {
      if !IsArgName(args, vars[i].name) {
        return;
      }
      assert vars[..i + 1] == vars[..i] + [vars[i]];
      i := i + 1;
    }
  }

  /** The position of the first non-null argument without a value, or `|args|`. */
  method FirstMissing(args: seq<ArgMeta>, vars: seq<Variable>, lookup: KeyLookup) returns (j: nat)
    ensures j <= |args| && AllProvided(args[..j], vars, lookup)
    ensures j < |args| ==> args[j].nonNull && Nullish(Lookup(vars, args[j].name, lookup))
  {
    j := 0;
    while j < |args|
      invariant 0 <= j <= |args|
      invariant AllProvided(args[..j], vars, lookup)
    {
      if args[j].nonNull && Nullish(Lookup(vars, args[j].name, lookup)) {
        return;
      }
      assert args[..j + 1] == args[..j] + [args[j]];
      j := j + 1;
    }
  }

  /** The two space-separated lists, built one variable at a time. */
  method JoinVars(args: seq<ArgMeta>, vars: seq<Variable>) returns (queryVars: string, fieldVars: string)
    requires AllKnown(args, vars)
    ensures queryVars == Join(QueryPieces(args, vars), " ")
    ensures fieldVars == Join(FieldPieces(vars), " ")
  {
    queryVars := "";
    fieldVars := "";
    var k := 0;
    while k < |vars|
      invariant 0 <= k <= |vars|
      invariant AllKnown(args, vars[..k])
      invariant queryVars == Join(QueryPieces(args, vars[..k]), " ")
      invariant fieldVars == Join(FieldPieces(vars[..k]), " ")
    {
      var q := "$" + vars[k].name + ": " + ArgType(args, vars[k].name);
      var f := vars[k].name + ": $" + vars[k].name;
      assert vars[..k + 1][..k] == vars[..k];
      assert QueryPieces(args, vars[..k + 1]) == QueryPieces(args, vars[..k]) + [q];
      assert FieldPieces(vars[..k + 1]) == FieldPieces(vars[..k]) + [f];
      JoinSnoc(QueryPieces(args, vars[..k]), q, " ");
      JoinSnoc(FieldPieces(vars[..k]), f, " ");
      if k == 0 {
        queryVars := q;
        fieldVars := f;
      } else {
        queryVars := queryVars + " " + q;
        fieldVars := fieldVars + " " + f;
      }
      k := k + 1;
    }
    assert vars[..k] == vars;
  }

  // ---------------------------------------------------------------------------------
  // Properties

  /** The types of two distinct arguments. */
  lemma TwoArgTypes(a: string, b: string, ta: string, tb: string, na: bool, nb: bool)
    requires a != b
    ensures var args := [ArgMeta(a, ta, na), ArgMeta(b, tb, nb)];
      IsArgName(args, a) && IsArgName(args, b) && ArgType(args, a) == ta && ArgType(args, b) == tb
  {
    var args := [ArgMeta(a, ta, na), ArgMeta(b, tb, nb)];
    assert args[0].name == a && args[1].name == b;
    assert args[1..] == [ArgMeta(b, tb, nb)];
    assert args[1..][0].name == b;
    assert ArgType(args[1..], b) == tb;
  }

  /** Two pieces joined with a space. */
  lemma JoinTwo(x: string, y: string)
    ensures Join([x, y], " ") == x + " " + y
  {
    assert [x, y][1..] == [y];
  }

  /** Two variables for a nullable and a non-null argument render as
      `($a: Int $b: String!)` and `(a: $a b: $b)`. */
  lemma TwoVariables(a: string, b: string, va: JsValue, vb: JsValue)
    requires a != b
    ensures var args := [ArgMeta(a, "Int", false), ArgMeta(b, "String!", true)];
      var vars := [Variable(a, va), Variable(b, vb)];
      && AllKnown(args, vars)
      && RenderArgs(args, vars) == QueryArgs(
           Parenthesised("$" + a + ": Int" + " " + "$" + b + ": String!"),
           Parenthesised(a + ": $" + a + " " + b + ": $" + b))
  {
    var args := [ArgMeta(a, "Int", false), ArgMeta(b, "String!", true)];
    var vars := [Variable(a, va), Variable(b, vb)];
    TwoArgTypes(a, b, "Int", "String!", false, true);
    assert vars[0].name == a && vars[1].name == b;
    assert AllKnown(args, vars);
    var qa := "$" + a + ": Int";
    var qb := "$" + b + ": String!";
    var fa := a + ": $" + a;
    var fb := b + ": $" + b;
    var qs := QueryPieces(args, vars);
    assert qs[0] == qa && qs[1] == qb;
    assert qs == [qa, qb];
    var fs := FieldPieces(vars);
    assert fs[0] == fa && fs[1] == fb;
    assert fs == [fa, fb];
    JoinTwo(qa, qb);
    JoinTwo(fa, fb);
    assert qa + " " + qb == "$" + a + ": Int" + " " + "$" + b + ": String!";
    assert fa + " " + fb == a + ": $" + a + " " + b + ": $" + b;
  }

  /** With the default `{}` variables, the helper succeeds exactly when no argument is
      non-null, and then both strings are empty. */
  lemma NoVariables(args: seq<ArgMeta>)
    ensures AllKnown(args, []) && RenderArgs(args, []) == QueryArgs("", "")
    ensures AllProvided(args, [], OwnKeys) <==> forall j | 0 <= j < |args| :: !args[j].nonNull
  {
    assert Join([], " ") == "";
    if !(forall j | 0 <= j < |args| :: !args[j].nonNull) {
      var j :| 0 <= j < |args| && args[j].nonNull;
      assert Lookup([], args[j].name, OwnKeys) == Undefined;
    }
  }

  /** A variable with a non-null value satisfies the argument of its name. */
  lemma ProvidedByValue(args: seq<ArgMeta>, vars: seq<Variable>, lookup: KeyLookup)
    requires DistinctNames(vars)
    requires forall j | 0 <= j < |args| :: args[j].nonNull ==>
      exists i | 0 <= i < |vars| :: vars[i].name == args[j].name && !Nullish(vars[i].value)
    ensures AllProvided(args, vars, lookup)
  {
    forall j | 0 <= j < |args| && args[j].nonNull
      ensures !Nullish(Lookup(vars, args[j].name, lookup))
    {
      var i :| 0 <= i < |vars| && vars[i].name == args[j].name && !Nullish(vars[i].value);
      LookupFinds(vars, i, lookup);
    }
  }

  /** As written: a non-null argument named like an `Object.prototype` member passes the
      check without any variable, since `variables[argName]` then reads the inherited
      function. */
  lemma PrototypeArgPasses(n: string, t: string)
    requires n in ObjectPrototypeKeys
    ensures AllProvided([ArgMeta(n, t, true)], [], WithPrototype)
    ensures !AllProvided([ArgMeta(n, t, true)], [], OwnKeys)
  {
    var args := [ArgMeta(n, t, true)];
    assert args[0].nonNull && args[0].name == n;
    assert Lookup([], n, OwnKeys) == Undefined;
  }

  /** Reading own keys only, a value that is neither `null` nor `undefined` comes from a
      variable of that name. */
  lemma {:induction false} OwnLookupFound(vars: seq<Variable>, n: string)
    ensures !Nullish(Lookup(vars, n, OwnKeys)) ==>
      exists i | 0 <= i < |vars| :: vars[i].name == n && vars[i].value == Lookup(vars, n, OwnKeys)
  {
    if |vars| > 0 && vars[0].name != n {
      OwnLookupFound(vars[1..], n);
      if !Nullish(Lookup(vars, n, OwnKeys)) {
        var i :| 0 <= i < |vars[1..]| && vars[1..][i].name == n && vars[1..][i].value == Lookup(vars[1..], n, OwnKeys);
        assert vars[i + 1] == vars[1..][i];
      }
    }
  }

  /** Corrected: reading own keys only, the check passes exactly when every non-null
      argument has a variable of its name whose value is neither `null` nor
      `undefined`. */
  lemma OwnKeysNeedsVariable(args: seq<ArgMeta>, vars: seq<Variable>)
    requires DistinctNames(vars)
    ensures AllProvided(args, vars, OwnKeys) <==>
      forall j | 0 <= j < |args| && args[j].nonNull ::
        exists i | 0 <= i < |vars| :: vars[i].name == args[j].name && !Nullish(vars[i].value)
  {
    if AllProvided(args, vars, OwnKeys) {
      forall j | 0 <= j < |args| && args[j].nonNull
        ensures exists i | 0 <= i < |vars| :: vars[i].name == args[j].name && !Nullish(vars[i].value)
      {
        OwnLookupFound(vars, args[j].name);
      }
    }
    if forall j | 0 <= j < |args| && args[j].nonNull ::
         exists i | 0 <= i < |vars| :: vars[i].name == args[j].name && !Nullish(vars[i].value) {
      ProvidedByValue(args, vars, OwnKeys);
    }
  }
}

=== FILE: visit_info.dfy ===
/** `VisitInfo`: what a schema visitor is told about a field — its operation, its name,
    the names leading to it — and the path forms derived from them: an array of
    dot-free names, the dotted string and the CamelCase string. */
module VisitInfos {
  import opened Strings
  import opened JsValues
  import opened Ast
  import DirectoryToAst

  /** The data a `VisitInfo` holds. `operation` is a plain string at run time. The
      parent node and the type registry only serve the output-type helpers, which are
      not modelled. */
  datatype VisitInfo = VisitInfo(node: AstNode, operation: string, fieldName: string, fieldPath: seq<string>)

  /** `{ includeOperation, omitFieldName }`; an absent option reads as false. */
  datatype PathOptions = PathOptions(includeOperation: bool, omitFieldName: bool)

  const NoOptions: PathOptions := PathOptions(false, false)

  predicate IsQuery(info: VisitInfo) {
    info.operation == "query"
  }

  predicate IsMutation(info: VisitInfo) {
    info.operation == "mutation"
  }

  predicate IsSubscription(info: VisitInfo) {
    info.operation == "subscription"
  }

  /** For one of the three operation keys exactly one test holds; for any other string
      none does. */
  lemma OneOperation(info: VisitInfo)
    ensures info.operation in {"query", "mutation", "subscription"} ==>
      (if IsQuery(info) then 1 else 0) + (if IsMutation(info) then 1 else 0) + (if IsSubscription(info) then 1 else 0) == 1
    ensures info.operation !in {"query", "mutation", "subscription"} ==>
      !IsQuery(info) && !IsMutation(info) && !IsSubscription(info)
  {
  }

  /** `e.split('.').filter(Boolean)`: the non-empty pieces between the dots of `e`. */
  function DotParts(e: string): (r: seq<string>)
    ensures forall i | 0 <= i < |r| :: r[i] != "" && '.' !in r[i]
  {
    var parts := Split(e, '.');
    var r := NonEmptyParts(parts);
    assert forall i | 0 <= i < |r| :: r[i] in parts;
    r
  }

  /** The pieces are exactly the non-empty pieces between the dots; run together they
      spell `e` without its dots; when no piece is empty they join back into `e`. */
  lemma DotPartsContents(e: string)
    ensures forall x :: x in DotParts(e) <==> x in Split(e, '.') && x != ""
    ensures Join(DotParts(e), "") == Without(e, '.')
    ensures (forall i | 0 <= i < |Split(e, '.')| :: Split(e, '.')[i] != "") ==> Join(DotParts(e), ".") == e
  {
    var parts := Split(e, '.');
    NonEmptyPartsSpell(parts);
    SplitSpells(e, '.');
    JoinSplit(e, '.');
    if forall i | 0 <= i < |parts| :: parts[i] != "" {
      NonEmptyPartsKeeps(parts);
    }
  }

  /** The dot between two strings separates their pieces. */
  lemma DotPartsJoin(a: string, b: string)
    ensures DotParts(a + "." + b) == DotParts(a) + DotParts(b)
  {
    assert a + "." + b == a + (['.'] + b);
    SplitAppend(a, b, '.');
    NonEmptyPartsAppend(Split(a, '.'), Split(b, '.'));
  }

  /** The names one `fieldPath` element contributes as written: split unless
      `e.indexOf('.')` is 0, i.e. unless `e` starts with a dot, in which case it is kept
      whole. */
  function PathSegments(e: string): (r: seq<string>)
    ensures !(|e| > 0 && e[0] == '.') ==> r == DotParts(e)
    ensures |e| > 0 && e[0] == '.' ==> r == [e]
  {
    if IndexOf(e, '.') != 0 then DotParts(e) else [e]
  }

  /** The `fieldPath` elements' names as written: every name is non-empty, and it is
      dot-free unless it is a whole element that starts with a dot; splitting them again
      finds the documented names. */
  function FlatPath(path: seq<string>): (r: seq<string>)
    ensures forall i | 0 <= i < |r| :: r[i] != ""
    ensures forall i | 0 <= i < |r| :: '.' !in r[i] || (r[i][0] == '.' && r[i] in path)
    ensures FlatPathIntended(r) == FlatPathIntended(path)
  {
    if |path| == 0 then []
    else
      var rest := FlatPath(path[1..]);
      FlatPathCons(path[0], path[1..], rest);
      assert [path[0]] + path[1..] == path;
      PathSegments(path[0]) + rest
  }

  /** One more element in front of a path whose names as written are `rest`. */
  lemma FlatPathCons(e: string, tail: seq<string>, rest: seq<string>)
    requires forall i | 0 <= i < |rest| :: rest[i] != ""
    requires forall i | 0 <= i < |rest| :: '.' !in rest[i] || (rest[i][0] == '.' && rest[i] in tail)
    requires FlatPathIntended(rest) == FlatPathIntended(tail)
    ensures var r := PathSegments(e) + rest;
      && (forall i | 0 <= i < |r| :: r[i] != "")
      && (forall i | 0 <= i < |r| :: '.' !in r[i] || (r[i][0] == '.' && r[i] in [e] + tail))
      && FlatPathIntended(r) == FlatPathIntended([e] + tail)
  {
    var head := PathSegments(e);
    FlatPathIntendedAppend(head, rest);
    SegmentsResplit(e);
    assert ([e] + tail)[1..] == tail;
  }

  /** As written, every element that starts with a dot is one of the names, whole. */
  lemma {:induction false} LeadingDotElementsKept(path: seq<string>)
    ensures forall i | 0 <= i < |path| && |path[i]| > 0 && path[i][0] == '.' :: path[i] in FlatPath(path)
  {
    if |path| > 0 {
      var rest := FlatPath(path[1..]);
      LeadingDotElementsKept(path[1..]);
      LeadingDotStep(path, rest);
      assert FlatPath(path) == PathSegments(path[0]) + rest;
    }
  }

  /** The step of `LeadingDotElementsKept` for the first element. */
  lemma LeadingDotStep(path: seq<string>, rest: seq<string>)
    requires |path| > 0
    requires forall i | 0 <= i < |path[1..]| && |path[1..][i]| > 0 && path[1..][i][0] == '.' :: path[1..][i] in rest
    ensures forall i | 0 <= i < |path| && |path[i]| > 0 && path[i][0] == '.' :: path[i] in PathSegments(path[0]) + rest
  {
    forall i | 0 <= i < |path| && |path[i]| > 0 && path[i][0] == '.'
      ensures path[i] in PathSegments(path[0]) + rest
    {
      if i > 0 {
        assert path[i] == path[1..][i - 1];
      }
    }
  }

  /** Splitting an element's names as written again gives its documented pieces. */
  lemma SegmentsResplit(e: string)
    ensures FlatPathIntended(PathSegments(e)) == DotParts(e)
  {
    if |e| > 0 && e[0] == '.' {
      assert FlatPathIntended([e]) == DotParts(e) + FlatPathIntended([]);
    } else {
      PlainNamesKept(DotParts(e));
    }
  }

  /** Names that are already non-empty and dot-free are their own pieces. */
  lemma {:induction false} PlainNamesKept(xs: seq<string>)
    requires forall i | 0 <= i < |xs| :: xs[i] != "" && '.' !in xs[i]
    ensures FlatPathIntended(xs) == xs
  {
    if |xs| > 0 {
      DotPartsOfName(xs[0]);
      PlainNamesKept(xs[1..]);
      assert [xs[0]] + xs[1..] == xs;
    }
  }

  /** `res.slice(1)`. */
  function DropFirst(res: seq<string>): (r: seq<string>)
    ensures |res| > 0 ==> r == res[1..]
    ensures |res| == 0 ==> r == []
  {
    if |res| == 0 then [] else res[1..]
  }

  /** `getFieldPathArray` as written: the flattened path, then the field name unsplit,
      then the first entry (the operation) dropped unless asked for. With the operation
      included, splitting the names again gives the documented array. */
  function FieldPathArray(info: VisitInfo, opts: PathOptions): (r: seq<string>)
    ensures var flat := |FlatPath(info.fieldPath)| + (if opts.omitFieldName then 0 else 1);
      |r| == if opts.includeOperation then flat else if flat == 0 then 0 else flat - 1
    ensures !opts.omitFieldName && r != [] ==> r[|r| - 1] == info.fieldName
    ensures opts.includeOperation ==> FlatPath(info.fieldPath) <= r
    ensures !opts.includeOperation && FlatPath(info.fieldPath) != [] ==> FlatPath(info.fieldPath)[1..] <= r
    ensures opts.includeOperation ==> FlatPathIntended(r) == FieldPathArrayIntended(info, opts)
  {
    var flat := FlatPath(info.fieldPath);
    var field := if opts.omitFieldName then [] else [info.fieldName];
    FieldResplit(info, field);
    IntendedFromFlat(info, opts);
    var res := flat + field;
    assert flat <= res;
    assert flat != [] ==> res[1..] == flat[1..] + field;
    if opts.includeOperation then res else DropFirst(res)
  }

  /** Splitting the names as written, the field name included, again gives the documented
      pieces. */
  lemma FieldResplit(info: VisitInfo, field: seq<string>)
    requires field == [] || field == [info.fieldName]
    ensures FlatPathIntended(FlatPath(info.fieldPath) + field) ==
      FlatPathIntended(info.fieldPath) + (if field == [] then [] else DotParts(info.fieldName))
  {
    FlatPathIntendedAppend(FlatPath(info.fieldPath), field);
    if field != [] {
      assert FlatPathIntended([info.fieldName]) == DotParts(info.fieldName) + FlatPathIntended([]);
    } else {
      assert FlatPath(info.fieldPath) + field == FlatPath(info.fieldPath);
    }
  }

  /** Every `fieldPath` element split on dots, empty pieces dropped. */
  function FlatPathIntended(path: seq<string>): (r: seq<string>)
    ensures forall i | 0 <= i < |r| :: r[i] != "" && '.' !in r[i]
  {
    if |path| == 0 then [] else DotParts(path[0]) + FlatPathIntended(path[1..])
  }

  /** Splitting element by element finds the pieces of the whole path written out with
      dots. */
  lemma {:induction false} FlatPathPieces(path: seq<string>)
    ensures FlatPathIntended(path) == DotParts(Join(path, "."))
  {
    if |path| == 0 {
      assert Split("", '.') == [""];
    } else {
      JoinCons(path[0], path[1..], ".");
      assert [path[0]] + path[1..] == path;
      if |path| > 1 {
        FlatPathPieces(path[1..]);
        DotPartsJoin(path[0], Join(path[1..], "."));
      }
    }
  }

  /** Splitting distributes over concatenation of paths. */
  lemma {:induction false} FlatPathIntendedAppend(xs: seq<string>, ys: seq<string>)
    ensures FlatPathIntended(xs + ys) == FlatPathIntended(xs) + FlatPathIntended(ys)
  {
    if |xs| == 0 {
      assert xs + ys == ys;
    } else {
      var zs := xs + ys;
      assert zs[0] == xs[0] && zs[1..] == xs[1..] + ys;
      FlatPathIntendedAppend(xs[1..], ys);
      assert FlatPathIntended(zs) == DotParts(xs[0]) + FlatPathIntended(zs[1..]);
      assert FlatPathIntended(xs) == DotParts(xs[0]) + FlatPathIntended(xs[1..]);
    }
  }

  /** The path array as documented: the pieces of the whole path, field name included,
      written out with dots; the first piece dropped unless the operation is asked for. */
  function FieldPathArrayIntended(info: VisitInfo, opts: PathOptions): (r: seq<string>)
    ensures forall i | 0 <= i < |r| :: r[i] != "" && '.' !in r[i]
    ensures
      var whole := DotParts(Join(info.fieldPath + (if opts.omitFieldName then [] else [info.fieldName]), "."));
      r == if opts.includeOperation then whole else DropFirst(whole)
  {
    var field := if opts.omitFieldName then [] else [info.fieldName];
    FlatPathIntendedAppend(info.fieldPath, field);
    FlatPathPieces(info.fieldPath + field);
    assert FlatPathIntended([info.fieldName]) == DotParts(info.fieldName) + FlatPathIntended([]);
    var res := FlatPathIntended(info.fieldPath) + (if opts.omitFieldName then [] else DotParts(info.fieldName));
    if opts.includeOperation then res else DropFirst(res)
  }

  /** `getFieldPathDotted`: the path array joined with dots. Splitting it on dots gives
      the array back when its names are dot-free; with the operation included, the
      non-empty pieces of it are the documented array. */
  function FieldPathDotted(info: VisitInfo, opts: PathOptions): (r: string)
    ensures FieldPathArray(info, opts) == [] ==> r == ""
    ensures FieldPathArray(info, opts) != [] && (forall i | 0 <= i < |FieldPathArray(info, opts)| :: '.' !in FieldPathArray(info, opts)[i]) ==>
      Split(r, '.') == FieldPathArray(info, opts)
    ensures opts.includeOperation ==> DotParts(r) == FieldPathArrayIntended(info, opts)
    ensures FieldPathArray(info, opts) != [] ==> Split(r, '.') == SplitEach(FieldPathArray(info, opts), '.')
  {
    var names := FieldPathArray(info, opts);
    FlatPathPieces(names);
    if names == [] then Join(names, ".")
    else
      SplitOfJoin(names, '.');
      if forall i | 0 <= i < |names| :: '.' !in names[i] then
        SplitJoin(names, '.');
        Join(names, ".")
      else Join(names, ".")
  }

  /** `getFieldPathCamelCase`: every name of the path array with its first letter
      upper-cased, run together: the names' letters, in order, differing only in case. */
  function FieldPathCamelCase(info: VisitInfo, opts: PathOptions): (r: string)
    ensures |r| == |Join(FieldPathArray(info, opts), "")|
    ensures ToLower(r) == ToLower(Join(FieldPathArray(info, opts), ""))
    ensures FieldPathArray(info, opts) != [] && FieldPathArray(info, opts)[0] != "" ==>
      r[0] == UpperChar(FieldPathArray(info, opts)[0][0])
    ensures var plain := Join(FieldPathArray(info, opts), "");
      forall k | 0 <= k < |plain| ::
        r[k] == if k in PieceStarts(FieldPathArray(info, opts)) then UpperChar(plain[k]) else plain[k]
  {
    var names := FieldPathArray(info, opts);
    CapitalisedSpells(names);
    CapitalisedChars(names);
    JoinMapped(UpperFirst, names)
  }

  /** The dotted form of the documented array. */
  function FieldPathDottedIntended(info: VisitInfo, opts: PathOptions): (r: string)
    ensures FieldPathArrayIntended(info, opts) != [] ==> Split(r, '.') == FieldPathArrayIntended(info, opts)
    ensures FieldPathArrayIntended(info, opts) == [] ==> r == ""
    ensures DotParts(r) == FieldPathArrayIntended(info, opts)
  {
    var names := FieldPathArrayIntended(info, opts);
    PlainNamesKept(names);
    FlatPathPieces(names);
    if names == [] then "" else
      SplitJoin(names, '.');
      Join(names, ".")
  }

  /** The CamelCase form of the documented array: the dotted form without its dots, up
      to letter case. */
  function FieldPathCamelCaseIntended(info: VisitInfo, opts: PathOptions): (r: string)
    ensures ToLower(r) == ToLower(Without(FieldPathDottedIntended(info, opts), '.'))
    ensures FieldPathArrayIntended(info, opts) != [] ==> r[0] == UpperChar(FieldPathArrayIntended(info, opts)[0][0])
    ensures var plain := Join(FieldPathArrayIntended(info, opts), "");
      |r| == |plain| &&
      forall k | 0 <= k < |plain| ::
        r[k] == if k in PieceStarts(FieldPathArrayIntended(info, opts)) then UpperChar(plain[k]) else plain[k]
  {
    var names := FieldPathArrayIntended(info, opts);
    CapitalisedSpells(names);
    CapitalisedChars(names);
    SeparatorsRemoved(names, '.');
    JoinMapped(UpperFirst, names)
  }

  /** The `fieldConfig` getter: the module default of a file, or of a directory's
      namespace file; `undefined` when there is none. */
  function FieldConfig(info: VisitInfo): (r: JsValue)
    ensures info.node.FileNode? ==> r == Get(info.node.code, "default")
    ensures info.node.HasChildren() && info.node.namespaceConfig.None? ==> r == Undefined
    ensures info.node.HasChildren() && info.node.namespaceConfig.Some? && info.node.namespaceConfig.value.FileNode? ==>
      r == Get(info.node.namespaceConfig.value.code, "default")
  {
    match info.node
    case FileNode(_, _, code, _) => Get(code, "default")
    case _ =>
      match info.node.namespaceConfig
      case None => Undefined
      case Some(ns) => if ns.FileNode? then Get(ns.code, "default") else Undefined
  }

  /** For a file the loader built from a module, the getter hands back that module's
      raw default export, of which the node's prepared config is the checked copy. */
  lemma LoadedFileConfig(l: DirectoryToAst.Loader, absPath: string, exports: JsValue, info: VisitInfo)
    requires DirectoryToAst.GetAstForFile(l, absPath, exports).Ok?
    requires DirectoryToAst.GetAstForFile(l, absPath, exports).value.Some?
    requires info.node == DirectoryToAst.GetAstForFile(l, absPath, exports).value.value
    ensures FieldConfig(info) == Get(exports, "default")
    ensures info.node.fieldConfig == DirectoryToAst.CopyConfig(l.oracle, FieldConfig(info))
  {
  }

  /** `toString`: `VisitInfo(` + the dotted path with the operation + `)`; the pieces
      inside the parentheses are the documented path array. */
  function ToString(info: VisitInfo): (r: string)
    ensures StartsWith(r, "VisitInfo(") && EndsWith(r, ")")
    ensures |r| == |FieldPathDotted(info, PathOptions(true, false))| + 11
    ensures r[10..|r| - 1] == FieldPathDotted(info, PathOptions(true, false))
    ensures DotParts(r[10..|r| - 1]) == FieldPathArrayIntended(info, PathOptions(true, false))
  {
    "VisitInfo(" + FieldPathDotted(info, PathOptions(true, false)) + ")"
  }

  /** `toString` over the documented array. */
  function ToStringIntended(info: VisitInfo): (r: string)
    ensures StartsWith(r, "VisitInfo(") && EndsWith(r, ")") && |r| >= 11
    ensures DotParts(r[10..|r| - 1]) == FieldPathArrayIntended(info, PathOptions(true, false))
    ensures FieldPathArrayIntended(info, PathOptions(true, false)) != [] ==>
      Split(r[10..|r| - 1], '.') == FieldPathArrayIntended(info, PathOptions(true, false))
  {
    var dotted := FieldPathDottedIntended(info, PathOptions(true, false));
    var r := "VisitInfo(" + dotted + ")";
    assert r[10..|r| - 1] == dotted;
    r
  }

  // ---------------------------------------------------------------------------------
  // Properties

  /** What the options do to the path array: `includeOperation` keeps the leading
      entry, `omitFieldName` leaves off the trailing field name. */
  lemma {:induction false} OptionsRelate(info: VisitInfo, omit: bool)
    ensures FieldPathArray(info, PathOptions(true, omit)) != [] ==>
      FieldPathArray(info, PathOptions(false, omit)) == FieldPathArray(info, PathOptions(true, omit))[1..]
    ensures FieldPathArray(info, PathOptions(true, false)) == FieldPathArray(info, PathOptions(true, true)) + [info.fieldName]
    ensures FieldPathArrayIntended(info, PathOptions(true, omit)) != [] ==>
      FieldPathArrayIntended(info, PathOptions(false, omit)) == FieldPathArrayIntended(info, PathOptions(true, omit))[1..]
    ensures FieldPathArrayIntended(info, PathOptions(true, false)) ==
      FieldPathArrayIntended(info, PathOptions(true, true)) + DotParts(info.fieldName)
  {
    assert FlatPath(info.fieldPath) + [] == FlatPath(info.fieldPath);
    assert FlatPathIntended(info.fieldPath) + [] == FlatPathIntended(info.fieldPath);
  }

  /** A non-empty dot-free name is its own single piece. */
  lemma DotPartsOfName(e: string)
    requires e != "" && '.' !in e
    ensures DotParts(e) == [e]
  {
    SplitFree(e, '.');
  }

  /** `a.b` splits into `a` and `b`. */
  lemma DotPartsOfPair(a: string, b: string)
    requires a != "" && '.' !in a && b != "" && '.' !in b
    ensures DotParts(a + "." + b) == [a, b]
  {
    assert a + "." + b == a + (['.'] + b);
    SplitPrefix(a, b, '.');
    SplitFree(b, '.');
    assert NonEmptyParts([a, b]) == [a] + NonEmptyParts([b]);
  }

  /** Elements that do not start with a dot are split the same by both readings. */
  lemma {:induction false} FlatPathAgrees(path: seq<string>)
    requires forall i | 0 <= i < |path| :: !(|path[i]| > 0 && path[i][0] == '.')
    ensures FlatPath(path) == FlatPathIntended(path)
  {
    if |path| > 0 {
      FlatPathAgrees(path[1..]);
    }
  }

  /** Without leading-dot elements and with a non-empty dot-free field name, the path
      array as written is the documented one. */
  lemma FieldPathArrayAgrees(info: VisitInfo, opts: PathOptions)
    requires forall i | 0 <= i < |info.fieldPath| :: !(|info.fieldPath[i]| > 0 && info.fieldPath[i][0] == '.')
    requires opts.omitFieldName || (info.fieldName != "" && '.' !in info.fieldName)
    ensures FieldPathArray(info, opts) == FieldPathArrayIntended(info, opts)
  {
    FlatPathAgrees(info.fieldPath);
    if !opts.omitFieldName {
      DotPartsOfName(info.fieldName);
    }
  }

  /** As written, a path element starting with a dot is kept whole, dot included. */
  lemma LeadingDotKept()
    ensures FlatPath([".storage"]) == [".storage"]
    ensures FlatPathIntended([".storage"]) == ["storage"]
  {
    assert FlatPath([".storage"]) == PathSegments(".storage") + FlatPath([]);
    assert Split(".storage", '.') == [""] + Split("storage", '.');
    DotPartsOfName("storage");
    assert NonEmptyParts(["", "storage"]) == NonEmptyParts(["storage"]);
    assert FlatPathIntended([".storage"]) == DotParts(".storage") + FlatPathIntended([]);
  }

  /** A name that `split('.')` leaves whole and `filter(Boolean)` keeps. */
  predicate Plain(x: string) {
    x != "" && '.' !in x
  }

  /** The shape of the documented example: field `f` under `[a.b, c, d.e]` (there
      `query.storage`, `viewer`, `utils.debug` and `ping`). */
  function Example(a: string, b: string, c: string, d: string, e: string, f: string): VisitInfo {
    VisitInfo(FileNode(f, "", Undefined, Undefined), a, f, [a + "." + b, c, d + "." + e])
  }

  lemma ExampleFlat(a: string, b: string, c: string, d: string, e: string)
    requires Plain(a) && Plain(b) && Plain(c) && Plain(d) && Plain(e)
    ensures FlatPathIntended([a + "." + b, c, d + "." + e]) == [a, b, c, d, e]
  {
    var p := [a + "." + b, c, d + "." + e];
    assert p[1..] == [c, d + "." + e] && p[1..][1..] == [d + "." + e] && p[1..][1..][1..] == [];
    DotPartsOfPair(a, b);
    DotPartsOfName(c);
    DotPartsOfPair(d, e);
    assert FlatPathIntended(p[1..][1..]) == [d, e];
    assert FlatPathIntended(p[1..]) == [c, d, e];
  }

  /** The three option combinations of the example, e.g. `storage, viewer, utils, debug,
      ping` / the same without `ping` / `query` in front. */
  lemma ExamplePathArray(a: string, b: string, c: string, d: string, e: string, f: string)
    requires Plain(a) && Plain(b) && Plain(c) && Plain(d) && Plain(e) && Plain(f)
    ensures FieldPathArrayIntended(Example(a, b, c, d, e, f), NoOptions) == [b, c, d, e, f]
    ensures FieldPathArrayIntended(Example(a, b, c, d, e, f), PathOptions(false, true)) == [b, c, d, e]
    ensures FieldPathArrayIntended(Example(a, b, c, d, e, f), PathOptions(true, false)) == [a, b, c, d, e, f]
    ensures FieldPathArray(Example(a, b, c, d, e, f), NoOptions) == [b, c, d, e, f]
  {
    ExampleIntended(a, b, c, d, e, f);
    ExampleAgrees(a, b, c, d, e, f);
  }

  lemma ExampleIntended(a: string, b: string, c: string, d: string, e: string, f: string)
    requires Plain(a) && Plain(b) && Plain(c) && Plain(d) && Plain(e) && Plain(f)
    ensures FieldPathArrayIntended(Example(a, b, c, d, e, f), NoOptions) == [b, c, d, e, f]
    ensures FieldPathArrayIntended(Example(a, b, c, d, e, f), PathOptions(false, true)) == [b, c, d, e]
    ensures FieldPathArrayIntended(Example(a, b, c, d, e, f), PathOptions(true, false)) == [a, b, c, d, e, f]
  {
    var info := Example(a, b, c, d, e, f);
    ExampleFlat(a, b, c, d, e);
    DotPartsOfName(f);
    IntendedOfFlat(info, [a, b, c, d, e], f);
    assert [a, b, c, d, e][1..] == [b, c, d, e];
  }

  /** The documented array of a field whose path pieces are `flat` and whose name is the
      single piece `f`, under the three option combinations. */
  lemma IntendedOfFlat(info: VisitInfo, flat: seq<string>, f: string)
    requires FlatPathIntended(info.fieldPath) == flat && |flat| > 0 && DotParts(info.fieldName) == [f]
    ensures FieldPathArrayIntended(info, NoOptions) == flat[1..] + [f]
    ensures FieldPathArrayIntended(info, PathOptions(false, true)) == flat[1..]
    ensures FieldPathArrayIntended(info, PathOptions(true, false)) == flat + [f]
  {
    IntendedFromFlat(info, NoOptions);
    assert (flat + [f])[1..] == flat[1..] + [f];
    IntendedFromFlat(info, PathOptions(false, true));
    assert flat + [] == flat;
    IntendedFromFlat(info, PathOptions(true, false));
  }

  /** No element of the example starts with a dot, so both readings agree on it. */
  lemma ExampleAgrees(a: string, b: string, c: string, d: string, e: string, f: string)
    requires Plain(a) && Plain(c) && Plain(d) && Plain(f)
    ensures FieldPathArray(Example(a, b, c, d, e, f), NoOptions) == FieldPathArrayIntended(Example(a, b, c, d, e, f), NoOptions)
  {
    var info := Example(a, b, c, d, e, f);
    var p := info.fieldPath;
    assert p[0][0] == a[0] && p[1][0] == c[0] && p[2][0] == d[0];
    FieldPathArrayAgrees(info, NoOptions);
  }

  /** The documented array is the documented reading of the path followed by the pieces
      of the field name, the first entry dropped unless the operation is included. */
  lemma IntendedFromFlat(info: VisitInfo, opts: PathOptions)
    ensures
      var res := FlatPathIntended(info.fieldPath) + (if opts.omitFieldName then [] else DotParts(info.fieldName));
      FieldPathArrayIntended(info, opts) == if opts.includeOperation then res else DropFirst(res)
  {
  }

  /** The dotted form of the example: `storage.viewer.utils.debug.ping`. */
  lemma ExampleDotted(a: string, b: string, c: string, d: string, e: string, f: string)
    requires Plain(a) && Plain(b) && Plain(c) && Plain(d) && Plain(e) && Plain(f)
    ensures FieldPathDotted(Example(a, b, c, d, e, f), NoOptions) == b + "." + c + "." + d + "." + e + "." + f
  {
    ExamplePathArray(a, b, c, d, e, f);
    JoinFive(b, c, d, e, f);
  }

  lemma JoinFive(b: string, c: string, d: string, e: string, f: string)
    ensures Join([b, c, d, e, f], ".") == b + "." + c + "." + d + "." + e + "." + f
  {
    var names := [b, c, d, e, f];
    assert names[1..] == [c, d, e, f] && names[1..][1..] == [d, e, f] && names[1..][1..][1..] == [e, f];
    assert names[1..][1..][1..][1..] == [f];
    assert Join([e, f], ".") == e + "." + f;
    assert Join([d, e, f], ".") == d + "." + (e + "." + f);
    assert Join([c, d, e, f], ".") == c + "." + (d + "." + (e + "." + f));
    assert Join(names, ".") == b + "." + (c + "." + (d + "." + (e + "." + f)));
  }

  /** The CamelCase form of the example with the operation: `QueryStorageViewerUtilsDebugPing`. */
  lemma ExampleCamelCase(a: string, b: string, c: string, d: string, e: string, f: string)
    requires Plain(a) && Plain(b) && Plain(c) && Plain(d) && Plain(e) && Plain(f)
    ensures FieldPathCamelCase(Example(a, b, c, d, e, f), PathOptions(true, false)) ==
      UpperFirst(a) + UpperFirst(b) + UpperFirst(c) + UpperFirst(d) + UpperFirst(e) + UpperFirst(f)
  {
    ExamplePathArray(a, b, c, d, e, f);
    JoinMappedSix(UpperFirst, a, b, c, d, e, f);
  }

  lemma JoinMappedSix(g: string -> string, a: string, b: string, c: string, d: string, e: string, f: string)
    ensures JoinMapped(g, [a, b, c, d, e, f]) == g(a) + g(b) + g(c) + g(d) + g(e) + g(f)
  {
    var s := [a, b, c, d, e, f];
    assert s[1..] == [b, c, d, e, f];
    assert s[1..][1..] == [c, d, e, f];
    assert s[1..][1..][1..] == [d, e, f];
    assert s[1..][1..][1..][1..] == [e, f];
    assert s[1..][1..][1..][1..][1..] == [f];
    assert s[1..][1..][1..][1..][1..][1..] == [];
    assert JoinMapped(g, [f]) == g(f);
    assert JoinMapped(g, [e, f]) == g(e) + g(f);
    assert JoinMapped(g, [d, e, f]) == g(d) + (g(e) + g(f));
    assert JoinMapped(g, [c, d, e, f]) == g(c) + (g(d) + (g(e) + g(f)));
    assert JoinMapped(g, [b, c, d, e, f]) == g(b) + (g(c) + (g(d) + (g(e) + g(f))));
  }

  /** As written a dotted field name stays whole, though the documented result splits
      it: `namespace.ping` under `query.storage` gives `storage, namespace.ping` rather
      than `storage, namespace, ping`. */
  lemma DottedFieldNameKept(a: string, b: string, x: string, y: string)
    requires Plain(a) && Plain(b) && Plain(x) && Plain(y)
    ensures
      var info := VisitInfo(FileNode(x, "", Undefined, Undefined), a, x + "." + y, [a + "." + b]);
      && FieldPathArray(info, NoOptions) == [b, x + "." + y]
      && FieldPathArrayIntended(info, NoOptions) == [b, x, y]
      && FieldPathArray(info, NoOptions) != FieldPathArrayIntended(info, NoOptions)
      && FieldPathCamelCase(info, NoOptions) == UpperFirst(b) + UpperFirst(x + "." + y)
      && FieldPathCamelCaseIntended(info, NoOptions) == UpperFirst(b) + UpperFirst(x) + UpperFirst(y)
  {
    var info := VisitInfo(FileNode(x, "", Undefined, Undefined), a, x + "." + y, [a + "." + b]);
    DottedFieldArrays(info, a, b, x, y);
    assert [b, x + "." + y] != [b, x, y];
    CapitalisedPair(info, b, x + "." + y);
    CapitalisedTriple(info, b, x, y);
  }

  /** With `omitFieldName` both readings leave off the whole dotted field name: field
      `x.y` under `[a.b]` gives `[b]` either way, not `[b, x]`. */
  lemma OmitDottedFieldName(a: string, b: string, x: string, y: string)
    requires Plain(a) && Plain(b) && Plain(x) && Plain(y)
    ensures
      var info := VisitInfo(FileNode(x, "", Undefined, Undefined), a, x + "." + y, [a + "." + b]);
      var opts := PathOptions(false, true);
      && FieldPathArray(info, opts) == [b]
      && FieldPathArrayIntended(info, opts) == [b]
      && FieldPathArrayIntended(info, opts) != [b, x]
  {
    var info := VisitInfo(FileNode(x, "", Undefined, Undefined), a, x + "." + y, [a + "." + b]);
    DotPartsOfPair(a, b);
    assert [a + "." + b][1..] == [];
    assert FlatPath([a + "." + b]) == [a, b];
    assert FlatPathIntended([a + "." + b]) == [a, b];
    IntendedFromFlat(info, PathOptions(false, true));
  }

  /** The two arrays of `DottedFieldNameKept`. */
  lemma DottedFieldArrays(info: VisitInfo, a: string, b: string, x: string, y: string)
    requires Plain(a) && Plain(b) && Plain(x) && Plain(y)
    requires info.fieldName == x + "." + y && info.fieldPath == [a + "." + b]
    ensures FieldPathArray(info, NoOptions) == [b, x + "." + y]
    ensures FieldPathArrayIntended(info, NoOptions) == [b, x, y]
  {
    DotPartsOfPair(a, b);
    assert [a + "." + b][1..] == [];
    assert FlatPath([a + "." + b]) == [a, b];
    assert FieldPathArrayIntended(info, NoOptions) == [b, x, y] by {
      DotPartsOfPair(x, y);
      assert FlatPathIntended([a + "." + b]) == [a, b];
      IntendedFromFlat(info, NoOptions);
    }
  }

  /** CamelCase of a two-name array as written. */
  lemma CapitalisedPair(info: VisitInfo, b: string, xy: string)
    requires FieldPathArray(info, NoOptions) == [b, xy]
    ensures FieldPathCamelCase(info, NoOptions) == UpperFirst(b) + UpperFirst(xy)
  {
    calc {
      FieldPathCamelCase(info, NoOptions);
      == { CamelIsJoinMapped(info, NoOptions); }
      JoinMapped(UpperFirst, [b, xy]);
      == { JoinMappedCons(UpperFirst, [b, xy]); assert [b, xy][1..] == [xy]; }
      UpperFirst(b) + JoinMapped(UpperFirst, [xy]);
      == { JoinMappedCons(UpperFirst, [xy]); assert [xy][1..] == []; }
      UpperFirst(b) + UpperFirst(xy);
    }
  }

  /** CamelCase of a three-name documented array. */
  lemma CapitalisedTriple(info: VisitInfo, b: string, x: string, y: string)
    requires FieldPathArrayIntended(info, NoOptions) == [b, x, y]
    ensures FieldPathCamelCaseIntended(info, NoOptions) == UpperFirst(b) + UpperFirst(x) + UpperFirst(y)
  {
    calc {
      FieldPathCamelCaseIntended(info, NoOptions);
      == { CamelIsJoinMapped(info, NoOptions); }
      JoinMapped(UpperFirst, [b, x, y]);
      == { JoinMappedCons(UpperFirst, [b, x, y]); assert [b, x, y][1..] == [x, y]; }
      UpperFirst(b) + JoinMapped(UpperFirst, [x, y]);
      == { JoinMappedCons(UpperFirst, [x, y]); assert [x, y][1..] == [y]; }
      UpperFirst(b) + (UpperFirst(x) + JoinMapped(UpperFirst, [y]));
      == { JoinMappedCons(UpperFirst, [y]); assert [y][1..] == []; }
      UpperFirst(b) + UpperFirst(x) + UpperFirst(y);
    }
  }

  /** Both CamelCase forms capitalise the names of their array and run them together. */
  lemma CamelIsJoinMapped(info: VisitInfo, opts: PathOptions)
    ensures FieldPathCamelCase(info, opts) == JoinMapped(UpperFirst, FieldPathArray(info, opts))
    ensures FieldPathCamelCaseIntended(info, opts) == JoinMapped(UpperFirst, FieldPathArrayIntended(info, opts))
  {
  }

  /** Under the same conditions the dotted and CamelCase forms as written are the
      documented ones. */
  lemma PathFormsAgree(info: VisitInfo, opts: PathOptions)
    requires forall i | 0 <= i < |info.fieldPath| :: !(|info.fieldPath[i]| > 0 && info.fieldPath[i][0] == '.')
    requires opts.omitFieldName || (info.fieldName != "" && '.' !in info.fieldName)
    ensures FieldPathDotted(info, opts) == FieldPathDottedIntended(info, opts)
    ensures FieldPathCamelCase(info, opts) == FieldPathCamelCaseIntended(info, opts)
    ensures opts == PathOptions(true, false) ==> ToString(info) == ToStringIntended(info)
  {
    FieldPathArrayAgrees(info, opts);
  }

  /** With dot-free names the CamelCase form is the dotted form without its dots, up to
      letter case. */
  lemma CamelCaseOfDotted(info: VisitInfo, opts: PathOptions)
    requires forall i | 0 <= i < |FieldPathArray(info, opts)| :: '.' !in FieldPathArray(info, opts)[i]
    ensures ToLower(FieldPathCamelCase(info, opts)) == ToLower(Without(FieldPathDotted(info, opts), '.'))
  {
    SeparatorsRemoved(FieldPathArray(info, opts), '.');
  }

  /** Field `f` under `[a, .b]` (in the source's terms `ping` under `[query, .storage]`). */
  function LeadingDotInfo(a: string, b: string, f: string): VisitInfo {
    VisitInfo(FileNode(f, "", Undefined, Undefined), a, f, [a, "." + b])
  }

  /** As written the element `.b` stays whole; documented, it loses its dot. */
  lemma LeadingDotArrays(a: string, b: string, f: string)
    requires Plain(a) && Plain(b) && Plain(f)
    ensures FieldPathArray(LeadingDotInfo(a, b, f), PathOptions(true, false)) == [a, "." + b, f]
    ensures FieldPathArrayIntended(LeadingDotInfo(a, b, f), PathOptions(true, false)) == [a, b, f]
  {
    var path := [a, "." + b];
    assert path[1..] == ["." + b];
    DotPartsOfName(a);
    DotPartsOfName(f);
    DotPartsOfName(b);
    assert PathSegments(a) == [a];
    assert PathSegments("." + b) == ["." + b];
    assert FlatPath(path[1..]) == ["." + b] + FlatPath([]);
    assert FlatPath(path) == [a] + ["." + b];
    assert Split("." + b, '.') == [""] + Split(b, '.');
    assert NonEmptyParts(["", b]) == NonEmptyParts([b]);
    assert DotParts("." + b) == [b];
    assert FlatPathIntended(path[1..]) == [b] + FlatPathIntended([]);
    assert FlatPathIntended(path) == [a] + [b];
  }

  lemma JoinThree(a: string, b: string, c: string)
    ensures Join([a, b, c], ".") == a + "." + b + "." + c
  {
    var xs := [a, b, c];
    assert xs[1..] == [b, c] && xs[1..][1..] == [c];
    assert Join([b, c], ".") == b + "." + c;
    assert Join(xs, ".") == a + "." + (b + "." + c);
  }

  /** A path element with a leading dot, as written: `[query, .storage]` and field `ping`
      give `query..storage.ping` and `VisitInfo(query..storage.ping)`. */
  lemma LeadingDotDotted(a: string, b: string, f: string)
    requires Plain(a) && Plain(b) && Plain(f)
    ensures FieldPathDotted(LeadingDotInfo(a, b, f), PathOptions(true, false)) == a + ".." + b + "." + f
    ensures ToString(LeadingDotInfo(a, b, f)) == "VisitInfo(" + a + ".." + b + "." + f + ")"
  {
    var info, opts := LeadingDotInfo(a, b, f), PathOptions(true, false);
    var dotted := a + ".." + b + "." + f;
    assert FieldPathDotted(info, opts) == dotted by {
      calc {
        FieldPathDotted(info, opts);
        == { DottedIsJoin(info, opts); LeadingDotArrays(a, b, f); }
        Join([a, "." + b, f], ".");
        == { JoinThree(a, "." + b, f); }
        a + "." + ("." + b) + "." + f;
        == { DoubleDot(a, b, f); }
        dotted;
      }
    }
    calc {
      ToString(info);
      == { ToStringIsWrapped(info); }
      "VisitInfo(" + FieldPathDotted(info, opts) + ")";
      "VisitInfo(" + dotted + ")";
      == { Wrapped(a, "..", b, f); }
      "VisitInfo(" + a + ".." + b + "." + f + ")";
    }
  }

  /** Wrapping a dotted text in `VisitInfo(…)` regroups freely. */
  lemma Wrapped(a: string, m: string, b: string, f: string)
    ensures "VisitInfo(" + (a + m + b + "." + f) + ")" == "VisitInfo(" + a + m + b + "." + f + ")"
  {
  }

  /** A dot before a name that starts with a dot makes a double dot. */
  lemma DoubleDot(a: string, b: string, f: string)
    ensures a + "." + ("." + b) + "." + f == a + ".." + b + "." + f
  {
    assert "." + "." == "..";
  }

  /** The dotted form is the path array joined with dots. */
  lemma DottedIsJoin(info: VisitInfo, opts: PathOptions)
    ensures FieldPathDotted(info, opts) == Join(FieldPathArray(info, opts), ".")
  {
  }

  /** The documented dotted form is the documented array joined with dots. */
  lemma DottedIntendedIsJoin(info: VisitInfo, opts: PathOptions)
    ensures FieldPathDottedIntended(info, opts) == Join(FieldPathArrayIntended(info, opts), ".")
  {
  }

  /** `toString` wraps the dotted form with the operation included. */
  lemma ToStringIsWrapped(info: VisitInfo)
    ensures ToString(info) == "VisitInfo(" + FieldPathDotted(info, PathOptions(true, false)) + ")"
  {
  }

  /** The documented `toString` wraps the documented dotted form. */
  lemma ToStringIntendedIsWrapped(info: VisitInfo)
    ensures ToStringIntended(info) == "VisitInfo(" + FieldPathDottedIntended(info, PathOptions(true, false)) + ")"
  {
  }

  /** The documented array gives `query.storage.ping` and `VisitInfo(query.storage.ping)`. */
  lemma LeadingDotDottedIntended(a: string, b: string, f: string)
    requires Plain(a) && Plain(b) && Plain(f)
    ensures FieldPathDottedIntended(LeadingDotInfo(a, b, f), PathOptions(true, false)) == a + "." + b + "." + f
    ensures ToStringIntended(LeadingDotInfo(a, b, f)) == "VisitInfo(" + a + "." + b + "." + f + ")"
  {
    var info, opts := LeadingDotInfo(a, b, f), PathOptions(true, false);
    assert FieldPathDottedIntended(info, opts) == a + "." + b + "." + f by {
      calc {
        FieldPathDottedIntended(info, opts);
        == { DottedIntendedIsJoin(info, opts); LeadingDotArrays(a, b, f); }
        Join([a, b, f], ".");
        == { JoinThree(a, b, f); }
        a + "." + b + "." + f;
      }
    }
    calc {
      ToStringIntended(info);
      == { ToStringIntendedIsWrapped(info); }
      "VisitInfo(" + FieldPathDottedIntended(info, opts) + ")";
      "VisitInfo(" + (a + "." + b + "." + f) + ")";
      == { Wrapped(a, ".", b, f); }
      "VisitInfo(" + a + "." + b + "." + f + ")";
    }
  }
}
